=== FILE: README.md ===
# ValidatorImpl: group-chain validation over an object graph

This project models the orchestration core of Hibernate Validator's `ValidatorImpl` (the Bean Validation
engine, JSR 303 era) and proves properties of it. It covers:

- `validate`, which walks a bean graph. An empty group request stands for the `Default` group. The request
  becomes a group chain, walked with a forward-only cursor. For each group the engine:
  - sets the current group;
  - validates the direct constraints of the object on top of the validated-object stack, then marks that
    object processed for the group;
  - cascades into every cascade-eligible member.

  After a group that is part of a group sequence, a non-empty violation list makes the cursor skip the rest
  of that sequence's run.
- Cascading. A collection or map member gets an index marker on the path. So does an array member, but its
  value is wrapped whole, as `Arrays.asList` does with a value typed `Object`. A map entry is indexed by its
  key when the key is an `Integer`, `Long` or `String`; every other element is indexed by its position.
  Each element not yet processed for the current group is validated under the one-group chain of that group.
  The per-group record of processed object identities makes the walk terminate on cyclic graphs.
- `validateProperty` and `validateValue`. They resolve a split property path against the class metadata
  (`collectMetaConstraintsForPath`). They evaluate the resolved constraint bindings group by group, each in a
  fresh context.
- The class-to-metadata cache behind `getBeanMetaData`.

Modules:

- `Wrappers`: `Option` and `Result`.
- `Groups`: the chain, the cursor moves, the schedule of validated groups, and the skip properties.
- `Graph`: the heap of objects, class metadata, index rendering, and the violations of one object.
- `Context`: the `ExecutionContext` class.
- `Walk`: heap-free facts about one step of the walk, over snapshots of the context.
- `Metadata`: the cache class, and path resolution as a function with its characterisation.
- `Validator`: the `ValidatorImpl` class.

The walk is imperative, as in the source. Context operations change an `ExecutionContext` in place. Every
loop carries its invariant. Termination of the mutual recursion between `validateInContext` and the
cascading methods is proved by the shrinking set of unprocessed (object, group) pairs.

Proved properties include:

- Each chain position is validated at most once, in increasing order.
- After a sequence group that leaves the violation list non-empty, no later group of the same contiguous run
  is validated.
- A skipped group always lies inside or directly after such a run.
- `validateValue` stops the whole chain after the first sequence group that leaves the list non-empty.
- For `validateProperty` and `validateValue` the groups run are exactly a reference schedule computed from the
  groups' own violations. The list is non-empty after a group exactly when that group, or an earlier one that
  ran, contributed a violation.
- In `validate`, once a group with a direct violation on the root has run, the list the skip test sees is
  non-empty after it and after every later group. The first group's direct violations on the root are always
  reported, and, when no cascaded value is `null`, so are those of every group that ran.
- When nothing fails, every group runs.
- `validate` processes every object reachable from the root through cascaded values (collection elements, map
  values, array and scalar values) for every group that ran. Only groups that ran are ever marked. Every
  processed object's direct violations for the group are in the result, at the path the object was marked at.
- Everything `validate` reports is genuine: a failing binding, applicable to a group that ran, declared by the
  class of an object processed for that group, at a path ending with the binding's property. Each step of the
  walk (one group, one cascaded member, one element) states the same of what it adds. Within `validateInContext`
  the violations appended while one group ran are genuine for that group.
- `validateConstraints` leaves the path unchanged and adds exactly the applicable failing bindings.
- When no cascaded value is `null`, every violation a cascaded value adds lies below the member's segment,
  carrying the index rendered for one of its elements.
- Rendered positions read back to the position, so elements indexed by position get distinct indexes. A
  whitelisted map key is rendered by its own text, so an `Integer` key `1` and a `String` key `"1"` share an
  index.
- Under a chain with distinct groups, no (object identity, group) pair is validated twice.
- Path resolution collects a binding exactly when the path resolves to a class declaring it on the last name.
- `validateProperty`/`validateValue` return exactly the violations of the groups their schedule ran.
- The cache always returns what the metadata provider builds for the class.

Three behaviours of the code are easy to miss; the model follows the code in each:

- A cascaded member whose value is `null` is skipped *after* its name was pushed, and the `continue` skips the
  pop (ValidatorImpl.java:176-180). The path is therefore restored only when no cascaded value is `null`, and
  the contracts say exactly that.
- The skip after a sequence group tests the whole accumulated violation list, not only that sequence's
  violations. Its loop calls `next()` in its own condition, so it also consumes the first group of the next
  run, even one outside any sequence (:138-141).
- `validateProperty` uses the same skip loop as `validate`; only `validateValue` leaves the chain with `break`
  (:293-296, :344-346).

## Model

| member | source | states |
|---|---|---|
| Groups.RequestedGroups | hibernate-validator/src/main/java/org/hibernate/validation/engine/ValidatorImpl.java:106-109 | an empty group request is replaced by exactly the default group; any other request is kept as given |
| Groups.SkipRun | hibernate-validator/src/main/java/org/hibernate/validation/engine/ValidatorImpl.java:139-140 | the skip loop consumes every group of the current run whose sequence is the failed group's, then one more; it always advances and never passes the end |
| Groups.NextCursor | hibernate-validator/src/main/java/org/hibernate/validation/engine/ValidatorImpl.java:130-141 | the cursor always advances and stays within the chain; it moves by exactly one unless a sequence group ran with a non-empty list |
| Groups.WalkStep | hibernate-validator/src/main/java/org/hibernate/validation/engine/ValidatorImpl.java:130-142 | running the group under the cursor and moving on extends the walk's record of validated positions |
| Groups.WalkComplete | hibernate-validator/src/main/java/org/hibernate/validation/engine/ValidatorImpl.java:130 | a walk whose cursor reached the end of the chain is a complete schedule |
| Groups.ScheduleIncreasing | hibernate-validator/src/main/java/org/hibernate/validation/engine/ValidatorImpl.java:130-142 | the validated positions are strictly increasing, so each chain entry is validated at most once |
| Groups.SequenceRunSkippedAfterFailure | hibernate-validator/src/main/java/org/hibernate/validation/engine/ValidatorImpl.java:138-141 | after a sequence group ran with a non-empty violation list, no later group of the same contiguous run of that sequence is validated |
| Groups.SkippedGroupFollowsFailedRun | hibernate-validator/src/main/java/org/hibernate/validation/engine/ValidatorImpl.java:138-141 | a group that is never validated follows a failed sequence group, with only groups of that sequence between them; so a group outside the sequence is skipped only directly after the run |
| Groups.StopAllEndsWalk | hibernate-validator/src/main/java/org/hibernate/validation/engine/ValidatorImpl.java:344-346 | under `validateValue`'s rule, a failed sequence group is the last group validated |
| Groups.CleanWalkRunsEveryGroup | hibernate-validator/src/main/java/org/hibernate/validation/engine/ValidatorImpl.java:129-142 | when the violation list stays empty, every group of the chain is validated, in chain order |
| Graph.NatToString | hibernate-validator/src/main/java/org/hibernate/validation/engine/ValidatorImpl.java:227 | `String.valueOf` of a position is a non-empty string of decimal digits |
| Graph.NatToStringRoundTrip | hibernate-validator/src/main/java/org/hibernate/validation/engine/ValidatorImpl.java:227 | reading back the decimal text of a natural number gives the number |
| Graph.IntToString | hibernate-validator/src/main/java/org/hibernate/validation/engine/ValidatorImpl.java:227 | the text of an integer is non-empty, starts with `-` exactly when the integer is negative, and is decimal digits after that sign |
| Graph.IntToStringRoundTrip | hibernate-validator/src/main/java/org/hibernate/validation/engine/ValidatorImpl.java:227-231 | the text of any integer (a position, or an `Integer`/`Long` key) is non-empty and reads back to the integer |
| Graph.IntToStringInjective | hibernate-validator/src/main/java/org/hibernate/validation/engine/ValidatorImpl.java:227 | distinct numbers render as distinct index texts |
| Graph.IsIndexKey | hibernate-validator/src/main/java/org/hibernate/validation/engine/ValidatorImpl.java:55-61 | a map key is whitelisted as an index exactly when it is an `Integer`, `Long` or `String` key |
| Graph.RenderedIndex | hibernate-validator/src/main/java/org/hibernate/validation/engine/ValidatorImpl.java:226-232 | a map entry with a whitelisted key is indexed by the key's text; any other element by the decimal text of its position, which reads back to the position |
| Graph.RenderedIndexMeaning | hibernate-validator/src/main/java/org/hibernate/validation/engine/ValidatorImpl.java:227-232 | two distinct positions whose elements are not whitelisted map entries get distinct indexes |
| Graph.DirectViolationsExactly | hibernate-validator/src/main/java/org/hibernate/validation/engine/ValidatorImpl.java:156-167 | a violation is recorded for an object under a group exactly when a binding of its class applies to the group and fails, at the path extended by that binding's property |
| Graph.DirectViolationsPaths | hibernate-validator/src/main/java/org/hibernate/validation/engine/ValidatorImpl.java:158-166 | every direct violation is about the object itself and lies exactly one segment below the current path |
| Graph.DirectViolationsCount | hibernate-validator/src/main/java/org/hibernate/validation/engine/ValidatorImpl.java:156-167 | how many direct violations a group records for an object does not depend on the path they are recorded at |
| Context.ExecutionContext.constructor | hibernate-validator/src/main/java/org/hibernate/validation/engine/ValidatorImpl.java:102-104 | a fresh context holds only the root object, an empty path, no current group, nothing processed and no violations |
| Context.ExecutionContext.PushValidatedObject | hibernate-validator/src/main/java/org/hibernate/validation/engine/ValidatorImpl.java:243 | the object becomes the top of the validated-object stack |
| Context.ExecutionContext.PopValidatedObject | hibernate-validator/src/main/java/org/hibernate/validation/engine/ValidatorImpl.java:245 | the top of the stack is removed and the rest is unchanged |
| Context.ExecutionContext.PeekValidatedObject | hibernate-validator/src/main/java/org/hibernate/validation/engine/ValidatorImpl.java:125 | the result is the top of the validated-object stack: the stack is what lies below it followed by the result |
| Context.ExecutionContext.PushProperty | hibernate-validator/src/main/java/org/hibernate/validation/engine/ValidatorImpl.java:158 | the path gains one property segment at its end |
| Context.ExecutionContext.PopProperty | hibernate-validator/src/main/java/org/hibernate/validation/engine/ValidatorImpl.java:161 | the path loses its last segment |
| Context.ExecutionContext.AppendIndexToPropertyPath | hibernate-validator/src/main/java/org/hibernate/validation/engine/ValidatorImpl.java:206 | the last segment becomes an indexed segment of the same name, its index not yet filled in |
| Context.ExecutionContext.ReplacePropertyIndex | hibernate-validator/src/main/java/org/hibernate/validation/engine/ValidatorImpl.java:241 | the index of the last segment is filled in when that segment is indexed; nothing else on the path changes |
| Context.ExecutionContext.SetCurrentGroup | hibernate-validator/src/main/java/org/hibernate/validation/engine/ValidatorImpl.java:133 | the group becomes the current group |
| Context.ExecutionContext.NeedsValidation | hibernate-validator/src/main/java/org/hibernate/validation/engine/ValidatorImpl.java:160 | a binding's group list needs validation exactly when a current group is set and is in the list; with no current group nothing does |
| Context.ExecutionContext.IsProcessedForCurrentGroup | hibernate-validator/src/main/java/org/hibernate/validation/engine/ValidatorImpl.java:236 | an object counts as processed exactly when it is not `null`, a current group is set, and its identity was marked for that group |
| Context.ExecutionContext.MarkProcessedForCurrentGroup | hibernate-validator/src/main/java/org/hibernate/validation/engine/ValidatorImpl.java:168 | the identity on top of the stack is recorded for the current group, so it counts as processed afterwards; the revalidation flag is raised exactly when it was already recorded, and a pair marked for the first time has the current path recorded as the path it was marked at |
| Context.ExecutionContext.AddFailingConstraint | hibernate-validator/src/main/java/org/hibernate/validation/engine/ValidatorImpl.java:165 | the violation is appended to the accumulated list |
| Walk.GroupRanDone | hibernate-validator/src/main/java/org/hibernate/validation/engine/ValidatorImpl.java:133-136 | one group's pass sets the group and marks the object for it. It keeps the stack, adds violations only below the current path and only new pairs of that group, and leaves the object's direct violations in the list, which is non-empty whenever the group has a direct violation on the object. Every violation added is a failing binding of the group on an object processed for it. Every pair newly marked on the way, cascaded objects included, has its object's direct violations for its group in the list, at the path it was marked at. Every object its cascaded members lead to is processed for the group, and every newly marked pair has its object's children marked for the same group |
| Walk.DirectStep | hibernate-validator/src/main/java/org/hibernate/validation/engine/ValidatorImpl.java:133-135 | setting the group and validating the direct constraints appends only violations below the path and only the pair of the object and the group, recorded at the current path; the object's direct violations are in the list, each appended violation is genuine for the group, and one is appended whenever the group has a direct violation on the object |
| Walk.DirectStepGenuine | hibernate-validator/src/main/java/org/hibernate/validation/engine/ValidatorImpl.java:156-168 | every direct violation appended for an object that is then marked for the group is genuine: its object is in the heap and marked for the group, its binding is declared by the object's class, applies to the group and fails, and its path ends with the binding's property |
| Walk.DirectViolationsGenuine | hibernate-validator/src/main/java/org/hibernate/validation/engine/ValidatorImpl.java:156-168 | every direct violation of a marked object under a group is genuine for that group |
| Walk.WalkingStep | hibernate-validator/src/main/java/org/hibernate/validation/engine/ValidatorImpl.java:130-142 | one pass of the group loop keeps the loop's facts. The walk is extended; the list grows; the object is processed for every group run so far. The path is kept. Nothing is revalidated from an unmarked start. Newly marked pairs have their objects' children marked for the same group. Every violation added is genuine for one of the groups run, and only those groups mark pairs. The list size recorded after a group with a direct violation on the object is positive. Under non-null cascades, the list up to each recorded size holds the direct violations of the groups run up to then |
| Walk.WalkedStep | hibernate-validator/src/main/java/org/hibernate/validation/engine/ValidatorImpl.java:130-136 | running one more group extends what the walk records by that group and the list's new size: the violations that group appended, between the previous size and the new one, are failing bindings of that group on objects processed for it, and the earlier groups' segments keep that property; every pair marked has its direct violations in the list at its recorded path |
| Walk.SegmentsGenuineStep | hibernate-validator/src/main/java/org/hibernate/validation/engine/ValidatorImpl.java:130-138 | the violations between the list's size before a group ran and its size after are genuine for that group, for the group just run and for every earlier one |
| Walk.WalkGenuineStep | hibernate-validator/src/main/java/org/hibernate/validation/engine/ValidatorImpl.java:130-136 | after one more group, every violation added since the walk began is still genuine for one of the groups run, and every pair marked has one of their groups |
| Walk.RootRecordedStep | hibernate-validator/src/main/java/org/hibernate/validation/engine/ValidatorImpl.java:130-138 | after one more group, the first group's direct violations on the object are still in the list, the size recorded after a group with a direct violation on the object is positive, and under non-null cascades the list up to each recorded size holds the direct violations of the groups run up to then |
| Walk.DirectsTieStep | hibernate-validator/src/main/java/org/hibernate/validation/engine/ValidatorImpl.java:130-142 | when one more group runs, the list up to each earlier recorded size still holds the direct violations of the groups run up to then, and the whole list holds those of all groups run |
| Walk.WalkedSizesPositive | hibernate-validator/src/main/java/org/hibernate/validation/engine/ValidatorImpl.java:138 | once a group with a direct violation on the object has run, the list the skip test sees is non-empty after it and after every later group |
| Walk.WalkCoversReachable | hibernate-validator/src/main/java/org/hibernate/validation/engine/ValidatorImpl.java:124-143 | a walk started with nothing processed leaves every object reachable from the root through cascaded values processed for every group it ran |
| Walk.WalkRecordsMarked | hibernate-validator/src/main/java/org/hibernate/validation/engine/ValidatorImpl.java:124-143 | a walk started with nothing processed has, for every pair it marked on an object of the heap, that object's direct violations for the pair's group in the list, at the path the pair was marked at |
| Walk.WalkResultGenuine | hibernate-validator/src/main/java/org/hibernate/validation/engine/ValidatorImpl.java:124-143 | a finished walk from an empty list with nothing processed holds only violations genuine for a group it ran, and marks only pairs of those groups |
| Walk.ClosedCoversReachable | hibernate-validator/src/main/java/org/hibernate/validation/engine/ValidatorImpl.java:236-244 | when every newly marked pair has its object's children marked for the same group, every object reachable from a marked root is marked for that group |
| Walk.SingleGroupWalkDone | hibernate-validator/src/main/java/org/hibernate/validation/engine/ValidatorImpl.java:241-244 | a finished walk of the one-group chain leaves the current group at that group or untouched, marks the object for it, puts the object's direct violations for it in the list at the starting path, and adds only violations genuine for it; every pair it marks has its direct violations in the list at its recorded path |
| Walk.SingleGroupWalkGenuine | hibernate-validator/src/main/java/org/hibernate/validation/engine/ValidatorImpl.java:244 | a walk of the one-group chain adds only violations genuine for that group |
| Walk.MembersStart | hibernate-validator/src/main/java/org/hibernate/validation/engine/ValidatorImpl.java:172-174 | the member loop's facts hold before the first member |
| Walk.MemberNullWalked | hibernate-validator/src/main/java/org/hibernate/validation/engine/ValidatorImpl.java:176-180 | a `null` member value leaves its name pushed on the path, adds no violation and marks nothing; this only happens when some cascaded value is `null` |
| Walk.MemberValueWalked | hibernate-validator/src/main/java/org/hibernate/validation/engine/ValidatorImpl.java:176-183 | a walked member value keeps the stack and the group, adds violations only below the object's path, only genuine for the group, and only new pairs of the group, each with its direct violations in the list at its recorded path; it restores the path under non-null cascades, and leaves every object the member leads to processed for the group |
| Walk.MembersStep | hibernate-validator/src/main/java/org/hibernate/validation/engine/ValidatorImpl.java:174-184 | one more walked member extends the member loop's facts: every object the members so far lead to is processed for the group, every violation added is genuine for the group, and every pair marked has its direct violations in the list at its recorded path |
| Walk.MembersDone | hibernate-validator/src/main/java/org/hibernate/validation/engine/ValidatorImpl.java:171-185 | after the last member, every object the object's cascaded members lead to is processed for the group |
| Walk.CascadingStart | hibernate-validator/src/main/java/org/hibernate/validation/engine/ValidatorImpl.java:221-224 | the element loop's facts hold before the first element |
| Walk.CascadingSkip | hibernate-validator/src/main/java/org/hibernate/validation/engine/ValidatorImpl.java:236-239 | an element already processed for the current group is passed over while the counter advances |
| Walk.ElementDone | hibernate-validator/src/main/java/org/hibernate/validation/engine/ValidatorImpl.java:241-245 | filling in the index, pushing, walking under the one-group chain and popping makes the element processed for the group, with its direct violations for the group in the list at the filled-in path. Violations are added only below the filled-in path and only genuine for the group. Every pair marked on the way has its direct violations in the list at its recorded path, and its objects' children marked for the same group. A `null` element changes nothing |
| Walk.CascadingStep | hibernate-validator/src/main/java/org/hibernate/validation/engine/ValidatorImpl.java:225-247 | a walked element extends the element loop's facts. The elements so far are processed, every pair marked has its direct violations in the list at its recorded path, and newly marked pairs have their objects' children marked. Every violation added is genuine for the group. Under non-null cascades, violations lie below the member's segment carrying one of their rendered indexes and the path keeps its shape |
| Walk.RenderedBelowStep | hibernate-validator/src/main/java/org/hibernate/validation/engine/ValidatorImpl.java:241-244 | violations added under an element's filled-in index lie below the member's segment with that element's index |
| Walk.DirectsAlongContains | hibernate-validator/src/main/java/org/hibernate/validation/engine/ValidatorImpl.java:130-136 | the violations accumulated along a walk contain the direct violations of every group that ran |
| Walk.SingleGroupChainGroups | hibernate-validator/src/main/java/org/hibernate/validation/engine/ValidatorImpl.java:244 | the chain generated for the one-group request `[currentGroup]` mentions exactly that group |
| Metadata.MetadataCache.constructor | hibernate-validator/src/main/java/org/hibernate/validation/engine/ValidatorImpl.java:72-73 | the cache starts empty |
| Metadata.MetadataCache.GetBeanMetaData | hibernate-validator/src/main/java/org/hibernate/validation/engine/ValidatorImpl.java:396-407 | a `null` class is rejected and nothing is cached. Otherwise the result is what the provider builds for the class, and the class is cached with that entry. Every cached entry agrees with the provider |
| Metadata.MembersMatchingMeaning | hibernate-validator/src/main/java/org/hibernate/validation/engine/ValidatorImpl.java:376-389 | a binding is gathered from the members exactly when one of them has the node's name and a usable type (its element type for an indexed node), and the rest of the path collects the binding there |
| Metadata.MatchingConstraintsMeaning | hibernate-validator/src/main/java/org/hibernate/validation/engine/ValidatorImpl.java:364-391 | a binding is collected exactly when the path resolves, through cascaded members of the named properties, to a class that declares it on the path's last name |
| Metadata.UnindexableContributesNothing | hibernate-validator/src/main/java/org/hibernate/validation/engine/ValidatorImpl.java:381-385 | indexing through members that have no element type resolves to nothing and collects nothing |
| Validator.AccumulatedStep | hibernate-validator/src/main/java/org/hibernate/validation/engine/ValidatorImpl.java:279-291 | one more group adds exactly its violations to what was gathered |
| Validator.AccumulatedTieStep | hibernate-validator/src/main/java/org/hibernate/validation/engine/ValidatorImpl.java:290 | after one more group, the list up to each earlier recorded size still holds exactly the violations of the groups run up to then, and the whole list those of all groups run |
| Validator.BindingStep | hibernate-validator/src/main/java/org/hibernate/validation/engine/ValidatorImpl.java:282-291 | evaluating one more binding grows the gathered set by its violation exactly when it applies to the group and fails |
| Validator.GatheredStart | hibernate-validator/src/main/java/org/hibernate/validation/engine/ValidatorImpl.java:278-279 | the group loop's facts hold before the first group |
| Validator.GatheredStep | hibernate-validator/src/main/java/org/hibernate/validation/engine/ValidatorImpl.java:279-297 | a handled group and the cursor's move keep the loop's facts: the walk is extended and follows the reference schedule, and the set of the list, and of its prefix up to each recorded size, is what the groups run up to then contribute |
| Validator.GatherScheduleStep | hibernate-validator/src/main/java/org/hibernate/validation/engine/ValidatorImpl.java:293-296 | the group just run is the next entry of the reference schedule computed from the groups' own violations, and the cursor's move continues that schedule |
| Validator.GatheredDone | hibernate-validator/src/main/java/org/hibernate/validation/engine/ValidatorImpl.java:279-297 | at the end of the chain the walk is a schedule and equals the reference schedule. The list's set is what its groups contribute; the list is non-empty after a group exactly when that group or an earlier one run contributed a violation, and empty at the end exactly when no group added anything |
| Validator.RootDirectViolationsReported | hibernate-validator/src/main/java/org/hibernate/validation/engine/ValidatorImpl.java:107-112 | for any schedule of the chain for the request in which the first group's direct violations on the root are reported and a group with such a violation leaves the list non-empty, the first group's direct violations are in the result, and an empty result means every group ran and no group of the chain has a direct violation on the root |
| Validator.WalkOutcome | hibernate-validator/src/main/java/org/hibernate/validation/engine/ValidatorImpl.java:97-113 | a finished walk from a fresh context gives `validate` its result: empty exactly when every recorded size is zero; holding the first group's direct violations on the root, and, under non-null cascades, those of every group run; empty only when no group of the chain has a direct violation on the root; the skip test sees every direct violation on the root; every reported violation is a failing binding of an object processed for a group that ran, and only those groups mark pairs; every processed pair has its object's direct violations in the result at its recorded path; every object reachable from the root is processed for every group that ran |
| Validator.ValidatorImpl.constructor | hibernate-validator/src/main/java/org/hibernate/validation/engine/ValidatorImpl.java:86-92 | the validator holds its collaborators |
| Validator.ValidatorImpl.EvaluateConstraint | hibernate-validator/src/main/java/org/hibernate/validation/engine/ValidatorImpl.java:165 | a failing binding appends one violation at the current path; a passing one appends nothing |
| Validator.ValidatorImpl.ValidateConstraints | hibernate-validator/src/main/java/org/hibernate/validation/engine/ValidatorImpl.java:151-169 | the path is unchanged. Exactly the applicable failing bindings are appended, in order, each one segment below the path. The top object is then marked processed for the current group, and when it is marked for the first time the current path is recorded for it |
| Validator.ValidatorImpl.CreateIteratorForCascadedValue | hibernate-validator/src/main/java/org/hibernate/validation/engine/ValidatorImpl.java:197-219 | a collection or map yields its elements or entries in order; an array value and a scalar value yield one element, the value itself. These are exactly the cascade elements the reachability graph is built from. Collection and array members get exactly one index marker; scalars leave the path alone |
| Validator.ValidatorImpl.ValidateInContext | hibernate-validator/src/main/java/org/hibernate/validation/engine/ValidatorImpl.java:124-144 | a `null` object leaves everything unchanged. Otherwise the groups validated form a schedule of the chain whose cursor moves follow the skip rule for a recorded list size per group, and the object is processed for each. The recorded sizes never decrease, start no lower than the list's starting length and end at its final length, and the violations between one group's recorded size and the next group's are failing bindings of that next group on objects processed for it. Every pair newly marked, cascaded objects included, has its object's direct violations for its group in the list, at the path it was marked at, and has its object's children marked for the same group; only groups run mark pairs. The list is non-empty after a group that has a direct violation on the object, and after every later one. Under non-null cascades the list after each group holds the direct violations of the groups run up to then. The stack is unchanged; violations are added only below the path; nothing is revalidated from an unmarked start |
| Validator.ValidatorImpl.WalkNextGroup | hibernate-validator/src/main/java/org/hibernate/validation/engine/ValidatorImpl.java:130-142 | one pass of the group loop keeps the loop's facts with the group run and the list's new size appended, as `WalkedStep` states them |
| Validator.ValidatorImpl.ValidateNextGroup | hibernate-validator/src/main/java/org/hibernate/validation/engine/ValidatorImpl.java:131-141 | the group under the cursor runs, as `GroupRanDone` states it (the object's direct violations are recorded, every violation added is a failing binding of that group on an object processed for it, and every pair marked has its direct violations in the list at its recorded path), and the cursor moves exactly as the skip rule says for the resulting list |
| Validator.ValidatorImpl.SkipSequenceRun | hibernate-validator/src/main/java/org/hibernate/validation/engine/ValidatorImpl.java:139-140 | the loop stops exactly where the skip rule puts the cursor |
| Validator.ValidatorImpl.ValidateGroup | hibernate-validator/src/main/java/org/hibernate/validation/engine/ValidatorImpl.java:133-136 | one group's pass over the top object, as `GroupRanDone` states it: the object's direct violations are recorded, every violation added is a failing binding of the group on an object processed for it, and every cascaded object marked has its own direct violations in the list at the path it was marked at |
| Validator.ValidatorImpl.ValidateCascadedConstraints | hibernate-validator/src/main/java/org/hibernate/validation/engine/ValidatorImpl.java:171-185 | the stack and the current group are unchanged. Violations are added only below the path, each a failing binding of the group on an object processed for it, and only pairs of the current group become processed; each of them has its object's direct violations in the list at the path it was marked at. Every object a cascaded member leads to is processed for the group, and newly marked pairs have their objects' children marked. The path is only extended, and restored under non-null cascades |
| Validator.ValidatorImpl.CascadeMemberAt | hibernate-validator/src/main/java/org/hibernate/validation/engine/ValidatorImpl.java:174-184 | one pass of the member loop extends the loop's facts to one more member, as `MembersStep` states them |
| Validator.ValidatorImpl.ValidateCascadedMember | hibernate-validator/src/main/java/org/hibernate/validation/engine/ValidatorImpl.java:174-184 | one member's pass: a `null` value leaves the name pushed; any other value has its elements walked and the name popped. Either way the stack and group are kept, violations lie below the object's path and are failing bindings of the group on objects processed for it, every pair marked has its direct violations in the list at its recorded path, and every object the member leads to is processed for the group |
| Validator.ValidatorImpl.ValidateCascadedConstraint | hibernate-validator/src/main/java/org/hibernate/validation/engine/ValidatorImpl.java:221-248 | every element is processed for the current group afterwards, and every pair marked on the way has its object's direct violations in the list at its recorded path and its objects' children marked. Violations lie below the member's parent path and are failing bindings of the group on objects processed for it; under non-null cascades they lie below the member's segment with a rendered element index. The stack and the group are unchanged |
| Validator.ValidatorImpl.CascadeAt | hibernate-validator/src/main/java/org/hibernate/validation/engine/ValidatorImpl.java:225-246 | one pass of the element loop renders the element's index and extends the loop's facts to one more element, as `CascadingStep` states them |
| Validator.ValidatorImpl.CascadeElement | hibernate-validator/src/main/java/org/hibernate/validation/engine/ValidatorImpl.java:241-245 | one unprocessed element is walked as `ElementDone` states it: it is processed for the group afterwards with its direct violations for the group in the list at its filled-in path; every pair marked on the way has its direct violations in the list at its recorded path; every violation added is a failing binding of the group on an object processed for it |
| Validator.ValidatorImpl.WalkPushedElement | hibernate-validator/src/main/java/org/hibernate/validation/engine/ValidatorImpl.java:243-245 | once the element is pushed with its index filled in, the walk under the one-group chain and the pop give what `ElementDone` states |
| Validator.ValidatorImpl.Validate | hibernate-validator/src/main/java/org/hibernate/validation/engine/ValidatorImpl.java:97-113 | a `null` bean is rejected. Otherwise the groups validated form a schedule of the chain for the request, with the default group standing in for an empty one. Every object reachable from the root through cascaded values is processed for every group that ran, and only groups that ran are marked. Every processed pair's object has its direct violations for the pair's group in the result, at the path the pair was marked at. Conversely, every reported violation is a failing binding, applicable to a group that ran, of an object processed for that group, at a path ending with the binding's property. The result is empty exactly when no group added a violation. It contains the first group's direct violations on the root; once a group with a direct violation on the root has run, the list the skip test sees is non-empty; and an empty result means no group of the chain has a direct violation on the root. Under non-null cascades it contains the root's direct violations of every group that ran. With distinct groups no pair is validated twice |
| Validator.ValidatorImpl.CollectMetaConstraintsForPath | hibernate-validator/src/main/java/org/hibernate/validation/engine/ValidatorImpl.java:364-391 | the set gains exactly the bindings the rest of the path resolves to from the class |
| Validator.ValidatorImpl.ValidateGroupConstraints | hibernate-validator/src/main/java/org/hibernate/validation/engine/ValidatorImpl.java:282-291 | the list only grows, and its set gains exactly the group's violations among the collected bindings, whatever order the set is visited in |
| Validator.ValidatorImpl.ValidateProperty | hibernate-validator/src/main/java/org/hibernate/validation/engine/ValidatorImpl.java:253-257 | a `null` bean is rejected, and a path resolving to nothing gives no violations. Otherwise the groups run are exactly the reference schedule computed from the groups' own violations among the resolved bindings, and the result is exactly those groups' violations. The list is non-empty after a group exactly when it or an earlier group run contributed; the result is empty exactly when no group added any |
| Validator.ValidatorImpl.ValidatePropertyPath | hibernate-validator/src/main/java/org/hibernate/validation/engine/ValidatorImpl.java:259-298 | a `null` bean is rejected; no resolved binding means no group runs. Otherwise the walk reaches the end of the chain following the reference schedule, and the set of the list, and of its prefix up to each recorded size, is exactly what the groups run up to then contribute |
| Validator.ValidatorImpl.ValidatePropertyGroup | hibernate-validator/src/main/java/org/hibernate/validation/engine/ValidatorImpl.java:280-296 | one group of the loop: the list only grows, its set gains exactly the group's violations on the root at the empty path, and the cursor moves as the skip rule says for the new list |
| Validator.ValidatorImpl.ValidateValue | hibernate-validator/src/main/java/org/hibernate/validation/engine/ValidatorImpl.java:303-307 | a `null` class is rejected, and a path resolving to nothing gives no violations. Otherwise the groups run are exactly the reference schedule that stops at the first sequence group leaving the list non-empty. The result is exactly their violations against the value, at the path as written. The list is non-empty after a group exactly when it or an earlier group run contributed; the result is empty exactly when no group added any |
| Validator.ValidatorImpl.ValidateValuePath | hibernate-validator/src/main/java/org/hibernate/validation/engine/ValidatorImpl.java:313-348 | a `null` class is rejected; no resolved binding means no group runs. Otherwise the walk follows the reference schedule, which ends at the end of the chain or after a sequence group that leaves the list non-empty, and the set of the list, and of its prefix up to each recorded size, is what the groups run up to then contribute |

## Left out

- Reflection (`ReflectionHelper`). Member values, runtime classes, collection contents and element types are data in the heap and in the class metadata.
- Metadata extraction (`BeanMetaDataImpl` and `BuiltinConstraints`). The metadata provider is a total function from class to metadata. The orchestration reads it directly; the cache that stands in front of it is modelled on its own, and its contract shows it always returns the provider's entry.
- The concurrency of the static `ConcurrentHashMap` cache. The cache is modelled as a sequential map.
- `getConstraintsForClass` and `BeanDescriptor`, a thin wrapper over the metadata.
- Constraint evaluation, `MessageInterpolator` and `ConstraintValidatorFactory`. These are one predicate, `fails`, on a binding and its subject. A violation records the binding, the path and the subject; message texts are not modelled.
- `GroupChainGenerator`, `GroupChain`, `ExecutionContext` and `PropertyIterator` are not part of this model's source. The chain generator is a parameter. The cascade's one-group request is taken to yield the chain `[Group(g, no sequence, not part of one)]`. The context's operations carry the contracts their uses need. A property path comes already split into nodes.
- Java `HashSet` deduplication by `equals`/`hashCode` is modelled as set conversion on value equality.
- `Iterator` semantics of arbitrary collections are modelled as sequences in iteration order.
- IllegalArgumentException is modelled as a `Failure` result, and no other exception is modelled.
- A `null` map key would throw at ValidatorImpl.java:230. Keys here are never `null`.
- An element that is itself a `Map.Entry` inside a plain collection is treated as a plain element. Only the entries of a map are unpacked.
- CreateIteratorForCascadedValue: requires a collection-typed member to hold an `Iterable` or a `Map`. The cast at :201 would otherwise throw.
- ValidateCascadedConstraint: the position counter is an unbounded integer. Java's `int` would wrap after 2^31 - 1 elements.
- CollectMetaConstraintsForPath: when two cascaded members of one class share the path node's name, each recursion resolves the rest of the path from the same node. The source shares one `PropertyIterator` across both recursions, so the second would start where the first left off.
- ValidateProperty: requires a non-empty split path. How `PropertyIterator` splits an empty name is not part of this model.
- ValidatePropertyPath: requires a non-empty split path, for the same reason.
- ValidateValue: requires a non-empty split path, for the same reason.
- ValidateValuePath: requires a non-empty split path, for the same reason.
- ValidatePropertyPath: the resolved constraints are evaluated against the root bean, with an empty context path. This is as the source passes `object` (:286-289), also for nested paths; no nested object is looked up.
- The list parameter of the private `validateProperty` and `validateValue` overloads is returned rather than filled in place. Their only callers pass a fresh empty list.
- Validate: every processed object's direct violations are proved to be in the result at the path recorded when the object was marked (the ghost map `markedAt`), but that path is not characterised as the member names and indexes leading to the object. For the root it is: the first group's direct violations are at the empty path, and so are those of every group that ran when no object in the heap has a `null` cascaded value. The condition is needed because the path is not restored after a `null` member.
- Validate: the groups run are tied to the list the skip test sees only through the root's direct violations. Violations of cascaded objects also feed that test, so the schedule is not given by a reference definition as it is for ValidateProperty and ValidateValue.
- ValidateInContext: a group's recorded size is not stated to equal the list's length right after that group ran. The contract ties the sizes to the list through their order, the final length, and each group's segment holding only violations genuine for that group.
- ValidateInContext: the guarantee that no pair is validated twice is carried by a ghost flag that the context raises when it marks an already-marked pair.

=== FILE: context.dfy ===
/**
 * The mutable traversal state of one validation call (`ExecutionContext`): the stack of objects
 * being validated, the property path, the current group, the per-group record of processed object
 * identities and the accumulated violations. The class itself is not part of this model's source;
 * each operation carries the contract its uses in ValidatorImpl.java rely on.
 */
module Context {
  import opened Wrappers
  import opened Groups
  import opened Graph

  /** The fields of an `ExecutionContext` at one moment, as one value. */
  datatype State = State(validatedObjects: seq<Ref>, path: seq<Segment>, currentGroup: Option<GroupId>,
                         processed: set<(Handle, GroupId)>, failing: seq<Violation>, revalidated: bool,
                         markedAt: map<(Handle, GroupId), seq<Segment>>)

  class ExecutionContext {
    var validatedObjects: seq<Ref>
    var path: seq<Segment>
    var currentGroup: Option<GroupId>
    var processed: set<(Handle, GroupId)>
    var failing: seq<Violation>
    /** Set once an object is marked processed for a group it had already been processed for. */
    ghost var revalidated: bool
    /** The path at which each (object identity, group) pair was first marked processed. */
    ghost var markedAt: map<(Handle, GroupId), seq<Segment>>

    /** A fresh context has the root object on its stack and nothing else. */
    constructor (root: Ref)
      ensures validatedObjects == [root] && path == [] && currentGroup == None
      ensures processed == {} && failing == [] && !revalidated && markedAt == map[]
    {
      validatedObjects := [root];
      path := [];
      currentGroup := None;
      processed := {};
      failing := [];
      revalidated := false;
      markedAt := map[];
    }

    ghost function Snapshot(): State
      reads this
    {
      State(validatedObjects, path, currentGroup, processed, failing, revalidated, markedAt)
    }

    /** The object on top of the stack: the stack is what lies below it with it pushed on top. */
    function PeekValidatedObject(): (top: Ref)
      reads this
      requires |validatedObjects| > 0
      ensures validatedObjects == validatedObjects[..|validatedObjects| - 1] + [top]
    {
      validatedObjects[|validatedObjects| - 1]
    }

    method PushValidatedObject(r: Ref)
      modifies this`validatedObjects
      ensures validatedObjects == old(validatedObjects) + [r]
    {
      validatedObjects := validatedObjects + [r];
    }

    method PopValidatedObject()
      requires |validatedObjects| > 0
      modifies this`validatedObjects
      ensures validatedObjects == old(validatedObjects)[..|old(validatedObjects)| - 1]
    {
      validatedObjects := validatedObjects[..|validatedObjects| - 1];
    }

    method PushProperty(name: string)
      modifies this`path
      ensures path == old(path) + [Property(name)]
    {
      path := path + [Property(name)];
    }

    method PopProperty()
      requires |path| > 0
      modifies this`path
      ensures path == old(path)[..|old(path)| - 1]
    {
      path := path[..|path| - 1];
    }

    /** Marks the deepest segment as indexed; its index is filled in later. */
    method AppendIndexToPropertyPath()
      requires |path| > 0
      modifies this`path
      ensures path == old(path)[..|old(path)| - 1] + [Indexed(old(path)[|old(path)| - 1].name, None)]
    {
      path := path[..|path| - 1] + [Indexed(path[|path| - 1].name, None)];
    }

    /** Fills in the index of the deepest segment when it is indexed. */
    method ReplacePropertyIndex(index: string)
      modifies this`path
      ensures |old(path)| == 0 ==> path == old(path)
      ensures |old(path)| > 0 ==> path == old(path)[..|old(path)| - 1] + [SetIndex(old(path)[|old(path)| - 1], index)]
    {
      if |path| > 0 {
        path := path[..|path| - 1] + [SetIndex(path[|path| - 1], index)];
      }
    }

    method SetCurrentGroup(g: GroupId)
      modifies this`currentGroup
      ensures currentGroup == Some(g)
    {
      currentGroup := Some(g);
    }

    /** Whether a binding with these groups applies: only once a group is current, and then when it is one of them. */
    function NeedsValidation(groups: set<GroupId>): (r: bool)
      reads this
      ensures currentGroup.None? ==> !r
      ensures currentGroup.Some? ==> (r <==> currentGroup.value in groups)
    {
      currentGroup.Some? && currentGroup.value in groups
    }

    /** Identity-based test against the pairs recorded under the current group; `null` is never processed. */
    function IsProcessedForCurrentGroup(r: Ref): (b: bool)
      reads this
      ensures r.Null? || currentGroup.None? ==> !b
      ensures r.Ptr? && currentGroup.Some? ==> (b <==> (r.handle, currentGroup.value) in processed)
    {
      r.Ptr? && currentGroup.Some? && (r.handle, currentGroup.value) in processed
    }

    /** Records the object on top of the stack as processed for the current group. */
    method MarkProcessedForCurrentGroup()
      requires |validatedObjects| > 0 && PeekValidatedObject().Ptr? && currentGroup.Some?
      modifies this`processed, this`revalidated, this`markedAt
      ensures processed == old(processed) + {(PeekValidatedObject().handle, currentGroup.value)}
      ensures revalidated == (old(revalidated) || (PeekValidatedObject().handle, currentGroup.value) in old(processed))
      ensures markedAt == if (PeekValidatedObject().handle, currentGroup.value) in old(processed) then old(markedAt)
                          else old(markedAt)[(PeekValidatedObject().handle, currentGroup.value) := path]
      ensures IsProcessedForCurrentGroup(PeekValidatedObject())
    {
      var p := (PeekValidatedObject().handle, currentGroup.value);
      revalidated := revalidated || p in processed;
      if p !in processed {
        markedAt := markedAt[p := path];
      }
      processed := processed + {p};
    }

    /** What a constraint evaluator does with a failure: append it to the accumulated list. */
    method AddFailingConstraint(v: Violation)
      modifies this`failing
      ensures failing == old(failing) + [v]
    {
      failing := failing + [v];
    }
  }
}

=== FILE: graph.dfy ===
/**
 * The object graph under validation, the class metadata consumed from the metadata provider,
 * the rendering of property-path indexes, and the violations a group produces for one object.
 *
 * Objects are handles into a heap; identity is handle equality. Reflection is replaced by data:
 * every object records its runtime class, its property values by name and, for collections,
 * maps and arrays, its elements in iteration order.
 */
module Graph {
  import opened Wrappers
  import opened Groups

  type Handle = nat
  type ClassId = nat

  /** A Java reference: `null` or an object of the heap. */
  datatype Ref = Null | Ptr(handle: Handle)

  /** A map key, classified by its runtime class. */
  datatype Key =
    | IntegerKey(i: int)
    | LongKey(l: int)
    | StringKey(s: string)
    | OtherKey(cls: ClassId)

  /** What an object holds besides its properties. */
  datatype Content =
    | Plain
    | Elements(items: seq<Ref>)
    | Entries(entries: seq<(Key, Ref)>)
    | ArrayOf(cells: seq<Ref>)

  datatype HeapObject = HeapObject(cls: ClassId, fields: map<string, Ref>, content: Content)

  type Heap = map<Handle, HeapObject>

  /** How the declared type of a cascaded member is classified (`isCollection` covers maps too). */
  datatype MemberKind = Scalar | Collection | Array

  /** A cascade-eligible member: its name, declared type and, when indexable, its element type. */
  datatype CascadeMember = CascadeMember(name: string, kind: MemberKind, declared: ClassId, indexedType: Option<ClassId>)

  /** A constraint bound to a property, with the groups it applies to. */
  datatype Binding = Binding(id: nat, property: string, groups: set<GroupId>)

  /** What the metadata provider knows about one class. */
  datatype BeanMeta = BeanMeta(constraints: seq<Binding>, cascaded: seq<CascadeMember>)

  /** The usage errors the entry points raise as `IllegalArgumentException`. */
  datatype ValidationError = NullObject | NullClass

  /** What a constraint is evaluated against: a bean's property, or a standalone candidate value. */
  datatype Subject = Bean(handle: Handle) | Value(value: Ref)

  /** A path segment; an indexed segment carries its rendered index once one has been filled in. */
  datatype Segment = Property(name: string) | Indexed(name: string, index: Option<string>)

  datatype Violation = Violation(constraint: Binding, path: seq<Segment>, subject: Subject)

  /** One element produced for a cascaded value: a plain element or a map entry. */
  datatype Element = Item(value: Ref) | Entry(key: Key, value: Ref)

  // ---------------------------------------------------------------- well-formed graphs

  predicate RefIn(heap: Heap, r: Ref)
  {
    r.Null? || r.handle in heap
  }

  predicate ContentIn(heap: Heap, c: Content)
  {
    match c
    case Plain => true
    case Elements(items) => forall i :: 0 <= i < |items| ==> RefIn(heap, items[i])
    case Entries(entries) => forall i :: 0 <= i < |entries| ==> RefIn(heap, entries[i].1)
    case ArrayOf(cells) => forall i :: 0 <= i < |cells| ==> RefIn(heap, cells[i])
  }

  /** Reflection can read the member, and a collection-typed member holds an `Iterable` or a `Map`. */
  predicate MemberFits(heap: Heap, o: HeapObject, m: CascadeMember)
  {
    && m.name in o.fields
    && (m.kind == Collection && o.fields[m.name].Ptr? && o.fields[m.name].handle in heap ==>
          heap[o.fields[m.name].handle].content.Elements? || heap[o.fields[m.name].handle].content.Entries?)
  }

  predicate ObjectFits(heap: Heap, meta: ClassId -> BeanMeta, o: HeapObject)
  {
    && (forall f :: f in o.fields ==> RefIn(heap, o.fields[f]))
    && ContentIn(heap, o.content)
    && forall j :: 0 <= j < |meta(o.cls).cascaded| ==> MemberFits(heap, o, meta(o.cls).cascaded[j])
  }

  /** The heap is closed under references and agrees with the declared member types. */
  ghost predicate WellFormed(heap: Heap, meta: ClassId -> BeanMeta)
  {
    forall h :: h in heap ==> ObjectFits(heap, meta, heap[h])
  }

  /** No cascade-eligible member of any object holds `null`. */
  ghost predicate NoNullCascades(heap: Heap, meta: ClassId -> BeanMeta)
  {
    forall h, j :: h in heap && 0 <= j < |meta(heap[h].cls).cascaded| ==>
      meta(heap[h].cls).cascaded[j].name in heap[h].fields ==>
        heap[h].fields[meta(heap[h].cls).cascaded[j].name].Ptr?
  }

  // ---------------------------------------------------------------- decimal rendering

  function DigitChar(d: nat): (c: char)
    requires d < 10
  {
    (('0' as int) + d) as char
  }

  predicate IsDigit(c: char)
  {
    '0' <= c <= '9'
  }

  /** `String.valueOf` of a non-negative number. */
  function NatToString(n: nat): (s: string)
    ensures |s| > 0
    ensures forall i :: 0 <= i < |s| ==> IsDigit(s[i])
  {
    if n < 10 then [DigitChar(n)] else NatToString(n / 10) + [DigitChar(n % 10)]
  }

  /** `Integer.toString` / `Long.toString` / `String.valueOf(int)`: a minus sign exactly for a negative number, then digits. */
  function IntToString(n: int): (s: string)
    ensures |s| > 0
    ensures s[0] == '-' <==> n < 0
    ensures forall i :: (if n < 0 then 1 else 0) <= i < |s| ==> IsDigit(s[i])
  {
    if n < 0 then "-" + NatToString(-n) else NatToString(n)
  }

  function DigitValue(c: char): (d: nat)
    requires IsDigit(c)
  {
    var d := (c as int) - ('0' as int);
    assert 0 <= d;
    d
  }

  /** Reads a decimal string back; the reference for what the rendering means. */
  function ParseNat(s: string): nat
    requires forall i :: 0 <= i < |s| ==> IsDigit(s[i])
  {
    if s == [] then 0 else ParseNat(s[..|s| - 1]) * 10 + DigitValue(s[|s| - 1])
  }

  function ParseInt(s: string): int
    requires |s| > 0 && (s[0] == '-' ==> forall i :: 1 <= i < |s| ==> IsDigit(s[i]))
    requires s[0] != '-' ==> forall i :: 0 <= i < |s| ==> IsDigit(s[i])
  {
    if s[0] == '-' then 0 - ParseNat(s[1..]) as int else ParseNat(s)
  }

  lemma {:induction false} NatToStringRoundTrip(n: nat)
    ensures ParseNat(NatToString(n)) == n
  {
    if n >= 10 {
      var front := NatToString(n / 10);
      var s := NatToString(n);
      assert s == front + [DigitChar(n % 10)];
      assert s[..|s| - 1] == front;
      NatToStringRoundTrip(n / 10);
    }
  }

  /** Rendering an integer key or a position and reading it back gives the number again. */
  lemma IntToStringRoundTrip(n: int)
    ensures |IntToString(n)| > 0
    ensures ParseInt(IntToString(n)) == n
  {
    var s := IntToString(n);
    if n < 0 {
      assert s[1..] == NatToString(-n);
      NatToStringRoundTrip(-n);
    } else {
      assert IsDigit(s[0]);
      NatToStringRoundTrip(n);
    }
  }

  /** Distinct numbers render as distinct index strings. */
  lemma IntToStringInjective(m: int, n: int)
    requires m != n
    ensures IntToString(m) != IntToString(n)
  {
    IntToStringRoundTrip(m);
    IntToStringRoundTrip(n);
  }

  // ---------------------------------------------------------------- index rendering

  /**
   * `VALID_MAP_INDEX_CLASSES.contains(key.getClass())`: `Integer`, `Long` and `String` (ValidatorImpl.java:55-61);
   * a key of any other class is not used as an index.
   */
  function IsIndexKey(k: Key): (r: bool)
    ensures r <==> !k.OtherKey?
  {
    k.IntegerKey? || k.LongKey? || k.StringKey?
  }

  /** `key.toString()` for a whitelisted key. */
  function KeyText(k: Key): string
    requires IsIndexKey(k)
  {
    match k
    case IntegerKey(i) => IntToString(i)
    case LongKey(l) => IntToString(l)
    case StringKey(s) => s
  }

  /**
   * The index text `validateCascadedConstraint` fills in for the element at position `i`: a whitelisted map
   * key's own text, and for every other element the decimal text that reads back as its position.
   */
  function RenderedIndex(e: Element, i: nat): (index: string)
    ensures e.Entry? && IsIndexKey(e.key) ==> index == KeyText(e.key)
    ensures !(e.Entry? && IsIndexKey(e.key)) ==>
              |index| > 0 && (forall k :: 0 <= k < |index| ==> IsDigit(index[k])) && ParseInt(index) == i
  {
    IntToStringRoundTrip(i);
    if e.Entry? && IsIndexKey(e.key) then KeyText(e.key) else IntToString(i)
  }

  /**
   * Elements rendered by position (the elements of a collection or array, and map entries whose key is not
   * whitelisted) get pairwise distinct indexes. Whitelisted keys of different classes may share a text.
   */
  lemma RenderedIndexMeaning(elems: seq<Element>, i: nat, j: nat)
    requires i < |elems| && j < |elems| && i != j
    requires !(elems[i].Entry? && IsIndexKey(elems[i].key)) && !(elems[j].Entry? && IsIndexKey(elems[j].key))
    ensures RenderedIndex(elems[i], i) != RenderedIndex(elems[j], j)
  {
    IntToStringInjective(i, j);
  }

  /**
   * The elements `createIteratorForCascadedValue` yields for a non-null value of a member of kind `kind`:
   * a collection's items or a map's entries in iteration order, otherwise the value itself.
   */
  function CascadeElements(heap: Heap, kind: MemberKind, value: Ref): seq<Element>
    requires value.Ptr? && value.handle in heap
  {
    var content := heap[value.handle].content;
    if kind == Collection && content.Elements? then
      seq(|content.items|, j requires 0 <= j < |content.items| => Item(content.items[j]))
    else if kind == Collection && content.Entries? then
      seq(|content.entries|, j requires 0 <= j < |content.entries| => Entry(content.entries[j].0, content.entries[j].1))
    else [Item(value)]
  }

  // ---------------------------------------------------------------- paths

  /** Fills in the index of an indexed segment; a plain property segment has no index to fill. */
  function SetIndex(seg: Segment, index: string): Segment
  {
    match seg
    case Property(_) => seg
    case Indexed(n, _) => Indexed(n, Some(index))
  }

  /** Same name and the same kind (plain or indexed). */
  predicate SameShape(a: Segment, b: Segment)
  {
    a.name == b.name && a.Indexed? == b.Indexed?
  }

  // ---------------------------------------------------------------- direct constraints

  /**
   * The violations `validateConstraints` records for one object under group `g`, in binding order:
   * one per binding that applies to `g` and fails, at the path extended by the binding's property.
   */
  function DirectViolations(bindings: seq<Binding>, g: GroupId, subject: Subject, path: seq<Segment>,
                            fails: (Binding, Subject) -> bool): seq<Violation>
  {
    if bindings == [] then []
    else
      var b := bindings[|bindings| - 1];
      DirectViolations(bindings[..|bindings| - 1], g, subject, path, fails) +
      (if g in b.groups && fails(b, subject) then [Violation(b, path + [Property(b.property)], subject)] else [])
  }

  /** Exactly the applicable, failing bindings produce a violation; nothing else does. */
  lemma {:induction false} DirectViolationsExactly(bindings: seq<Binding>, g: GroupId, subject: Subject,
                                                   path: seq<Segment>, fails: (Binding, Subject) -> bool, v: Violation)
    ensures v in DirectViolations(bindings, g, subject, path, fails) <==>
            exists i :: 0 <= i < |bindings| && g in bindings[i].groups && fails(bindings[i], subject) &&
                        v == Violation(bindings[i], path + [Property(bindings[i].property)], subject)
    decreases |bindings|
  {
    if bindings != [] {
      var n := |bindings| - 1;
      var front := bindings[..n];
      DirectViolationsExactly(front, g, subject, path, fails, v);
      if v in DirectViolations(bindings, g, subject, path, fails) {
        if v in DirectViolations(front, g, subject, path, fails) {
          var i :| 0 <= i < |front| && g in front[i].groups && fails(front[i], subject) &&
                   v == Violation(front[i], path + [Property(front[i].property)], subject);
          assert bindings[i] == front[i];
        } else {
          assert g in bindings[n].groups && fails(bindings[n], subject);
        }
      } else {
        forall i | 0 <= i < |bindings|
          ensures !(g in bindings[i].groups && fails(bindings[i], subject) &&
                    v == Violation(bindings[i], path + [Property(bindings[i].property)], subject))
        {
          if i < n {
            assert bindings[i] == front[i];
          }
        }
      }
    }
  }

  /** How many violations a group records for an object does not depend on the path they are recorded at. */
  lemma {:induction false} DirectViolationsCount(bindings: seq<Binding>, g: GroupId, subject: Subject,
                                                 path: seq<Segment>, other: seq<Segment>, fails: (Binding, Subject) -> bool)
    ensures |DirectViolations(bindings, g, subject, path, fails)| == |DirectViolations(bindings, g, subject, other, fails)|
    decreases |bindings|
  {
    if bindings != [] {
      DirectViolationsCount(bindings[..|bindings| - 1], g, subject, path, other, fails);
    }
  }

  /** Every violation recorded for a group lies at the given path extended by one property segment. */
  lemma {:induction false} DirectViolationsPaths(bindings: seq<Binding>, g: GroupId, subject: Subject,
                                                 path: seq<Segment>, fails: (Binding, Subject) -> bool)
    ensures forall v :: v in DirectViolations(bindings, g, subject, path, fails) ==>
              v.subject == subject && |v.path| == |path| + 1 && path <= v.path
    decreases |bindings|
  {
    if bindings != [] {
      DirectViolationsPaths(bindings[..|bindings| - 1], g, subject, path, fails);
    }
  }

  /**
   * The violations `validateProperty` / `validateValue` record under group `g`: one per collected
   * binding that applies to `g` and fails on the subject, all at the same path.
   */
  function GroupViolations(bindings: set<Binding>, g: GroupId, subject: Subject, path: seq<Segment>,
                           fails: (Binding, Subject) -> bool): set<Violation>
  {
    set b | b in bindings && g in b.groups && fails(b, subject) :: Violation(b, path, subject)
  }
}

=== FILE: groups.dfy ===
/**
 * Validation groups and the forward-only walk over a group chain.
 *
 * A chain is an ordered sequence of `Group`s; the orchestration consumes it with a cursor.
 * After a group that is part of a sequence has run and the accumulated violation list is
 * non-empty, the full-graph walk and `validateProperty` skip ahead with a loop that calls
 * `next()` in its own condition (ValidatorImpl.java:138-141, :293-296), while
 * `validateValue` leaves the chain altogether (:344-346).
 */
module Groups {
  import opened Wrappers

  type GroupId = nat
  type SequenceId = nat

  /** The identifier standing for `javax.validation.groups.Default`. */
  const DEFAULT_GROUP: GroupId := 0

  /** One entry of a group chain: the group, the sequence it was expanded from (if any) and its sequence flag. */
  datatype Group = Group(group: GroupId, sequence: Option<SequenceId>, partOfSequence: bool)

  /** An empty request stands for the default group alone (ValidatorImpl.java:107-109, :274-276, :322-324). */
  function RequestedGroups(groups: seq<GroupId>): (r: seq<GroupId>)
    ensures |groups| == 0 ==> r == [DEFAULT_GROUP]
    ensures |groups| > 0 ==> r == groups
  {
    if |groups| == 0 then [DEFAULT_GROUP] else groups
  }

  /** The set of groups a chain mentions. */
  function ChainGroups(chain: seq<Group>): set<GroupId>
  {
    GroupsBefore(chain, |chain|)
  }

  /** The groups at the positions before `k`. */
  function GroupsBefore(chain: seq<Group>, k: nat): set<GroupId>
    requires k <= |chain|
  {
    set r | 0 <= r < k :: chain[r].group
  }

  /** No group occurs twice in the chain. */
  predicate DistinctGroups(chain: seq<Group>)
  {
    forall i, j :: 0 <= i < j < |chain| ==> chain[i].group != chain[j].group
  }

  /**
   * Cursor position after `while (hasNext() && s == next().getSequence()) {}` started at `k`:
   * every group of the run that belongs to `s` is consumed, and so is the first one that does not.
   */
  function SkipRun(chain: seq<Group>, k: nat, s: Option<SequenceId>): (r: nat)
    requires k <= |chain|
    ensures k <= r <= |chain|
    ensures k < |chain| ==> k < r
    ensures forall i :: k <= i < r - 1 ==> chain[i].sequence == s
    ensures k < r < |chain| ==> chain[r - 1].sequence != s
    decreases |chain| - k
  {
    if k == |chain| then k
    else if chain[k].sequence == s then SkipRun(chain, k + 1, s)
    else k + 1
  }

  /**
   * Where the cursor stands after the group at `i` has run. `failed` says whether the accumulated
   * violation list is non-empty; `stopAll` selects `validateValue`'s `break` instead of the skip loop.
   */
  function NextCursor(chain: seq<Group>, i: nat, failed: bool, stopAll: bool): (r: nat)
    requires i < |chain|
    ensures i < r <= |chain|
    ensures !(chain[i].partOfSequence && failed) ==> r == i + 1
  {
    if chain[i].partOfSequence && failed then
      (if stopAll then |chain| else SkipRun(chain, i + 1, chain[i].sequence))
    else i + 1
  }

  /**
   * `ran` lists the chain positions whose groups were validated, in order, and `sizes[t]` the length of the
   * accumulated violation list right after the group at `ran[t]` ran. The walk starts at position 0, each next
   * position is the cursor left by the previous one, and the walk ends when the cursor reaches the end.
   */
  ghost predicate IsSchedule(chain: seq<Group>, ran: seq<nat>, sizes: seq<nat>, stopAll: bool)
  {
    && |ran| == |sizes|
    && (|chain| > 0 <==> |ran| > 0)
    && (forall t :: 0 <= t < |ran| ==> ran[t] < |chain|)
    && (|ran| > 0 ==> ran[0] == 0)
    && (|ran| > 0 ==> NextCursor(chain, ran[|ran| - 1], sizes[|ran| - 1] > 0, stopAll) == |chain|)
    && (forall t :: 0 <= t < |ran| - 1 ==> ran[t + 1] == NextCursor(chain, ran[t], sizes[t] > 0, stopAll))
  }

  /**
   * The walk so far: `ran` and `sizes` as in `IsSchedule`, with the cursor now at `k` (not yet at the end).
   */
  ghost predicate WalkPrefix(chain: seq<Group>, ran: seq<nat>, sizes: seq<nat>, k: nat, stopAll: bool)
  {
    && k <= |chain|
    && |ran| == |sizes|
    && (|ran| == 0 <==> k == 0)
    && (forall t :: 0 <= t < |ran| ==> ran[t] < k)
    && (|ran| > 0 ==> ran[0] == 0)
    && (|ran| > 0 ==> NextCursor(chain, ran[|ran| - 1], sizes[|ran| - 1] > 0, stopAll) == k)
    && (forall t :: 0 <= t < |ran| - 1 ==> ran[t + 1] == NextCursor(chain, ran[t], sizes[t] > 0, stopAll))
  }

  /** Running the group under the cursor and moving the cursor on extends the walk. */
  lemma WalkStep(chain: seq<Group>, ran: seq<nat>, sizes: seq<nat>, k: nat, stopAll: bool, size: nat)
    requires WalkPrefix(chain, ran, sizes, k, stopAll) && k < |chain|
    ensures WalkPrefix(chain, ran + [k], sizes + [size], NextCursor(chain, k, size > 0, stopAll), stopAll)
  {
    var ran', sizes' := ran + [k], sizes + [size];
    forall t | 0 <= t < |ran'| - 1
      ensures ran'[t + 1] == NextCursor(chain, ran'[t], sizes'[t] > 0, stopAll)
    {
      if t == |ran| - 1 {
        assert ran'[t] == ran[t] && sizes'[t] == sizes[t];
      } else {
        assert ran'[t] == ran[t] && ran'[t + 1] == ran[t + 1] && sizes'[t] == sizes[t];
      }
    }
  }

  /** A walk whose cursor reached the end of the chain is a complete schedule. */
  lemma WalkComplete(chain: seq<Group>, ran: seq<nat>, sizes: seq<nat>, stopAll: bool)
    requires WalkPrefix(chain, ran, sizes, |chain|, stopAll)
    ensures IsSchedule(chain, ran, sizes, stopAll)
  {
  }

  /** Every chain position is validated at most once: the schedule is strictly increasing. */
  lemma {:induction false} ScheduleIncreasing(chain: seq<Group>, ran: seq<nat>, sizes: seq<nat>, stopAll: bool, t: nat, u: nat)
    requires IsSchedule(chain, ran, sizes, stopAll)
    requires t < u < |ran|
    ensures ran[t] < ran[u]
    decreases u - t
  {
    if u > t + 1 {
      ScheduleIncreasing(chain, ran, sizes, stopAll, t, u - 1);
    }
    assert ran[u] == NextCursor(chain, ran[u - 1], sizes[u - 1] > 0, stopAll);
  }

  /**
   * After a sequence group at `ran[t]` ran with a non-empty violation list, no later group of the same
   * contiguous run of that sequence is validated.
   */
  lemma SequenceRunSkippedAfterFailure(chain: seq<Group>, ran: seq<nat>, sizes: seq<nat>, t: nat, j: nat)
    requires IsSchedule(chain, ran, sizes, false)
    requires t < |ran| && sizes[t] > 0 && chain[ran[t]].partOfSequence
    requires ran[t] < j < |chain|
    requires forall i :: ran[t] < i <= j ==> chain[i].sequence == chain[ran[t]].sequence
    ensures forall u :: 0 <= u < |ran| ==> ran[u] != j
  {
    var s := chain[ran[t]].sequence;
    var r := SkipRun(chain, ran[t] + 1, s);
    assert NextCursor(chain, ran[t], sizes[t] > 0, false) == r;
    assert j < r;
    forall u | 0 <= u < |ran|
      ensures ran[u] != j
    {
      if u < t {
        ScheduleIncreasing(chain, ran, sizes, false, u, t);
      } else if u > t {
        if u > t + 1 {
          ScheduleIncreasing(chain, ran, sizes, false, t + 1, u);
        }
        assert ran[t + 1] == r;
      }
    }
  }

  /**
   * A position that is never validated lies inside the skip that followed some failed sequence group
   * `ran[t]`: every group strictly between `ran[t]` and it belongs to that group's sequence. So a group
   * outside the sequence is skipped only when it is the one directly after the run.
   */
  lemma SkippedGroupFollowsFailedRun(chain: seq<Group>, ran: seq<nat>, sizes: seq<nat>, j: nat)
    requires IsSchedule(chain, ran, sizes, false)
    requires j < |chain|
    requires forall u :: 0 <= u < |ran| ==> ran[u] != j
    ensures exists t :: 0 <= t < |ran| && ran[t] < j && sizes[t] > 0 && chain[ran[t]].partOfSequence &&
              forall i :: ran[t] < i < j ==> chain[i].sequence == chain[ran[t]].sequence
  {
    assert ran[0] == 0;
    SkippedFrom(chain, ran, sizes, j, 0);
  }

  lemma {:induction false} SkippedFrom(chain: seq<Group>, ran: seq<nat>, sizes: seq<nat>, j: nat, t: nat)
    requires IsSchedule(chain, ran, sizes, false)
    requires j < |chain|
    requires forall u :: 0 <= u < |ran| ==> ran[u] != j
    requires t < |ran| && ran[t] < j
    ensures exists t' :: 0 <= t' < |ran| && ran[t'] < j && sizes[t'] > 0 && chain[ran[t']].partOfSequence &&
              forall i :: ran[t'] < i < j ==> chain[i].sequence == chain[ran[t']].sequence
    decreases |ran| - t
  {
    if t + 1 < |ran| && ran[t + 1] < j {
      SkippedFrom(chain, ran, sizes, j, t + 1);
    } else {
      var n := NextCursor(chain, ran[t], sizes[t] > 0, false);
      assert j < n;
      assert chain[ran[t]].partOfSequence && sizes[t] > 0;
    }
  }

  /** `validateValue` stops at the first failed sequence group: no position after it is validated. */
  lemma {:induction false} StopAllEndsWalk(chain: seq<Group>, ran: seq<nat>, sizes: seq<nat>, t: nat)
    requires IsSchedule(chain, ran, sizes, true)
    requires t < |ran| && sizes[t] > 0 && chain[ran[t]].partOfSequence
    ensures t == |ran| - 1
    ensures forall u :: 0 <= u < |ran| ==> ran[u] <= ran[t]
  {
    assert t + 1 < |ran| ==> ran[t + 1] == NextCursor(chain, ran[t], sizes[t] > 0, true);
    forall u | 0 <= u < t
      ensures ran[u] <= ran[t]
    {
      ScheduleIncreasing(chain, ran, sizes, true, u, t);
    }
  }

  /** When the violation list stays empty, the walk validates every group of the chain, in order. */
  lemma CleanWalkRunsEveryGroup(chain: seq<Group>, ran: seq<nat>, sizes: seq<nat>, stopAll: bool)
    requires IsSchedule(chain, ran, sizes, stopAll)
    requires forall t :: 0 <= t < |sizes| ==> sizes[t] == 0
    ensures |ran| == |chain|
    ensures forall t :: 0 <= t < |ran| ==> ran[t] == t
  {
    forall t | 0 <= t < |ran|
      ensures ran[t] == t
    {
      CleanWalkPosition(chain, ran, sizes, stopAll, t);
    }
    if |ran| > 0 {
      assert NextCursor(chain, ran[|ran| - 1], false, stopAll) == |chain|;
    }
  }

  lemma {:induction false} CleanWalkPosition(chain: seq<Group>, ran: seq<nat>, sizes: seq<nat>, stopAll: bool, t: nat)
    requires IsSchedule(chain, ran, sizes, stopAll)
    requires forall t :: 0 <= t < |sizes| ==> sizes[t] == 0
    requires t < |ran|
    ensures ran[t] == t
  {
    if t > 0 {
      CleanWalkPosition(chain, ran, sizes, stopAll, t - 1);
      assert ran[t] == NextCursor(chain, ran[t - 1], sizes[t - 1] > 0, stopAll);
    }
  }
}

=== FILE: metadata.dfy ===
/**
 * Class metadata: the process-wide cache behind `getBeanMetaData`, and the resolution of a split
 * property path against the metadata graph (`collectMetaConstraintsForPath`), stated as a function
 * and characterised by the chains of cascaded members a path can follow.
 */
module Metadata {
  import opened Wrappers
  import opened Groups
  import opened Graph

  /**
   * The class-to-metadata cache (ValidatorImpl.java:72-73, :396-407), sequential here. `provider`
   * stands for constructing `BeanMetaDataImpl`, which is deterministic per class.
   */
  class MetadataCache {
    const provider: ClassId -> BeanMeta
    var entries: map<ClassId, BeanMeta>

    /** Every cached entry is what the provider builds for its class. */
    ghost predicate Valid()
      reads this
    {
      forall c :: c in entries ==> entries[c] == provider(c)
    }

    constructor (provider: ClassId -> BeanMeta)
      ensures Valid() && this.provider == provider && entries == map[]
    {
      this.provider := provider;
      entries := map[];
    }

    /** A null class is rejected; otherwise the cached entry is returned, built and stored on first use. */
    method GetBeanMetaData(cls: Option<ClassId>) returns (r: Result<BeanMeta, ValidationError>)
      requires Valid()
      modifies this`entries
      ensures Valid()
      ensures cls.None? ==> r == Failure(NullClass) && entries == old(entries)
      ensures cls.Some? ==> r == Success(provider(cls.value))
      ensures cls.Some? ==> entries == old(entries)[cls.value := provider(cls.value)]
    {
      if cls.None? {
        return Failure(NullClass);
      }
      var c := cls.value;
      if c in entries {
        r := Success(entries[c]);
        assert entries == entries[c := provider(c)];
      } else {
        var m := provider(c);
        entries := entries[c := m];
        r := Success(m);
      }
    }
  }

  /** One node of a split property path: a name, possibly followed by an index. */
  datatype PathNode = PathNode(name: string, indexed: bool)

  /** A property path as the caller wrote it, and its split form. */
  datatype PropertyPath = PropertyPath(original: string, nodes: seq<PathNode>)

  /** The class a path node leads to through a member: its element type when indexed, if it has one. */
  function StepType(m: CascadeMember, indexed: bool): Option<ClassId>
  {
    if indexed then m.indexedType else Some(m.declared)
  }

  /**
   * The bindings `collectMetaConstraintsForPath` gathers from `cls` for `nodes`: on the last node, the
   * bindings of that property; otherwise what the cascaded members of that name lead to.
   */
  function MatchingConstraints(meta: ClassId -> BeanMeta, cls: ClassId, nodes: seq<PathNode>): set<Binding>
    requires |nodes| > 0
    decreases |nodes|, 1, 0
  {
    if |nodes| == 1 then PropertyBindings(meta(cls).constraints, nodes[0].name)
    else MembersMatching(meta, meta(cls).cascaded, nodes[0], nodes[1..], |meta(cls).cascaded|)
  }

  /** The bindings of `list` declared on the property `name`. */
  function PropertyBindings(list: seq<Binding>, name: string): set<Binding>
  {
    set b | b in list && b.property == name
  }

  /**
   * What the first `n` members of `ms` contribute for the node `head`: a member named like the node leads,
   * through its declared type or (for an indexed node) its element type, to the bindings `rest` collects there.
   */
  function MembersMatching(meta: ClassId -> BeanMeta, ms: seq<CascadeMember>, head: PathNode, rest: seq<PathNode>,
                           n: nat): set<Binding>
    requires n <= |ms| && |rest| > 0
    decreases |rest| + 1, 0, n
  {
    if n == 0 then {}
    else
      MembersMatching(meta, ms, head, rest, n - 1) +
      (if ms[n - 1].name == head.name && StepType(ms[n - 1], head.indexed).Some?
       then MatchingConstraints(meta, StepType(ms[n - 1], head.indexed).value, rest)
       else {})
  }

  lemma {:induction false} MembersMatchingMeaning(meta: ClassId -> BeanMeta, ms: seq<CascadeMember>, head: PathNode,
                                                  rest: seq<PathNode>, n: nat, b: Binding)
    requires n <= |ms| && |rest| > 0
    ensures b in MembersMatching(meta, ms, head, rest, n) <==>
            exists j :: 0 <= j < n && ms[j].name == head.name && StepType(ms[j], head.indexed).Some? &&
                        b in MatchingConstraints(meta, StepType(ms[j], head.indexed).value, rest)
  {
    if n > 0 {
      MembersMatchingMeaning(meta, ms, head, rest, n - 1, b);
    }
  }

  /**
   * `target` is a class the path leads to from `cls`: each non-final node names a cascaded member,
   * and an indexed node needs that member's element type.
   */
  ghost predicate Resolves(meta: ClassId -> BeanMeta, cls: ClassId, nodes: seq<PathNode>, target: ClassId)
    requires |nodes| > 0
    decreases |nodes|
  {
    if |nodes| == 1 then target == cls
    else
      var ms := meta(cls).cascaded;
      exists j :: 0 <= j < |ms| && ms[j].name == nodes[0].name && StepType(ms[j], nodes[0].indexed).Some? &&
                  Resolves(meta, StepType(ms[j], nodes[0].indexed).value, nodes[1..], target)
  }

  /**
   * A binding is collected exactly when the path resolves to a class that declares it on the
   * path's last property name.
   */
  lemma {:induction false} MatchingConstraintsMeaning(meta: ClassId -> BeanMeta, cls: ClassId, nodes: seq<PathNode>, b: Binding)
    requires |nodes| > 0
    ensures b in MatchingConstraints(meta, cls, nodes) <==>
            exists target :: Resolves(meta, cls, nodes, target) && b in meta(target).constraints &&
                             b.property == nodes[|nodes| - 1].name
    decreases |nodes|
  {
    var last := nodes[|nodes| - 1].name;
    if |nodes| == 1 {
      if b in MatchingConstraints(meta, cls, nodes) {
        assert Resolves(meta, cls, nodes, cls);
      }
    } else {
      var ms := meta(cls).cascaded;
      var rest := nodes[1..];
      assert rest[|rest| - 1].name == last;
      MembersMatchingMeaning(meta, ms, nodes[0], rest, |ms|, b);
      if b in MatchingConstraints(meta, cls, nodes) {
        var j :| 0 <= j < |ms| && ms[j].name == nodes[0].name && StepType(ms[j], nodes[0].indexed).Some? &&
                 b in MatchingConstraints(meta, StepType(ms[j], nodes[0].indexed).value, rest);
        var next := StepType(ms[j], nodes[0].indexed).value;
        MatchingConstraintsMeaning(meta, next, rest, b);
        var target :| Resolves(meta, next, rest, target) && b in meta(target).constraints && b.property == last;
        assert Resolves(meta, cls, nodes, target);
      }
      if exists target :: Resolves(meta, cls, nodes, target) && b in meta(target).constraints && b.property == last {
        var target :| Resolves(meta, cls, nodes, target) && b in meta(target).constraints && b.property == last;
        var j :| 0 <= j < |ms| && ms[j].name == nodes[0].name && StepType(ms[j], nodes[0].indexed).Some? &&
                 Resolves(meta, StepType(ms[j], nodes[0].indexed).value, rest, target);
        var next := StepType(ms[j], nodes[0].indexed).value;
        MatchingConstraintsMeaning(meta, next, rest, b);
        assert b in MatchingConstraints(meta, next, rest);
        assert b in MembersMatching(meta, ms, nodes[0], rest, |ms|);
      }
    }
  }

  /** Indexing through a member with no element type contributes nothing. */
  lemma UnindexableContributesNothing(meta: ClassId -> BeanMeta, cls: ClassId, nodes: seq<PathNode>, target: ClassId)
    requires |nodes| > 1 && nodes[0].indexed
    requires forall j :: 0 <= j < |meta(cls).cascaded| && meta(cls).cascaded[j].name == nodes[0].name ==>
               meta(cls).cascaded[j].indexedType.None?
    ensures !Resolves(meta, cls, nodes, target)
    ensures MatchingConstraints(meta, cls, nodes) == {}
  {
    forall b: Binding
      ensures b !in MatchingConstraints(meta, cls, nodes)
    {
      MembersMatchingMeaning(meta, meta(cls).cascaded, nodes[0], nodes[1..], |meta(cls).cascaded|, b);
    }
  }
}

=== FILE: validator.dfy ===
/**
 * `ValidatorImpl`: the validation orchestration. The full-graph walk (`Validate`,
 * `ValidateInContext`, `ValidateConstraints`, the cascading methods) works in place on an
 * `ExecutionContext`; `ValidateProperty` and `ValidateValue` walk a group chain over the
 * bindings a property path resolves to.
 *
 * Collaborators are parameters of the validator: `meta` is the metadata provider (its cache is
 * `Metadata.MetadataCache`), `fails` is constraint evaluation, and `chainFor` is the group chain
 * generator.
 */
module Validator {
  import opened Wrappers
  import opened Groups
  import opened Graph
  import opened Context
  import opened Metadata
  import opened Walk

  /** The set of violations in a list, as `new HashSet<...>(list)` builds it. */
  function SetOf(list: seq<Violation>): (s: set<Violation>)
    ensures |list| == 0 <==> s == {}
  {
    var s := set v | v in list;
    assert |list| > 0 ==> list[0] in s;
    s
  }

  /** The violations `ValidateProperty` / `ValidateValue` have gathered after the groups at positions `ran`. */
  function Accumulated(chain: seq<Group>, ran: seq<nat>, bindings: set<Binding>, subject: Subject,
                       path: seq<Segment>, fails: (Binding, Subject) -> bool): set<Violation>
    requires forall t :: 0 <= t < |ran| ==> ran[t] < |chain|
  {
    if ran == [] then {}
    else Accumulated(chain, ran[..|ran| - 1], bindings, subject, path, fails) +
         GroupViolations(bindings, chain[ran[|ran| - 1]].group, subject, path, fails)
  }

  /**
   * The chain positions `validateProperty` / `validateValue` validate from cursor `k` on, when the groups before
   * `k` have left the list non-empty exactly when `failed`: each group runs, the list is non-empty after it when it
   * was before or the group has a violation, and the cursor moves on as the skip rule says.
   */
  function GatherSchedule(chain: seq<Group>, k: nat, failed: bool, stopAll: bool, bindings: set<Binding>,
                          subject: Subject, path: seq<Segment>, fails: (Binding, Subject) -> bool): seq<nat>
    decreases |chain| - k
  {
    if k >= |chain| then []
    else
      var failed' := failed || GroupViolations(bindings, chain[k].group, subject, path, fails) != {};
      [k] + GatherSchedule(chain, NextCursor(chain, k, failed', stopAll), failed', stopAll, bindings, subject, path, fails)
  }

  lemma SetOfAppend(a: seq<Violation>, b: seq<Violation>)
    ensures SetOf(a + b) == SetOf(a) + SetOf(b)
  {
    forall v | v in SetOf(a + b)
      ensures v in SetOf(a) + SetOf(b)
    {
      var i :| 0 <= i < |a + b| && (a + b)[i] == v;
      if i < |a| {
        assert a[i] == v;
      } else {
        assert b[i - |a|] == v;
      }
    }
  }

  lemma AccumulatedStep(chain: seq<Group>, ran: seq<nat>, pos: nat, bindings: set<Binding>, subject: Subject,
                        path: seq<Segment>, fails: (Binding, Subject) -> bool)
    requires forall t :: 0 <= t < |ran| ==> ran[t] < |chain|
    requires pos < |chain|
    ensures Accumulated(chain, ran + [pos], bindings, subject, path, fails) ==
            Accumulated(chain, ran, bindings, subject, path, fails) + GroupViolations(bindings, chain[pos].group, subject, path, fails)
  {
    assert (ran + [pos])[..|ran|] == ran;
  }

  /** Evaluating one more binding under `g` adds its violation exactly when it applies to `g` and fails. */
  lemma GroupViolationsAdd(done: set<Binding>, b: Binding, g: GroupId, subject: Subject, path: seq<Segment>,
                           fails: (Binding, Subject) -> bool)
    ensures GroupViolations(done + {b}, g, subject, path, fails) ==
            GroupViolations(done, g, subject, path, fails) +
            (if g in b.groups && fails(b, subject) then {Violation(b, path, subject)} else {})
  {
  }

  /**
   * One collected binding handled under group `g`: `added` is what its fresh context recorded, so the list's
   * set grows by the binding's violation exactly when the binding applies to `g` and fails.
   */
  lemma BindingStep(before: seq<Violation>, list: seq<Violation>, added: seq<Violation>, done: set<Binding>, b: Binding,
                    g: GroupId, subject: Subject, path: seq<Segment>, fails: (Binding, Subject) -> bool)
    requires SetOf(list) == SetOf(before) + GroupViolations(done, g, subject, path, fails)
    requires added == if g in b.groups && fails(b, subject) then [Violation(b, path, subject)] else []
    ensures SetOf(list + added) == SetOf(before) + GroupViolations(done + {b}, g, subject, path, fails)
  {
    SetOfAppend(list, added);
    GroupViolationsAdd(done, b, g, subject, path, fails);
    assert SetOf(added) == if g in b.groups && fails(b, subject) then {Violation(b, path, subject)} else {};
  }

  /**
   * What the group loop of `validateProperty` / `validateValue` keeps with its cursor at `k`: the groups
   * validated so far form a walk prefix, the accumulated list holds exactly their violations, the list up to
   * `sizes[t]` holds exactly those of the groups up to `ran[t]`, and the rest of the walk is what the reference
   * schedule leaves after them.
   */
  ghost predicate Gathered(chain: seq<Group>, ran: seq<nat>, sizes: seq<nat>, k: nat, stopAll: bool,
                           list: seq<Violation>, bindings: set<Binding>, subject: Subject, path: seq<Segment>,
                           fails: (Binding, Subject) -> bool)
  {
    && WalkPrefix(chain, ran, sizes, k, stopAll)
    && SetOf(list) == Accumulated(chain, ran, bindings, subject, path, fails)
    && SizesWithin(sizes, 0, |list|)
    && (|ran| > 0 ==> sizes[|ran| - 1] == |list|)
    && (|ran| == 0 ==> list == [])
    && (forall t :: 0 <= t < |ran| ==>
          SetOf(list[..sizes[t]]) == Accumulated(chain, ran[..t + 1], bindings, subject, path, fails))
    && ran + GatherSchedule(chain, k, |list| > 0, stopAll, bindings, subject, path, fails) ==
       GatherSchedule(chain, 0, false, stopAll, bindings, subject, path, fails)
  }

  /** The list up to each recorded size keeps what it held, and the whole new list holds the new accumulation. */
  lemma AccumulatedTieStep(chain: seq<Group>, ran: seq<nat>, sizes: seq<nat>, pos: nat, before: seq<Violation>,
                           list: seq<Violation>, bindings: set<Binding>, subject: Subject, path: seq<Segment>,
                           fails: (Binding, Subject) -> bool)
    requires (forall t :: 0 <= t < |ran| ==> ran[t] < |chain|) && pos < |chain|
    requires |ran| == |sizes| && (forall t :: 0 <= t < |ran| ==> sizes[t] <= |before|) && before <= list
    requires forall t :: 0 <= t < |ran| ==>
               SetOf(before[..sizes[t]]) == Accumulated(chain, ran[..t + 1], bindings, subject, path, fails)
    requires SetOf(list) == Accumulated(chain, ran + [pos], bindings, subject, path, fails)
    ensures forall t :: 0 <= t < |ran| + 1 ==>
              SetOf(list[..(sizes + [|list|])[t]]) == Accumulated(chain, (ran + [pos])[..t + 1], bindings, subject, path, fails)
  {
    var ran', sizes' := ran + [pos], sizes + [|list|];
    forall t | 0 <= t < |ran'|
      ensures SetOf(list[..sizes'[t]]) == Accumulated(chain, ran'[..t + 1], bindings, subject, path, fails)
    {
      if t < |ran| {
        assert ran'[..t + 1] == ran[..t + 1];
        assert list[..sizes'[t]] == before[..sizes[t]];
      } else {
        assert ran'[..t + 1] == ran';
        assert list[..sizes'[t]] == list;
      }
    }
  }

  lemma GatheredStart(chain: seq<Group>, stopAll: bool, bindings: set<Binding>, subject: Subject, path: seq<Segment>,
                      fails: (Binding, Subject) -> bool)
    ensures Gathered(chain, [], [], 0, stopAll, [], bindings, subject, path, fails)
  {
  }

  /** The group at `pos` was handled: its violations were added to `before`, giving `list`, and the cursor moved on. */
  lemma GatheredStep(chain: seq<Group>, ran: seq<nat>, sizes: seq<nat>, pos: nat, stopAll: bool,
                     before: seq<Violation>, list: seq<Violation>, bindings: set<Binding>, subject: Subject,
                     path: seq<Segment>, fails: (Binding, Subject) -> bool, k': nat)
    requires Gathered(chain, ran, sizes, pos, stopAll, before, bindings, subject, path, fails) && pos < |chain|
    requires before <= list
    requires SetOf(list) == SetOf(before) + GroupViolations(bindings, chain[pos].group, subject, path, fails)
    requires k' == NextCursor(chain, pos, |list| > 0, stopAll)
    ensures Gathered(chain, ran + [pos], sizes + [|list|], k', stopAll, list, bindings, subject, path, fails)
  {
    AccumulatedStep(chain, ran, pos, bindings, subject, path, fails);
    WalkStep(chain, ran, sizes, pos, stopAll, |list|);
    SizesGrow(sizes, 0, |before|, |list|);
    AccumulatedTieStep(chain, ran, sizes, pos, before, list, bindings, subject, path, fails);
    GatherScheduleStep(chain, ran, pos, stopAll, before, list, bindings, subject, path, fails, k');
  }

  /** The group at `pos` is the next position of the reference schedule, and the cursor moves on as it says. */
  lemma GatherScheduleStep(chain: seq<Group>, ran: seq<nat>, pos: nat, stopAll: bool, before: seq<Violation>,
                           list: seq<Violation>, bindings: set<Binding>, subject: Subject, path: seq<Segment>,
                           fails: (Binding, Subject) -> bool, k': nat)
    requires pos < |chain|
    requires ran + GatherSchedule(chain, pos, |before| > 0, stopAll, bindings, subject, path, fails) ==
             GatherSchedule(chain, 0, false, stopAll, bindings, subject, path, fails)
    requires SetOf(list) == SetOf(before) + GroupViolations(bindings, chain[pos].group, subject, path, fails)
    requires k' == NextCursor(chain, pos, |list| > 0, stopAll)
    ensures ran + [pos] + GatherSchedule(chain, k', |list| > 0, stopAll, bindings, subject, path, fails) ==
            GatherSchedule(chain, 0, false, stopAll, bindings, subject, path, fails)
  {
    var failed' := |before| > 0 || GroupViolations(bindings, chain[pos].group, subject, path, fails) != {};
    assert (|before| > 0) == (SetOf(before) != {}) && (|list| > 0) == (SetOf(list) != {});
    assert failed' == (|list| > 0);
    var rest := GatherSchedule(chain, k', |list| > 0, stopAll, bindings, subject, path, fails);
    assert GatherSchedule(chain, pos, |before| > 0, stopAll, bindings, subject, path, fails) == [pos] + rest;
    assert ran + [pos] + rest == ran + ([pos] + rest);
  }

  /** At the end of the chain the walk is a schedule, and the result is empty exactly when no group added anything. */
  lemma GatheredDone(chain: seq<Group>, ran: seq<nat>, sizes: seq<nat>, stopAll: bool, list: seq<Violation>,
                     bindings: set<Binding>, subject: Subject, path: seq<Segment>, fails: (Binding, Subject) -> bool)
    requires Gathered(chain, ran, sizes, |chain|, stopAll, list, bindings, subject, path, fails)
    ensures IsSchedule(chain, ran, sizes, stopAll)
    ensures SetOf(list) == Accumulated(chain, ran, bindings, subject, path, fails)
    ensures SetOf(list) == {} <==> forall t :: 0 <= t < |sizes| ==> sizes[t] == 0
    ensures forall t :: 0 <= t < |ran| ==>
              (sizes[t] > 0 <==> Accumulated(chain, ran[..t + 1], bindings, subject, path, fails) != {})
    ensures ran == GatherSchedule(chain, 0, false, stopAll, bindings, subject, path, fails)
  {
    WalkComplete(chain, ran, sizes, stopAll);
    assert ran + [] == ran;
    forall t | 0 <= t < |ran|
      ensures sizes[t] > 0 <==> Accumulated(chain, ran[..t + 1], bindings, subject, path, fails) != {}
    {
      assert |list[..sizes[t]]| == sizes[t];
    }
  }

  /**
   * What `validate` promises about the root object, whatever its schedule: the first group of the chain always
   * runs, so its direct violations are reported; and an empty result means every group ran and no group of the
   * chain has a direct violation on the root.
   */
  lemma {:induction false} RootDirectViolationsReported(bindings: seq<Binding>, chain: seq<Group>, ran: seq<nat>,
                                                        sizes: seq<nat>, subject: Subject,
                                                        fails: (Binding, Subject) -> bool, result: set<Violation>)
    requires IsSchedule(chain, ran, sizes, false)
    requires result == {} <==> forall t :: 0 <= t < |sizes| ==> sizes[t] == 0
    requires |ran| > 0 ==> forall v :: v in DirectViolations(bindings, chain[ran[0]].group, subject, [], fails) ==> v in result
    requires forall u :: 0 <= u < |ran| && DirectViolations(bindings, chain[ran[u]].group, subject, [], fails) != [] ==>
               sizes[u] > 0
    ensures |chain| > 0 ==> forall v :: v in DirectViolations(bindings, chain[0].group, subject, [], fails) ==> v in result
    ensures result == {} ==>
              forall j, v :: 0 <= j < |chain| ==> v !in DirectViolations(bindings, chain[j].group, subject, [], fails)
  {
    if |chain| > 0 {
      assert ran[0] == 0;
    }
    if result == {} {
      CleanWalkRunsEveryGroup(chain, ran, sizes, false);
      forall j, v | 0 <= j < |chain|
        ensures v !in DirectViolations(bindings, chain[j].group, subject, [], fails)
      {
        assert ran[j] == j && sizes[j] == 0;
      }
    }
  }

  /**
   * What a finished walk from a fresh context gives `validate`: the result is empty exactly when the list stayed
   * empty after every group; the root's direct violations of the first group are reported, and an empty result
   * means no group has one; the skip test sees the root's direct violations; every reported violation is a failing
   * binding of an object processed for a group that ran, and only those groups mark objects; every object reachable
   * from the root is processed for every group that ran; and, when no cascaded value is `null`, the root's direct
   * violations of every group that ran are reported.
   */
  lemma WalkOutcome(meta: ClassId -> BeanMeta, fails: (Binding, Subject) -> bool, heap: Heap, chain: seq<Group>,
                    h: Handle, s0: State, ran: seq<nat>, sizes: seq<nat>, s: State)
    requires Walked(heap, meta, fails, chain, h, s0, ran, sizes, s) && IsSchedule(chain, ran, sizes, false)
    requires h in heap && s0.failing == [] && s0.processed == {} && s0.path == []
    ensures SetOf(s.failing) == {} <==> forall t :: 0 <= t < |sizes| ==> sizes[t] == 0
    ensures |chain| > 0 ==>
              forall v :: v in DirectViolations(meta(heap[h].cls).constraints, chain[0].group, Bean(h), [], fails) ==>
                v in SetOf(s.failing)
    ensures SetOf(s.failing) == {} ==>
              forall j, v :: 0 <= j < |chain| ==>
                v !in DirectViolations(meta(heap[h].cls).constraints, chain[j].group, Bean(h), [], fails)
    ensures forall t, u, v ::
              (0 <= u <= t < |ran| && v in DirectViolations(meta(heap[h].cls).constraints, chain[ran[u]].group, Bean(h), [], fails))
              ==> sizes[t] > 0
    ensures AllGenuine(heap, meta, fails, chain, ran, SetOf(s.failing), s.processed)
    ensures AllRecorded(heap, meta, fails, SetOf(s.failing), s.processed, s.markedAt)
    ensures forall p :: p in s.processed ==> p.1 in RanGroups(chain, ran)
    ensures forall t, x: Handle :: 0 <= t < |ran| && Reachable(heap, meta, h, x) ==> (x, chain[ran[t]].group) in s.processed
    ensures NoNullCascades(heap, meta) ==>
              forall t, v ::
                (0 <= t < |ran| && v in DirectViolations(meta(heap[h].cls).constraints, chain[ran[t]].group, Bean(h), [], fails))
                ==> v in SetOf(s.failing)
  {
    var bindings := meta(heap[h].cls).constraints;
    var result := SetOf(s.failing);
    WalkCoversReachable(heap, meta, fails, chain, h, s0, ran, sizes, s);
    WalkResultGenuine(heap, meta, fails, chain, h, s0, ran, sizes, s);
    WalkRecordsMarked(heap, meta, fails, chain, h, s0, ran, sizes, s);
    forall t, u, v | 0 <= u <= t < |ran| && v in DirectViolations(bindings, chain[ran[u]].group, Bean(h), [], fails)
      ensures sizes[t] > 0
    {
      WalkedSizesPositive(heap, meta, fails, chain, h, s0, ran, sizes, s, t, u, v);
    }
    RootDirectViolationsReported(bindings, chain, ran, sizes, Bean(h), fails, result);
    if NoNullCascades(heap, meta) {
      forall t, v | 0 <= t < |ran| && v in DirectViolations(bindings, chain[ran[t]].group, Bean(h), [], fails)
        ensures v in result
      {
        DirectsAlongContains(bindings, chain, ran, t, Bean(h), [], fails);
      }
    }
  }

  /** The path of a fresh context after `property`, if any, was pushed onto it. */
  function PathFor(property: Option<string>): (path: seq<Segment>)
    ensures property.None? <==> path == []
  {
    if property.Some? then [Property(property.value)] else []
  }

  class ValidatorImpl {
    const meta: ClassId -> BeanMeta
    const fails: (Binding, Subject) -> bool
    const chainFor: seq<GroupId> -> seq<Group>

    constructor (meta: ClassId -> BeanMeta, fails: (Binding, Subject) -> bool, chainFor: seq<GroupId> -> seq<Group>)
      ensures this.meta == meta && this.fails == fails && this.chainFor == chainFor
    {
      this.meta := meta;
      this.fails := fails;
      this.chainFor := chainFor;
    }

    /** `metaConstraint.validateConstraint`: a failing constraint appends one violation at the current path. */
    method EvaluateConstraint(ctx: ExecutionContext, b: Binding, subject: Subject)
      modifies ctx`failing
      ensures ctx.failing == old(ctx.failing) + (if fails(b, subject) then [Violation(b, ctx.path, subject)] else [])
    {
      if fails(b, subject) {
        ctx.AddFailingConstraint(Violation(b, ctx.path, subject));
      }
    }

    /**
     * Validates the direct constraints of the object on top of the stack under the current group,
     * leaves the path as it was, and marks the object processed for the group.
     */
    method ValidateConstraints(ctx: ExecutionContext, heap: Heap)
      requires |ctx.validatedObjects| > 0 && ctx.PeekValidatedObject().Ptr? && ctx.PeekValidatedObject().handle in heap
      requires ctx.currentGroup.Some?
      modifies ctx`path, ctx`failing, ctx`processed, ctx`revalidated, ctx`markedAt
      ensures ctx.path == old(ctx.path)
      ensures ctx.failing == old(ctx.failing) +
                DirectViolations(meta(heap[ctx.PeekValidatedObject().handle].cls).constraints, ctx.currentGroup.value,
                                 Bean(ctx.PeekValidatedObject().handle), old(ctx.path), fails)
      ensures ctx.processed == old(ctx.processed) + {(ctx.PeekValidatedObject().handle, ctx.currentGroup.value)}
      ensures ctx.revalidated == (old(ctx.revalidated) || (ctx.PeekValidatedObject().handle, ctx.currentGroup.value) in old(ctx.processed))
      ensures ctx.markedAt == if (ctx.PeekValidatedObject().handle, ctx.currentGroup.value) in old(ctx.processed)
                              then old(ctx.markedAt)
                              else old(ctx.markedAt)[(ctx.PeekValidatedObject().handle, ctx.currentGroup.value) := old(ctx.path)]
    {
      var h := ctx.PeekValidatedObject().handle;
      var g := ctx.currentGroup.value;
      var bindings := meta(heap[h].cls).constraints;
      var i := 0;
      while i < |bindings|
        invariant 0 <= i <= |bindings|
        invariant ctx.path == old(ctx.path)
        invariant ctx.failing == old(ctx.failing) + DirectViolations(bindings[..i], g, Bean(h), old(ctx.path), fails)
        invariant ctx.processed == old(ctx.processed) && ctx.revalidated == old(ctx.revalidated)
        invariant ctx.markedAt == old(ctx.markedAt)
      {
        var b := bindings[i];
        assert bindings[..i + 1][..i] == bindings[..i];
        ctx.PushProperty(b.property);
        if !ctx.NeedsValidation(b.groups) {
          ctx.PopProperty();
          i := i + 1;
          continue;
        }
        EvaluateConstraint(ctx, b, Bean(h));
        ctx.PopProperty();
        i := i + 1;
      }
      assert bindings[..|bindings|] == bindings;
      ctx.MarkProcessedForCurrentGroup();
    }

    /**
     * The elements a cascaded value is walked as: the contents of a collection or the entries of a map,
     * each marked by an index on the path; an array is wrapped whole, as `Arrays.asList` does with a value
     * typed `Object`, and also gets an index marker; any other value is its own single element.
     */
    method CreateIteratorForCascadedValue(ctx: ExecutionContext, heap: Heap, kind: MemberKind, value: Ref)
      returns (elems: seq<Element>)
      requires value.Ptr? && value.handle in heap
      requires ContentIn(heap, heap[value.handle].content)
      requires kind == Collection ==> heap[value.handle].content.Elements? || heap[value.handle].content.Entries?
      requires |ctx.path| > 0
      modifies ctx`path
      ensures kind == Scalar ==> ctx.path == old(ctx.path)
      ensures kind != Scalar ==> ctx.path == Parent(old(ctx.path)) + [Indexed(Last(old(ctx.path)).name, None)]
      ensures kind != Collection ==> elems == [Item(value)]
      ensures kind == Collection && heap[value.handle].content.Elements? ==>
                |elems| == |heap[value.handle].content.items| &&
                forall j :: 0 <= j < |elems| ==> elems[j] == Item(heap[value.handle].content.items[j])
      ensures kind == Collection && heap[value.handle].content.Entries? ==>
                |elems| == |heap[value.handle].content.entries| &&
                forall j :: 0 <= j < |elems| ==>
                  elems[j] == Entry(heap[value.handle].content.entries[j].0, heap[value.handle].content.entries[j].1)
      ensures forall j :: 0 <= j < |elems| ==> RefIn(heap, elems[j].value)
      ensures elems == CascadeElements(heap, kind, value)
    {
      if kind == Collection {
        var content := heap[value.handle].content;
        if content.Elements? {
          elems := seq(|content.items|, j requires 0 <= j < |content.items| => Item(content.items[j]));
        } else {
          elems := seq(|content.entries|, j requires 0 <= j < |content.entries| => Entry(content.entries[j].0, content.entries[j].1));
        }
        ctx.AppendIndexToPropertyPath();
      } else if kind == Array {
        elems := [Item(value)];
        ctx.AppendIndexToPropertyPath();
      } else {
        elems := [Item(value)];
      }
    }

    /**
     * `validateInContext`: walks the chain with a forward-only cursor; for each group it sets the
     * current group, validates the direct constraints of the object on top of the stack, then cascades.
     * After a sequence group, a non-empty violation list makes the cursor skip the rest of that
     * sequence's run together with the first group after it. A `null` object is not validated.
     */
    method ValidateInContext(ctx: ExecutionContext, heap: Heap, chain: seq<Group>, ghost gs: set<GroupId>)
      returns (ghost ran: seq<nat>, ghost sizes: seq<nat>)
      requires WellFormed(heap, meta)
      requires |ctx.validatedObjects| > 0 && RefIn(heap, ctx.PeekValidatedObject())
      requires ChainGroups(chain) <= gs
      modifies ctx
      decreases Universe(heap, gs) - ctx.processed - TopPair(ctx.validatedObjects, chain),
                if ctx.PeekValidatedObject().Null? then 0 else 11
      ensures ctx.validatedObjects == old(ctx.validatedObjects)
      ensures Advanced(old(ctx.Snapshot()), ctx.Snapshot(), old(ctx.path), ChainGroups(chain))
      ensures PathKept(heap, meta, old(ctx.path), ctx.path)
      ensures old(ctx.PeekValidatedObject()).Null? ==> ran == [] && ctx.Snapshot() == old(ctx.Snapshot())
      ensures old(ctx.PeekValidatedObject()).Ptr? && Unmarked(chain, old(ctx.PeekValidatedObject()).handle, old(ctx.Snapshot())) ==>
                !ctx.revalidated
      ensures old(ctx.PeekValidatedObject()).Ptr? ==>
                && IsSchedule(chain, ran, sizes, false)
                && Walked(heap, meta, fails, chain, old(ctx.PeekValidatedObject()).handle, old(ctx.Snapshot()),
                          ran, sizes, ctx.Snapshot())
    {
      ran, sizes := [], [];
      if ctx.PeekValidatedObject().Null? {
        assert ctx.failing[|ctx.failing|..] == [];
        return;
      }
      var h := ctx.PeekValidatedObject().handle;
      ghost var s0 := ctx.Snapshot();
      WalkingStart(heap, meta, fails, chain, h, s0);
      var k := 0;
      while k < |chain|
        invariant Walking(heap, meta, fails, chain, h, s0, k, ran, sizes, ctx.Snapshot())
        invariant ctx.validatedObjects == s0.validatedObjects
        decreases |chain| - k
      {
        WalkingMeasure(heap, gs, chain, h, s0, k, ctx.Snapshot());
        k, ran, sizes := WalkNextGroup(ctx, heap, chain, k, gs, h, s0, ran, sizes);
      }
      assert old(ctx.Snapshot()) == s0 && old(ctx.PeekValidatedObject()) == Ptr(h);
      WalkComplete(chain, ran, sizes, false);
    }

    /** One pass of `validateInContext`'s loop, together with what it adds to the walk's record. */
    method WalkNextGroup(ctx: ExecutionContext, heap: Heap, chain: seq<Group>, k: nat, ghost gs: set<GroupId>,
                         ghost h: Handle, ghost s0: State, ghost ran: seq<nat>, ghost sizes: seq<nat>)
      returns (k': nat, ghost ran': seq<nat>, ghost sizes': seq<nat>)
      requires WellFormed(heap, meta)
      requires k < |chain| && ChainGroups(chain) <= gs && h in heap
      requires |ctx.validatedObjects| > 0 && ctx.PeekValidatedObject() == Ptr(h)
      requires Walking(heap, meta, fails, chain, h, s0, k, ran, sizes, ctx.Snapshot())
      modifies ctx
      decreases Universe(heap, gs) - ctx.processed - {(h, chain[k].group)}, 10
      ensures ctx.validatedObjects == old(ctx.validatedObjects)
      ensures ran' == ran + [k] && sizes' == sizes + [|ctx.failing|]
      ensures Walking(heap, meta, fails, chain, h, s0, k', ran', sizes', ctx.Snapshot())
    {
      ghost var s1 := ctx.Snapshot();
      assert chain[k].group in ChainGroups(chain);
      k' := ValidateNextGroup(ctx, heap, chain, k, gs);
      WalkingStep(heap, meta, fails, chain, h, s0, k, ran, sizes, s1, ctx.Snapshot(), k');
      ran', sizes' := ran + [k], sizes + [|ctx.failing|];
    }


    /**
     * One pass of `validateInContext`'s loop: takes the group under the cursor, sets it as the current group,
     * validates the object's direct and cascaded constraints under it, and moves the cursor on: past the rest of
     * the group's sequence run when the group belongs to a sequence and the violation list is non-empty.
     */
    method ValidateNextGroup(ctx: ExecutionContext, heap: Heap, chain: seq<Group>, k: nat, ghost gs: set<GroupId>) returns (k': nat)
      requires WellFormed(heap, meta)
      requires k < |chain| && chain[k].group in gs
      requires |ctx.validatedObjects| > 0 && ctx.PeekValidatedObject().Ptr? && ctx.PeekValidatedObject().handle in heap
      modifies ctx
      decreases Universe(heap, gs) - ctx.processed - {(ctx.PeekValidatedObject().handle, chain[k].group)}, 9
      ensures k' == NextCursor(chain, k, |ctx.failing| > 0, false)
      ensures GroupRan(heap, meta, fails, old(ctx.PeekValidatedObject()).handle, chain[k].group, old(ctx.Snapshot()), ctx.Snapshot())
    {
      var group := chain[k];
      k' := k + 1;
      var currentSequence := group.sequence;
      ValidateGroup(ctx, heap, group.group, gs);
      if group.partOfSequence && |ctx.failing| > 0 {
        k' := SkipSequenceRun(chain, k', currentSequence);
      }
    }

    /**
     * The skip loop of `validateInContext` and `validateProperty` (ValidatorImpl.java:139-140, :294-295):
     * `next()` is called in the loop's own condition, so the cursor consumes every group of the run of
     * sequence `s` and the first group after it.
     */
    method SkipSequenceRun(chain: seq<Group>, k: nat, s: Option<SequenceId>) returns (k': nat)
      requires k <= |chain|
      ensures k' == SkipRun(chain, k, s)
    {
      k' := k;
      var more := true;
      while more && k' < |chain|
        invariant k <= k' <= |chain|
        invariant SkipRun(chain, k, s) == if more then SkipRun(chain, k', s) else k'
        decreases |chain| - k'
      {
        more := chain[k'].sequence == s;
        k' := k' + 1;
      }
    }

    /**
     * One iteration of `validateInContext`'s loop (ValidatorImpl.java:133-136): makes `g` the current
     * group, validates the direct constraints of the object on top of the stack, then cascades.
     */
    method ValidateGroup(ctx: ExecutionContext, heap: Heap, g: GroupId, ghost gs: set<GroupId>)
      requires WellFormed(heap, meta)
      requires |ctx.validatedObjects| > 0 && ctx.PeekValidatedObject().Ptr? && ctx.PeekValidatedObject().handle in heap
      requires g in gs
      modifies ctx
      decreases Universe(heap, gs) - ctx.processed - {(ctx.PeekValidatedObject().handle, g)}, 8
      ensures GroupRan(heap, meta, fails, old(ctx.PeekValidatedObject()).handle, g, old(ctx.Snapshot()), ctx.Snapshot())
    {
      var h := ctx.PeekValidatedObject().handle;
      ghost var s0 := ctx.Snapshot();
      ctx.SetCurrentGroup(g);
      ValidateConstraints(ctx, heap);
      ghost var s1 := ctx.Snapshot();
      MeasureMarked(Universe(heap, gs), s0.processed, ctx.processed, (h, g));
      ValidateCascadedConstraints(ctx, heap, gs);
      GroupRanDone(heap, meta, fails, h, g, s0, s1, ctx.Snapshot());
    }

    /**
     * `validateCascadedConstraints`: for each cascaded member of the object on top of the stack, pushes
     * the member's name and walks its value's elements. A `null` value is skipped without popping the name
     * again (ValidatorImpl.java:176-180), so the path comes back unchanged only when no cascaded value is null.
     */
    method ValidateCascadedConstraints(ctx: ExecutionContext, heap: Heap, ghost gs: set<GroupId>)
      requires WellFormed(heap, meta)
      requires |ctx.validatedObjects| > 0 && ctx.PeekValidatedObject().Ptr? && ctx.PeekValidatedObject().handle in heap
      requires ctx.currentGroup.Some? && ctx.currentGroup.value in gs
      modifies ctx
      decreases Universe(heap, gs) - ctx.processed, 7
      ensures ctx.validatedObjects == old(ctx.validatedObjects)
      ensures Advanced(old(ctx.Snapshot()), ctx.Snapshot(), old(ctx.path), {old(ctx.currentGroup).value})
      ensures PathKept(heap, meta, old(ctx.path), ctx.path)
      ensures ctx.currentGroup == old(ctx.currentGroup)
      ensures !old(ctx.revalidated) ==> !ctx.revalidated
      ensures forall c :: c in Children(heap, meta, old(ctx.PeekValidatedObject()).handle) ==>
                (c, old(ctx.currentGroup).value) in ctx.processed
      ensures NewClosed(heap, meta, old(ctx.processed), ctx.processed)
      ensures AddedGenuine(heap, meta, fails, old(ctx.currentGroup).value, old(ctx.Snapshot()), ctx.Snapshot())
      ensures Recorded(heap, meta, fails, old(ctx.Snapshot()), ctx.Snapshot())
    {
      ghost var s0 := ctx.Snapshot();
      var g := ctx.currentGroup.value;
      var h := ctx.PeekValidatedObject().handle;
      var members := meta(heap[h].cls).cascaded;
      MembersStart(heap, meta, fails, heap[h], members, g, s0);
      var i := 0;
      while i < |members|
        invariant MembersCascaded(heap, meta, fails, heap[h], members, i, g, s0, ctx.Snapshot())
        invariant ctx.validatedObjects == s0.validatedObjects && ctx.currentGroup == Some(g)
      {
        CascadeMemberAt(ctx, heap, gs, i, h, g, s0);
        i := i + 1;
      }
      assert old(ctx.Snapshot()) == s0 && old(ctx.PeekValidatedObject()) == Ptr(h) && members[..i] == members;
      MembersDone(heap, meta, fails, h, g, s0, ctx.Snapshot());
    }

    /** One pass of `validateCascadedConstraints`' loop, together with what it adds to the loop's facts. */
    method CascadeMemberAt(ctx: ExecutionContext, heap: Heap, ghost gs: set<GroupId>, i: nat, ghost h: Handle,
                           ghost g: GroupId, ghost s0: State)
      requires WellFormed(heap, meta)
      requires |ctx.validatedObjects| > 0 && ctx.PeekValidatedObject() == Ptr(h) && h in heap
      requires i < |meta(heap[h].cls).cascaded|
      requires ctx.currentGroup == Some(g) && g in gs
      requires MembersCascaded(heap, meta, fails, heap[h], meta(heap[h].cls).cascaded, i, g, s0, ctx.Snapshot())
      modifies ctx
      decreases Universe(heap, gs) - ctx.processed, 6
      ensures ctx.validatedObjects == old(ctx.validatedObjects) && ctx.currentGroup == Some(g)
      ensures MembersCascaded(heap, meta, fails, heap[h], meta(heap[h].cls).cascaded, i + 1, g, s0, ctx.Snapshot())
    {
      ghost var s := ctx.Snapshot();
      ValidateCascadedMember(ctx, heap, gs, i);
      MembersStep(heap, meta, fails, heap[h], meta(heap[h].cls).cascaded, i, g, s0, s, ctx.Snapshot());
    }

    /**
     * One pass of `validateCascadedConstraints`' loop, for the cascaded member at position `j` of the object on
     * top of the stack: the member's name is pushed and its value read; a `null` value ends the pass with the name
     * left on the path; any other value has its elements walked and the name popped again.
     */
    method ValidateCascadedMember(ctx: ExecutionContext, heap: Heap, ghost gs: set<GroupId>, j: nat)
      requires WellFormed(heap, meta)
      requires |ctx.validatedObjects| > 0 && ctx.PeekValidatedObject().Ptr? && ctx.PeekValidatedObject().handle in heap
      requires j < |meta(heap[ctx.PeekValidatedObject().handle].cls).cascaded|
      requires ctx.currentGroup.Some? && ctx.currentGroup.value in gs
      modifies ctx
      decreases Universe(heap, gs) - ctx.processed, 5
      ensures MemberWalked(heap, meta, fails, heap[old(ctx.PeekValidatedObject()).handle],
                           meta(heap[old(ctx.PeekValidatedObject()).handle].cls).cascaded[j],
                           old(ctx.currentGroup).value, old(ctx.Snapshot()), ctx.Snapshot())
    {
      ghost var s := ctx.Snapshot();
      var h := ctx.PeekValidatedObject().handle;
      var obj := heap[h];
      var m := meta(obj.cls).cascaded[j];
      assert ObjectFits(heap, meta, obj);
      assert MemberFits(heap, obj, m);
      ctx.PushProperty(m.name);
      var value := obj.fields[m.name];
      if value.Null? {
        assert !NoNullCascades(heap, meta) by {
          assert !heap[h].fields[meta(heap[h].cls).cascaded[j].name].Ptr?;
        }
        MemberNullWalked(heap, meta, fails, obj, m, ctx.currentGroup.value, s, ctx.Snapshot());
        return;
      }
      var elems := CreateIteratorForCascadedValue(ctx, heap, m.kind, value);
      ghost var s1 := ctx.Snapshot();
      ValidateCascadedConstraint(ctx, heap, gs, elems);
      ghost var s2 := ctx.Snapshot();
      ctx.PopProperty();
      MemberValueWalked(heap, meta, fails, obj, m, elems, ctx.currentGroup.value, s, s1, s2, ctx.Snapshot());
    }

    /**
     * `validateCascadedConstraint`: walks the elements with a counter that advances for every element.
     * An element already processed for the current group is skipped; any other gets its index filled in
     * (a whitelisted map key's text, else the counter), is pushed, validated under the one-group chain of
     * the current group, and popped.
     */
    method ValidateCascadedConstraint(ctx: ExecutionContext, heap: Heap, ghost gs: set<GroupId>, elems: seq<Element>)
      requires WellFormed(heap, meta)
      requires |ctx.validatedObjects| > 0 && |ctx.path| > 0
      requires ctx.currentGroup.Some? && ctx.currentGroup.value in gs
      requires forall j :: 0 <= j < |elems| ==> RefIn(heap, elems[j].value)
      modifies ctx
      decreases Universe(heap, gs) - ctx.processed, 4
      ensures ctx.validatedObjects == old(ctx.validatedObjects)
      ensures Advanced(old(ctx.Snapshot()), ctx.Snapshot(), Parent(old(ctx.path)), {old(ctx.currentGroup).value})
      ensures ctx.currentGroup == old(ctx.currentGroup)
      ensures forall j :: 0 <= j < |elems| && elems[j].value.Ptr? ==> (elems[j].value.handle, ctx.currentGroup.value) in ctx.processed
      ensures NewClosed(heap, meta, old(ctx.processed), ctx.processed)
      ensures AddedGenuine(heap, meta, fails, old(ctx.currentGroup).value, old(ctx.Snapshot()), ctx.Snapshot())
      ensures Recorded(heap, meta, fails, old(ctx.Snapshot()), ctx.Snapshot())
      ensures !old(ctx.revalidated) ==> !ctx.revalidated
      ensures |ctx.path| >= |old(ctx.path)| && Parent(old(ctx.path)) <= ctx.path
      ensures NoNullCascades(heap, meta) ==>
                |ctx.path| == |old(ctx.path)| && SameShape(Last(ctx.path), Last(old(ctx.path)))
      ensures NoNullCascades(heap, meta) ==>
                RenderedBelow(ctx.failing, |old(ctx.failing)|, elems, |elems|, Parent(old(ctx.path)), Last(old(ctx.path)))
    {
      ghost var s0 := ctx.Snapshot();
      var g := ctx.currentGroup.value;
      ghost var parent, member := Parent(ctx.path), Last(ctx.path);
      CascadingStart(heap, meta, fails, elems, g, s0);
      var i := 0;
      while i < |elems|
        invariant Cascading(heap, meta, fails, elems, g, parent, member, s0, i, ctx.Snapshot())
        invariant |ctx.validatedObjects| > 0
      {
        CascadeAt(ctx, heap, gs, elems, i, parent, member, s0);
        i := i + 1;
      }
    }

    /**
     * One iteration of `validateCascadedConstraint`'s loop: the index of the element at `i` is rendered, and the
     * element is cascaded into unless it is already processed for the current group.
     */
    method CascadeAt(ctx: ExecutionContext, heap: Heap, ghost gs: set<GroupId>, elems: seq<Element>, i: nat,
                     ghost parent: seq<Segment>, ghost member: Segment, ghost s0: State)
      requires WellFormed(heap, meta)
      requires |ctx.validatedObjects| > 0 && ctx.currentGroup.Some? && ctx.currentGroup.value in gs
      requires forall j :: 0 <= j < |elems| ==> RefIn(heap, elems[j].value)
      requires i < |elems| && Cascading(heap, meta, fails, elems, ctx.currentGroup.value, parent, member, s0, i, ctx.Snapshot())
      modifies ctx
      decreases Universe(heap, gs) - ctx.processed, 3
      ensures |ctx.validatedObjects| > 0
      ensures Cascading(heap, meta, fails, elems, old(ctx.currentGroup).value, parent, member, s0, i + 1, ctx.Snapshot())
    {
      var g := ctx.currentGroup.value;
      var actualValue := elems[i].value;
      var propertyIndex := IntToString(i);
      if elems[i].Entry? {
        if IsIndexKey(elems[i].key) {
          propertyIndex := KeyText(elems[i].key);
        }
      }
      assert propertyIndex == RenderedIndex(elems[i], i);
      if ctx.IsProcessedForCurrentGroup(actualValue) {
        CascadingSkip(heap, meta, fails, elems, g, parent, member, s0, i, ctx.Snapshot());
        return;
      }
      ghost var s := ctx.Snapshot();
      CascadeElement(ctx, heap, gs, actualValue, propertyIndex);
      CascadingStep(heap, meta, fails, elems, g, parent, member, s0, i, s, ctx.Snapshot());
    }

    /**
     * The body of `validateCascadedConstraint`'s loop for an element not yet processed for the current group:
     * the element's index is filled into the last path segment, the element is pushed, validated under the
     * one-group chain of the current group, and popped.
     */
    method CascadeElement(ctx: ExecutionContext, heap: Heap, ghost gs: set<GroupId>, actualValue: Ref, propertyIndex: string)
      requires WellFormed(heap, meta)
      requires |ctx.validatedObjects| > 0 && |ctx.path| > 0
      requires ctx.currentGroup.Some? && ctx.currentGroup.value in gs
      requires RefIn(heap, actualValue) && !ctx.IsProcessedForCurrentGroup(actualValue)
      modifies ctx
      decreases Universe(heap, gs) - ctx.processed, 2
      ensures ElementWalked(heap, meta, fails, actualValue, old(ctx.currentGroup).value, propertyIndex,
                            old(ctx.Snapshot()), ctx.Snapshot())
    {
      ghost var s := ctx.Snapshot();
      var g := ctx.currentGroup.value;
      ctx.ReplacePropertyIndex(propertyIndex);
      ctx.PushValidatedObject(actualValue);
      WalkPushedElement(ctx, heap, gs, actualValue, propertyIndex, s);
    }

    /** The rest of `CascadeElement`, once the element is pushed: the walk under the one-group chain and the pop. */
    method WalkPushedElement(ctx: ExecutionContext, heap: Heap, ghost gs: set<GroupId>, actualValue: Ref,
                             ghost propertyIndex: string, ghost s: State)
      requires WellFormed(heap, meta)
      requires |s.path| > 0 && s.currentGroup.Some? && s.currentGroup.value in gs
      requires RefIn(heap, actualValue) && !(actualValue.Ptr? && (actualValue.handle, s.currentGroup.value) in s.processed)
      requires ctx.validatedObjects == s.validatedObjects + [actualValue]
      requires ctx.path == Parent(s.path) + [SetIndex(Last(s.path), propertyIndex)]
      requires ctx.failing == s.failing && ctx.processed == s.processed && ctx.revalidated == s.revalidated
      requires ctx.markedAt == s.markedAt && ctx.currentGroup == s.currentGroup
      modifies ctx
      decreases Universe(heap, gs) - ctx.processed, 1
      ensures ElementWalked(heap, meta, fails, actualValue, s.currentGroup.value, propertyIndex, s, ctx.Snapshot())
    {
      var g := ctx.currentGroup.value;
      ghost var s1 := ctx.Snapshot();
      if actualValue.Ptr? {
        MeasureShrinks(Universe(heap, gs), s.processed, ctx.processed, (actualValue.handle, g));
      } else {
        MeasureNoLarger(Universe(heap, gs), s.processed, ctx.processed, {}, {});
      }
      ghost var ran, sizes := ValidateInContext(ctx, heap, SingleGroupChain(g), gs);
      ghost var s2 := ctx.Snapshot();
      ctx.PopValidatedObject();
      ElementDone(heap, meta, fails, actualValue, g, propertyIndex, s, s1, ran, sizes, s2, ctx.Snapshot());
    }

    // ---------------------------------------------------------------- entry points

    /**
     * `validate`: a `null` bean is rejected. Otherwise a fresh context holds the root, an empty group
     * request stands for the default group, the chain generated for the request is walked, and the
     * accumulated list is turned into a set.
     */
    method Validate(heap: Heap, bean: Ref, groups: seq<GroupId>)
      returns (r: Result<set<Violation>, ValidationError>, ghost ran: seq<nat>, ghost sizes: seq<nat>, ghost revalidated: bool,
               ghost processed: set<(Handle, GroupId)>, ghost markedAt: map<(Handle, GroupId), seq<Segment>>)
      requires WellFormed(heap, meta) && RefIn(heap, bean)
      ensures bean.Null? ==> r == Failure(NullObject) && ran == []
      ensures bean.Ptr? ==> r.Success? && IsSchedule(chainFor(RequestedGroups(groups)), ran, sizes, false)
      ensures bean.Ptr? ==> (r.value == {} <==> forall t :: 0 <= t < |sizes| ==> sizes[t] == 0)
      ensures bean.Ptr? && NoNullCascades(heap, meta) ==>
                forall t, v ::
                  (0 <= t < |ran| &&
                   v in DirectViolations(meta(heap[bean.handle].cls).constraints,
                                         chainFor(RequestedGroups(groups))[ran[t]].group, Bean(bean.handle), [], fails))
                  ==> v in r.value
      ensures bean.Ptr? && |chainFor(RequestedGroups(groups))| > 0 ==>
                forall v :: v in DirectViolations(meta(heap[bean.handle].cls).constraints,
                                                  chainFor(RequestedGroups(groups))[0].group, Bean(bean.handle), [], fails)
                            ==> v in r.value
      ensures bean.Ptr? && r.value == {} ==>
                forall j, v :: 0 <= j < |chainFor(RequestedGroups(groups))| ==>
                  v !in DirectViolations(meta(heap[bean.handle].cls).constraints, chainFor(RequestedGroups(groups))[j].group,
                                         Bean(bean.handle), [], fails)
      ensures bean.Ptr? ==>
                forall t, u, v ::
                  (0 <= u <= t < |ran| &&
                   v in DirectViolations(meta(heap[bean.handle].cls).constraints,
                                         chainFor(RequestedGroups(groups))[ran[u]].group, Bean(bean.handle), [], fails))
                  ==> sizes[t] > 0
      ensures bean.Ptr? && DistinctGroups(chainFor(RequestedGroups(groups))) ==> !revalidated
      ensures bean.Ptr? ==> AllGenuine(heap, meta, fails, chainFor(RequestedGroups(groups)), ran, r.value, processed)
      ensures bean.Ptr? ==> AllRecorded(heap, meta, fails, r.value, processed, markedAt)
      ensures forall p :: p in processed ==> p.1 in RanGroups(chainFor(RequestedGroups(groups)), ran)
      ensures bean.Ptr? ==>
                forall t, x: Handle :: 0 <= t < |ran| && Reachable(heap, meta, bean.handle, x) ==>
                  (x, chainFor(RequestedGroups(groups))[ran[t]].group) in processed
    {
      if bean.Null? {
        return Failure(NullObject), [], [], false, {}, map[];
      }
      var context := new ExecutionContext(bean);
      ghost var s0 := context.Snapshot();
      var chain := chainFor(RequestedGroups(groups));
      ran, sizes := ValidateInContext(context, heap, chain, ChainGroups(chain));
      revalidated := context.revalidated;
      processed := context.processed;
      markedAt := context.markedAt;
      r := Success(SetOf(context.failing));
      ghost var h := bean.handle;
      WalkOutcome(meta, fails, heap, chain, h, s0, ran, sizes, context.Snapshot());
    }

    /**
     * `collectMetaConstraintsForPath`: `pos` is the node the split path stands on. On the last node the
     * class's bindings of that property are added to `metaConstraints`; on any other node the method recurses
     * through every cascaded member of that name into its declared type, or into its element type when the
     * node is indexed, passing over a member that has none.
     */
    method CollectMetaConstraintsForPath(cls: ClassId, nodes: seq<PathNode>, pos: nat, metaConstraints: set<Binding>)
      returns (collected: set<Binding>)
      requires pos < |nodes|
      ensures collected == metaConstraints + MatchingConstraints(meta, cls, nodes[pos..])
      decreases |nodes| - pos
    {
      var head := nodes[pos];
      collected := metaConstraints;
      if pos + 1 == |nodes| {
        var metaConstraintList := meta(cls).constraints;
        var i := 0;
        while i < |metaConstraintList|
          invariant 0 <= i <= |metaConstraintList|
          invariant collected == metaConstraints + PropertyBindings(metaConstraintList[..i], head.name)
        {
          assert metaConstraintList[..i + 1] == metaConstraintList[..i] + [metaConstraintList[i]];
          if metaConstraintList[i].property == head.name {
            collected := collected + {metaConstraintList[i]};
          }
          i := i + 1;
        }
        assert metaConstraintList[..i] == metaConstraintList;
      } else {
        var cascadedMembers := meta(cls).cascaded;
        var j := 0;
        while j < |cascadedMembers|
          invariant 0 <= j <= |cascadedMembers|
          invariant collected == metaConstraints + MembersMatching(meta, cascadedMembers, head, nodes[pos + 1..], j)
        {
          var m := cascadedMembers[j];
          if m.name == head.name {
            var t := Some(m.declared);
            if head.indexed {
              t := m.indexedType;
              if t.None? {
                j := j + 1;
                continue;
              }
            }
            collected := CollectMetaConstraintsForPath(t.value, nodes, pos + 1, collected);
          }
          j := j + 1;
        }
        assert nodes[pos..][1..] == nodes[pos + 1..];
      }
    }

    /**
     * The body of the group loop of `validateProperty` and `validateValue`: every collected binding that applies
     * to group `g` is evaluated in a fresh context rooted at `root` (whose path holds `property` when one is
     * pushed), and what that context records is appended to the list. The list grows by exactly the violations
     * of `g` among the bindings, whatever order the set is visited in.
     */
    method ValidateGroupConstraints(root: Ref, subject: Subject, property: Option<string>, metaConstraints: set<Binding>,
                                    g: GroupId, failingConstraintViolations: seq<Violation>)
      returns (list: seq<Violation>)
      ensures failingConstraintViolations <= list
      ensures SetOf(list) == SetOf(failingConstraintViolations) + GroupViolations(metaConstraints, g, subject, PathFor(property), fails)
    {
      list := failingConstraintViolations;
      var remaining := metaConstraints;
      while remaining != {}
        invariant remaining <= metaConstraints && failingConstraintViolations <= list
        invariant SetOf(list) ==
                  SetOf(failingConstraintViolations) + GroupViolations(metaConstraints - remaining, g, subject, PathFor(property), fails)
        decreases |remaining|
      {
        var metaConstraint :| metaConstraint in remaining;
        ghost var done := metaConstraints - remaining;
        assert metaConstraints - (remaining - {metaConstraint}) == done + {metaConstraint};
        remaining := remaining - {metaConstraint};
        if g !in metaConstraint.groups {
          BindingStep(failingConstraintViolations, list, [], done, metaConstraint, g, subject, PathFor(property), fails);
          assert list + [] == list;
          continue;
        }
        var context := new ExecutionContext(root);
        if property.Some? {
          context.PushProperty(property.value);
        }
        assert context.path == PathFor(property);
        EvaluateConstraint(context, metaConstraint, subject);
        BindingStep(failingConstraintViolations, list, context.failing, done, metaConstraint, g, subject, PathFor(property), fails);
        list := list + context.failing;
      }
      assert metaConstraints - remaining == metaConstraints;
    }

    /**
     * The public `validateProperty`: the violations the private overload gathers, as a set. A `null` bean is
     * rejected; a path that resolves to no binding gives no violations; otherwise the result is what the
     * groups validated, in a schedule of the chain generated for the request, contribute.
     */
    method ValidateProperty(heap: Heap, bean: Ref, propertyPath: PropertyPath, groups: seq<GroupId>)
      returns (r: Result<set<Violation>, ValidationError>, ghost ran: seq<nat>, ghost sizes: seq<nat>)
      requires RefIn(heap, bean) && |propertyPath.nodes| > 0
      ensures bean.Null? ==> r == Failure(NullObject) && ran == []
      ensures bean.Ptr? ==> r.Success?
      ensures bean.Ptr? && MatchingConstraints(meta, heap[bean.handle].cls, propertyPath.nodes) == {} ==>
                r == Success({}) && ran == []
      ensures bean.Ptr? && MatchingConstraints(meta, heap[bean.handle].cls, propertyPath.nodes) != {} ==>
                && IsSchedule(chainFor(RequestedGroups(groups)), ran, sizes, false)
                && r.value == Accumulated(chainFor(RequestedGroups(groups)), ran,
                                          MatchingConstraints(meta, heap[bean.handle].cls, propertyPath.nodes),
                                          Bean(bean.handle), [], fails)
                && ran == GatherSchedule(chainFor(RequestedGroups(groups)), 0, false, false,
                                         MatchingConstraints(meta, heap[bean.handle].cls, propertyPath.nodes),
                                         Bean(bean.handle), [], fails)
                && (forall t :: 0 <= t < |ran| ==>
                      (sizes[t] > 0 <==>
                       Accumulated(chainFor(RequestedGroups(groups)), ran[..t + 1],
                                   MatchingConstraints(meta, heap[bean.handle].cls, propertyPath.nodes),
                                   Bean(bean.handle), [], fails) != {}))
      ensures r.Success? ==> (r.value == {} <==> forall t :: 0 <= t < |sizes| ==> sizes[t] == 0)
    {
      var failingConstraintViolations;
      failingConstraintViolations, ran, sizes := ValidatePropertyPath(heap, bean, propertyPath, groups);
      if failingConstraintViolations.Failure? {
        return Failure(failingConstraintViolations.error), ran, sizes;
      }
      r := Success(SetOf(failingConstraintViolations.value));
      if MatchingConstraints(meta, heap[bean.handle].cls, propertyPath.nodes) != {} {
        GatheredDone(chainFor(RequestedGroups(groups)), ran, sizes, false, failingConstraintViolations.value,
                     MatchingConstraints(meta, heap[bean.handle].cls, propertyPath.nodes), Bean(bean.handle), [], fails);
      }
    }

    /**
     * The private `validateProperty`: a `null` bean is rejected. The bindings the property path resolves to from
     * the bean's class are collected; when there are none nothing more happens. Otherwise the chain generated for
     * the request (the default group when empty) is walked with the same skip rule as the full-graph walk; under
     * each group every collected binding of that group is evaluated against the bean in a fresh context, whose
     * violations are appended to the list.
     */
    method ValidatePropertyPath(heap: Heap, bean: Ref, propertyPath: PropertyPath, groups: seq<GroupId>)
      returns (r: Result<seq<Violation>, ValidationError>, ghost ran: seq<nat>, ghost sizes: seq<nat>)
      requires RefIn(heap, bean) && |propertyPath.nodes| > 0
      ensures bean.Null? ==> r == Failure(NullObject) && ran == []
      ensures bean.Ptr? ==> r.Success?
      ensures bean.Ptr? && MatchingConstraints(meta, heap[bean.handle].cls, propertyPath.nodes) == {} ==>
                r == Success([]) && ran == [] && sizes == []
      ensures bean.Ptr? && MatchingConstraints(meta, heap[bean.handle].cls, propertyPath.nodes) != {} ==>
                Gathered(chainFor(RequestedGroups(groups)), ran, sizes, |chainFor(RequestedGroups(groups))|, false, r.value,
                         MatchingConstraints(meta, heap[bean.handle].cls, propertyPath.nodes), Bean(bean.handle), [], fails)
    {
      ran, sizes := [], [];
      if bean.Null? {
        return Failure(NullObject), ran, sizes;
      }
      var beanType := heap[bean.handle].cls;
      var metaConstraints := CollectMetaConstraintsForPath(beanType, propertyPath.nodes, 0, {});
      assert propertyPath.nodes[0..] == propertyPath.nodes;
      if |metaConstraints| == 0 {
        return Success([]), ran, sizes;
      }
      var subject := Bean(bean.handle);
      var chain := chainFor(RequestedGroups(groups));
      var failingConstraintViolations: seq<Violation> := [];
      GatheredStart(chain, false, metaConstraints, subject, [], fails);
      var k := 0;
      while k < |chain|
        invariant Gathered(chain, ran, sizes, k, false, failingConstraintViolations, metaConstraints, subject, [], fails)
        decreases |chain| - k
      {
        ghost var pos := k;
        ghost var before := failingConstraintViolations;
        failingConstraintViolations, k := ValidatePropertyGroup(bean, metaConstraints, chain, k, failingConstraintViolations);
        GatheredStep(chain, ran, sizes, pos, false, before, failingConstraintViolations, metaConstraints, subject, [], fails, k);
        ran, sizes := ran + [pos], sizes + [|failingConstraintViolations|];
      }
      r := Success(failingConstraintViolations);
    }

    /**
     * One pass of the private `validateProperty`'s group loop: the group under the cursor is validated against the
     * bean, and the cursor moves on past the rest of the group's sequence run when the list is then non-empty.
     */
    method ValidatePropertyGroup(bean: Ref, metaConstraints: set<Binding>, chain: seq<Group>, k: nat,
                                 failingConstraintViolations: seq<Violation>)
      returns (list: seq<Violation>, k': nat)
      requires bean.Ptr? && k < |chain|
      ensures failingConstraintViolations <= list
      ensures SetOf(list) == SetOf(failingConstraintViolations) +
                             GroupViolations(metaConstraints, chain[k].group, Bean(bean.handle), [], fails)
      ensures k' == NextCursor(chain, k, |list| > 0, false)
    {
      var group := chain[k];
      k' := k + 1;
      var currentSequence := group.sequence;
      list := ValidateGroupConstraints(bean, Bean(bean.handle), None, metaConstraints, group.group, failingConstraintViolations);
      if group.partOfSequence && |list| > 0 {
        k' := SkipSequenceRun(chain, k', currentSequence);
      }
    }

    /**
     * The public `validateValue`: the violations the private overload gathers, as a set. A `null` class is
     * rejected; a path that resolves to no binding gives no violations; otherwise the result is what the groups
     * validated, in a schedule of the chain that stops after the first failing sequence group, contribute, each
     * violation carrying the value and the path as the caller wrote it.
     */
    method ValidateValue(beanType: Option<ClassId>, value: Ref, propertyPath: PropertyPath, groups: seq<GroupId>)
      returns (r: Result<set<Violation>, ValidationError>, ghost ran: seq<nat>, ghost sizes: seq<nat>)
      requires |propertyPath.nodes| > 0
      ensures beanType.None? ==> r == Failure(NullClass) && ran == []
      ensures beanType.Some? ==> r.Success?
      ensures beanType.Some? && MatchingConstraints(meta, beanType.value, propertyPath.nodes) == {} ==>
                r == Success({}) && ran == []
      ensures beanType.Some? && MatchingConstraints(meta, beanType.value, propertyPath.nodes) != {} ==>
                && IsSchedule(chainFor(RequestedGroups(groups)), ran, sizes, true)
                && r.value == Accumulated(chainFor(RequestedGroups(groups)), ran,
                                          MatchingConstraints(meta, beanType.value, propertyPath.nodes),
                                          Value(value), [Property(propertyPath.original)], fails)
                && ran == GatherSchedule(chainFor(RequestedGroups(groups)), 0, false, true,
                                         MatchingConstraints(meta, beanType.value, propertyPath.nodes),
                                         Value(value), [Property(propertyPath.original)], fails)
                && (forall t :: 0 <= t < |ran| ==>
                      (sizes[t] > 0 <==>
                       Accumulated(chainFor(RequestedGroups(groups)), ran[..t + 1],
                                   MatchingConstraints(meta, beanType.value, propertyPath.nodes),
                                   Value(value), [Property(propertyPath.original)], fails) != {}))
      ensures r.Success? ==> (r.value == {} <==> forall t :: 0 <= t < |sizes| ==> sizes[t] == 0)
    {
      var failingConstraintViolations;
      failingConstraintViolations, ran, sizes := ValidateValuePath(beanType, value, propertyPath, groups);
      if failingConstraintViolations.Failure? {
        return Failure(failingConstraintViolations.error), ran, sizes;
      }
      r := Success(SetOf(failingConstraintViolations.value));
      if MatchingConstraints(meta, beanType.value, propertyPath.nodes) != {} {
        GatheredDone(chainFor(RequestedGroups(groups)), ran, sizes, true, failingConstraintViolations.value,
                     MatchingConstraints(meta, beanType.value, propertyPath.nodes), Value(value),
                     [Property(propertyPath.original)], fails);
      }
    }

    /**
     * The private `validateValue`: the bindings the property path resolves to from `beanType` are collected (a
     * `null` class is rejected by the metadata lookup); when there are none nothing more happens. Otherwise the
     * chain generated for the request is walked group by group; under each group every collected binding of that
     * group is evaluated against the value in a fresh context whose path is the property as written. After a
     * sequence group that leaves the list non-empty the walk stops altogether.
     */
    method ValidateValuePath(beanType: Option<ClassId>, value: Ref, propertyPath: PropertyPath, groups: seq<GroupId>)
      returns (r: Result<seq<Violation>, ValidationError>, ghost ran: seq<nat>, ghost sizes: seq<nat>)
      requires |propertyPath.nodes| > 0
      ensures beanType.None? ==> r == Failure(NullClass) && ran == []
      ensures beanType.Some? ==> r.Success?
      ensures beanType.Some? && MatchingConstraints(meta, beanType.value, propertyPath.nodes) == {} ==>
                r == Success([]) && ran == [] && sizes == []
      ensures beanType.Some? && MatchingConstraints(meta, beanType.value, propertyPath.nodes) != {} ==>
                Gathered(chainFor(RequestedGroups(groups)), ran, sizes, |chainFor(RequestedGroups(groups))|, true, r.value,
                         MatchingConstraints(meta, beanType.value, propertyPath.nodes), Value(value),
                         [Property(propertyPath.original)], fails)
    {
      ran, sizes := [], [];
      if beanType.None? {
        return Failure(NullClass), ran, sizes;
      }
      var metaConstraints := CollectMetaConstraintsForPath(beanType.value, propertyPath.nodes, 0, {});
      assert propertyPath.nodes[0..] == propertyPath.nodes;
      if |metaConstraints| == 0 {
        return Success([]), ran, sizes;
      }
      var subject := Value(value);
      ghost var path := PathFor(Some(propertyPath.original));
      var chain := chainFor(RequestedGroups(groups));
      var failingConstraintViolations: seq<Violation> := [];
      GatheredStart(chain, true, metaConstraints, subject, path, fails);
      var k := 0;
      while k < |chain|
        invariant Gathered(chain, ran, sizes, k, true, failingConstraintViolations, metaConstraints, subject, path, fails)
        decreases |chain| - k
      {
        var group := chain[k];
        ghost var pos := k;
        k := k + 1;
        ghost var before := failingConstraintViolations;
        failingConstraintViolations := ValidateGroupConstraints(value, subject, Some(propertyPath.original), metaConstraints,
                                                                group.group, failingConstraintViolations);
        GatheredStep(chain, ran, sizes, pos, true, before, failingConstraintViolations, metaConstraints, subject, path, fails,
                     NextCursor(chain, pos, |failingConstraintViolations| > 0, true));
        ran, sizes := ran + [pos], sizes + [|failingConstraintViolations|];
        if group.partOfSequence && |failingConstraintViolations| > 0 {
          break;
        }
      }
      r := Success(failingConstraintViolations);
    }
  }
}

=== FILE: walk.dfy ===
/**
 * The bookkeeping of the full-graph walk: the termination measure over (object, group) pairs, the
 * relation between the context before and after a step of the walk, and the facts the loop of
 * `validateInContext` keeps. Everything here is about values; `Validator` applies it to snapshots of
 * an `ExecutionContext`.
 */
module Walk {
  import opened Wrappers
  import opened Groups
  import opened Graph
  import opened Context

  /** All (object, group) pairs the walk over `heap` can mark under the groups `gs`. */
  ghost function Universe(heap: Heap, gs: set<GroupId>): set<(Handle, GroupId)>
  {
    set h, g | h in heap.Keys && g in gs :: (h, g)
  }

  /** The pair a one-group walk is about to mark for the object on top of the stack. */
  ghost function TopPair(stack: seq<Ref>, chain: seq<Group>): set<(Handle, GroupId)>
  {
    if |stack| > 0 && stack[|stack| - 1].Ptr? && |chain| == 1 then {(stack[|stack| - 1].handle, chain[0].group)} else {}
  }

  /** The termination measure of the walk never grows while `processed` only grows. */
  lemma MeasureNoLarger<T>(u: set<T>, p0: set<T>, p1: set<T>, x: set<T>, y: set<T>)
    requires p0 <= p1 && x <= p1 + y
    ensures u - p1 - y <= u - p0 - x
  {
  }

  /** Once the pair `e` is marked, the measure is no larger than the one that already left `e` out. */
  lemma MeasureMarked<T>(u: set<T>, p0: set<T>, p1: set<T>, e: T)
    requires p0 + {e} <= p1
    ensures u - p1 <= u - p0 - {e}
  {
  }

  /** Marking a new pair of the universe shrinks the measure strictly. */
  lemma MeasureShrinks<T>(u: set<T>, p0: set<T>, p1: set<T>, e: T)
    requires p0 <= p1 && e in u && e !in p1
    ensures u - p1 - {e} < u - p0
  {
    assert e in u - p0;
  }

  /** The chain the generator yields for `[g]` when `g` is a plain group, as a cascade requests it. */
  function SingleGroupChain(g: GroupId): seq<Group>
  {
    [Group(g, None, false)]
  }

  lemma SingleGroupChainGroups(g: GroupId)
    ensures ChainGroups(SingleGroupChain(g)) == {g}
  {
    assert SingleGroupChain(g)[0].group == g;
    assert g in GroupsBefore(SingleGroupChain(g), 1);
  }

  function Parent(path: seq<Segment>): seq<Segment>
    requires |path| > 0
  {
    path[..|path| - 1]
  }

  function Last(path: seq<Segment>): Segment
    requires |path| > 0
  {
    path[|path| - 1]
  }

  /** Every violation of `vs` lies at or below `path`. */
  ghost predicate AllBelow(vs: seq<Violation>, path: seq<Segment>)
    decreases |vs|
  {
    |vs| == 0 || (path <= vs[0].path && AllBelow(vs[1..], path))
  }

  lemma {:induction false} AllBelowAt(vs: seq<Violation>, path: seq<Segment>, i: nat)
    requires AllBelow(vs, path) && i < |vs|
    ensures path <= vs[i].path
    decreases i
  {
    if i > 0 {
      AllBelowAt(vs[1..], path, i - 1);
    }
  }

  lemma {:induction false} AllBelowOf(vs: seq<Violation>, path: seq<Segment>)
    requires forall v :: v in vs ==> path <= v.path
    ensures AllBelow(vs, path)
    decreases |vs|
  {
    if |vs| > 0 {
      assert vs[0] in vs;
      forall v | v in vs[1..]
        ensures path <= v.path
      {
        assert v in vs;
      }
      AllBelowOf(vs[1..], path);
    }
  }

  lemma {:induction false} AllBelowConcat(a: seq<Violation>, b: seq<Violation>, p: seq<Segment>, q: seq<Segment>)
    requires AllBelow(a, p) && AllBelow(b, q) && p <= q
    ensures AllBelow(a + b, p)
    decreases |a| + |b|
  {
    if |a| > 0 {
      assert (a + b)[1..] == a[1..] + b;
      AllBelowConcat(a[1..], b, p, q);
    } else if |b| > 0 {
      assert a + b == b;
      assert b[1..] == [] + b[1..];
      AllBelowConcat([], b[1..], p, q);
    }
  }

  /** The list only grew, and every violation added since lies below `path`. */
  ghost predicate AddedBelow(before: seq<Violation>, after: seq<Violation>, path: seq<Segment>)
  {
    before <= after && AllBelow(after[|before|..], path)
  }

  lemma AddedBelowTrans(a: seq<Violation>, b: seq<Violation>, c: seq<Violation>, p: seq<Segment>, q: seq<Segment>)
    requires AddedBelow(a, b, p) && AddedBelow(b, c, q) && p <= q
    ensures AddedBelow(a, c, p)
  {
    assert c[|a|..] == b[|a|..] + c[|b|..];
    AllBelowConcat(b[|a|..], c[|b|..], p, q);
  }

  lemma AddedBelowAt(before: seq<Violation>, after: seq<Violation>, path: seq<Segment>, n: nat)
    requires AddedBelow(before, after, path) && |before| <= n < |after|
    ensures path <= after[n].path
  {
    AllBelowAt(after[|before|..], path, n - |before|);
  }

  /** Every violation of `vs` occurs in `list`. */
  ghost predicate ContainsAll(list: seq<Violation>, vs: seq<Violation>)
  {
    forall v :: v in vs ==> v in list
  }

  lemma ContainsAllGrows(list: seq<Violation>, longer: seq<Violation>, vs: seq<Violation>)
    requires ContainsAll(list, vs) && list <= longer
    ensures ContainsAll(longer, vs)
  {
    forall v | v in vs
      ensures v in longer
    {
      var i :| 0 <= i < |list| && list[i] == v;
      assert longer[i] == v;
    }
  }

  /** Each entry of `sizes` lies between `lo` and `hi`, and the entries never decrease. */
  ghost predicate SizesWithin(sizes: seq<nat>, lo: nat, hi: nat)
  {
    && (forall t :: 0 <= t < |sizes| ==> lo <= sizes[t] <= hi)
    && (forall t, u :: 0 <= t < u < |sizes| ==> sizes[t] <= sizes[u])
  }

  lemma SizesGrow(sizes: seq<nat>, lo: nat, hi: nat, hi': nat)
    requires SizesWithin(sizes, lo, hi) && lo <= hi <= hi'
    ensures SizesWithin(sizes + [hi'], lo, hi')
  {
  }

  /** Every pair added to `processed` since `before` has a group from `groups`. */
  ghost predicate NewPairsIn(before: set<(Handle, GroupId)>, after: set<(Handle, GroupId)>, groups: set<GroupId>)
  {
    forall p :: p in after && p !in before ==> p.1 in groups
  }

  lemma NewPairsWiden(start: set<(Handle, GroupId)>, mid: set<(Handle, GroupId)>, after: set<(Handle, GroupId)>,
                      chain: seq<Group>, pos: nat, g: GroupId)
    requires pos < |chain| && chain[pos].group == g
    requires NewPairsIn(start, mid, GroupsBefore(chain, pos)) && NewPairsIn(mid, after, {g})
    ensures NewPairsIn(start, after, GroupsBefore(chain, pos + 1))
  {
    forall p | p in after && p !in start
      ensures p.1 in GroupsBefore(chain, pos + 1)
    {
      if p in mid {
        var r :| 0 <= r < pos && chain[r].group == p.1;
      }
    }
  }

  lemma DistinctNotBefore(chain: seq<Group>, pos: nat)
    requires DistinctGroups(chain) && pos < |chain|
    ensures chain[pos].group !in GroupsBefore(chain, pos)
  {
  }

  lemma GroupsBeforeGrow(chain: seq<Group>, k: nat, k': nat)
    requires k <= k' <= |chain|
    ensures GroupsBefore(chain, k) <= GroupsBefore(chain, k')
  {
  }

  lemma ContainsAllAppend(list: seq<Violation>, a: seq<Violation>, b: seq<Violation>)
    requires ContainsAll(list, a) && ContainsAll(list, b)
    ensures ContainsAll(list, a + b)
  {
    forall v | v in a + b
      ensures v in list
    {
      var i :| 0 <= i < |a + b| && (a + b)[i] == v;
      if i < |a| {
        assert a[i] == v;
      } else {
        assert b[i - |a|] == v;
      }
    }
  }

  /** The direct violations of the object's bindings under the groups at chain positions `ran`, in that order. */
  function DirectsAlong(bindings: seq<Binding>, chain: seq<Group>, ran: seq<nat>, subject: Subject,
                        path: seq<Segment>, fails: (Binding, Subject) -> bool): seq<Violation>
    requires forall t :: 0 <= t < |ran| ==> ran[t] < |chain|
  {
    if ran == [] then []
    else DirectsAlong(bindings, chain, ran[..|ran| - 1], subject, path, fails) +
         DirectViolations(bindings, chain[ran[|ran| - 1]].group, subject, path, fails)
  }

  lemma DirectsAlongStep(bindings: seq<Binding>, chain: seq<Group>, ran: seq<nat>, pos: nat, subject: Subject,
                         path: seq<Segment>, fails: (Binding, Subject) -> bool)
    requires forall t :: 0 <= t < |ran| ==> ran[t] < |chain|
    requires pos < |chain|
    ensures DirectsAlong(bindings, chain, ran + [pos], subject, path, fails) ==
            DirectsAlong(bindings, chain, ran, subject, path, fails) + DirectViolations(bindings, chain[pos].group, subject, path, fails)
  {
    assert (ran + [pos])[..|ran|] == ran;
  }

  /** The concatenation holds the direct violations of each group it was built from. */
  lemma {:induction false} DirectsAlongContains(bindings: seq<Binding>, chain: seq<Group>, ran: seq<nat>, t: nat,
                                                subject: Subject, path: seq<Segment>, fails: (Binding, Subject) -> bool)
    requires forall u :: 0 <= u < |ran| ==> ran[u] < |chain|
    requires t < |ran|
    ensures ContainsAll(DirectsAlong(bindings, chain, ran, subject, path, fails),
                        DirectViolations(bindings, chain[ran[t]].group, subject, path, fails))
    decreases |ran|
  {
    var front := DirectsAlong(bindings, chain, ran[..|ran| - 1], subject, path, fails);
    var last := DirectViolations(bindings, chain[ran[|ran| - 1]].group, subject, path, fails);
    var d := DirectViolations(bindings, chain[ran[t]].group, subject, path, fails);
    forall v | v in d
      ensures v in front + last
    {
      if t < |ran| - 1 {
        DirectsAlongContains(bindings, chain, ran[..|ran| - 1], t, subject, path, fails);
        assert v in front;
      } else {
        assert v in last;
      }
    }
  }

  /**
   * Every violation of `list` from position `from` on lies below the cascaded member's name carrying the index
   * rendered for one of the first `bound` elements.
   */
  ghost predicate RenderedBelow(list: seq<Violation>, from: nat, elems: seq<Element>, bound: nat,
                                parent: seq<Segment>, member: Segment)
    requires bound <= |elems|
  {
    forall n :: from <= n < |list| ==>
      exists j :: 0 <= j < bound && parent + [SetIndex(member, RenderedIndex(elems[j], j))] <= list[n].path
  }

  /** Walking element `i` adds only violations below its own rendered index. */
  lemma RenderedBelowStep(before: seq<Violation>, after: seq<Violation>, from: nat, elems: seq<Element>, i: nat,
                          parent: seq<Segment>, member: Segment)
    requires i < |elems|
    requires RenderedBelow(before, from, elems, i, parent, member)
    requires AddedBelow(before, after, parent + [SetIndex(member, RenderedIndex(elems[i], i))])
    ensures RenderedBelow(after, from, elems, i + 1, parent, member)
  {
    forall n | from <= n < |after|
      ensures exists j :: 0 <= j < i + 1 && parent + [SetIndex(member, RenderedIndex(elems[j], j))] <= after[n].path
    {
      if n < |before| {
        assert after[n] == before[n];
        var j :| 0 <= j < i && parent + [SetIndex(member, RenderedIndex(elems[j], j))] <= before[n].path;
      } else {
        AddedBelowAt(before, after, parent + [SetIndex(member, RenderedIndex(elems[i], i))], n);
      }
    }
  }

  // ---------------------------------------------------------------- the objects a walk reaches

  /** The objects the cascaded member `m` of `o` leads to: the non-null elements its value is walked as. */
  ghost function MemberChildren(heap: Heap, o: HeapObject, m: CascadeMember): set<Handle>
  {
    if m.name in o.fields && o.fields[m.name].Ptr? && o.fields[m.name].handle in heap then
      var elems := CascadeElements(heap, m.kind, o.fields[m.name]);
      set j | 0 <= j < |elems| && elems[j].value.Ptr? :: elems[j].value.handle
    else {}
  }

  /** The objects the cascaded members `members` of `o` lead to. */
  ghost function ChildrenAmong(heap: Heap, o: HeapObject, members: seq<CascadeMember>): set<Handle>
  {
    if members == [] then {}
    else ChildrenAmong(heap, o, members[..|members| - 1]) + MemberChildren(heap, o, members[|members| - 1])
  }

  /** The objects the cascaded members of the object `h` lead to. */
  ghost function Children(heap: Heap, meta: ClassId -> BeanMeta, h: Handle): set<Handle>
  {
    if h in heap then ChildrenAmong(heap, heap[h], meta(heap[h].cls).cascaded) else {}
  }

  /** `x` is one of the objects the cascaded members of `y` lead to. */
  ghost predicate LeadsTo(heap: Heap, meta: ClassId -> BeanMeta, y: Handle, x: Handle)
  {
    x in Children(heap, meta, y)
  }

  /** `x` is reached from `root` by following cascaded member values `n` times. */
  ghost predicate ReachableIn(heap: Heap, meta: ClassId -> BeanMeta, root: Handle, x: Handle, n: nat)
    decreases n
  {
    if n == 0 then x == root
    else exists y: Handle :: ReachableIn(heap, meta, root, y, n - 1) && LeadsTo(heap, meta, y, x)
  }

  /** `x` is reached from `root` by following cascaded member values. */
  ghost predicate Reachable(heap: Heap, meta: ClassId -> BeanMeta, root: Handle, x: Handle)
  {
    exists n: nat :: ReachableIn(heap, meta, root, x, n)
  }

  /** Every pair marked since `before` has the objects its object leads to marked for the same group. */
  ghost predicate NewClosed(heap: Heap, meta: ClassId -> BeanMeta, before: set<(Handle, GroupId)>,
                            after: set<(Handle, GroupId)>)
  {
    forall p, c :: p in after && p !in before && c in Children(heap, meta, p.0) ==> (c, p.1) in after
  }

  lemma NewClosedTrans(heap: Heap, meta: ClassId -> BeanMeta, a: set<(Handle, GroupId)>, b: set<(Handle, GroupId)>,
                       c: set<(Handle, GroupId)>)
    requires NewClosed(heap, meta, a, b) && NewClosed(heap, meta, b, c) && b <= c
    ensures NewClosed(heap, meta, a, c)
  {
  }

  /**
   * When every marked pair is closed, everything reachable from an object marked for `g` is marked for `g` too:
   * the walk of `g` from the root covers the root's whole cascade graph.
   */
  lemma {:induction false} ClosedCoversReachable(heap: Heap, meta: ClassId -> BeanMeta, processed: set<(Handle, GroupId)>,
                                                 root: Handle, g: GroupId, x: Handle, n: nat)
    requires NewClosed(heap, meta, {}, processed) && (root, g) in processed
    requires ReachableIn(heap, meta, root, x, n)
    ensures (x, g) in processed
    decreases n
  {
    if n > 0 {
      var y: Handle :| ReachableIn(heap, meta, root, y, n - 1) && LeadsTo(heap, meta, y, x);
      ClosedCoversReachable(heap, meta, processed, root, g, y, n - 1);
      ClosedStep(heap, meta, processed, y, x, g);
    }
  }

  lemma ClosedStep(heap: Heap, meta: ClassId -> BeanMeta, processed: set<(Handle, GroupId)>, y: Handle, x: Handle, g: GroupId)
    requires NewClosed(heap, meta, {}, processed) && (y, g) in processed && LeadsTo(heap, meta, y, x)
    ensures (x, g) in processed
  {
    assert x in Children(heap, meta, (y, g).0) && (y, g) !in {};
  }

  // ---------------------------------------------------------------- which violations a walk records

  /**
   * `v` is a violation the walk may record under group `g`: it is about an object of the heap, for a binding its
   * class declares, that applies to `g` and fails on that object, it lies at that binding's property, and the
   * object is marked processed for `g`.
   */
  ghost predicate Genuine(heap: Heap, meta: ClassId -> BeanMeta, fails: (Binding, Subject) -> bool, g: GroupId,
                          v: Violation, processed: set<(Handle, GroupId)>)
  {
    && v.subject.Bean? && v.subject.handle in heap
    && v.constraint in meta(heap[v.subject.handle].cls).constraints
    && g in v.constraint.groups && fails(v.constraint, v.subject)
    && |v.path| > 0 && v.path[|v.path| - 1] == Property(v.constraint.property)
    && (v.subject.handle, g) in processed
  }

  /** Every violation appended since `s0` is genuine for `g` in the records of `s`. */
  ghost predicate AddedGenuine(heap: Heap, meta: ClassId -> BeanMeta, fails: (Binding, Subject) -> bool, g: GroupId,
                               s0: State, s: State)
  {
    forall i :: |s0.failing| <= i < |s.failing| ==> Genuine(heap, meta, fails, g, s.failing[i], s.processed)
  }

  lemma AddedGenuineTrans(heap: Heap, meta: ClassId -> BeanMeta, fails: (Binding, Subject) -> bool, g: GroupId,
                          s0: State, s1: State, s2: State)
    requires AddedGenuine(heap, meta, fails, g, s0, s1) && AddedGenuine(heap, meta, fails, g, s1, s2)
    requires s0.failing <= s1.failing <= s2.failing && s1.processed <= s2.processed
    ensures AddedGenuine(heap, meta, fails, g, s0, s2)
  {
    forall i | |s0.failing| <= i < |s2.failing|
      ensures Genuine(heap, meta, fails, g, s2.failing[i], s2.processed)
    {
      if i < |s1.failing| {
        assert s2.failing[i] == s1.failing[i];
      }
    }
  }

  /**
   * What `validateConstraints` leaves behind for every pair newly marked from `s0` to `s` whose object is in the
   * heap: the object's direct violations for the pair's group are in the list, at the path the pair was marked at.
   */
  ghost predicate Recorded(heap: Heap, meta: ClassId -> BeanMeta, fails: (Binding, Subject) -> bool, s0: State, s: State)
  {
    forall p :: p in s.processed && p !in s0.processed && p.0 in heap ==>
      && p in s.markedAt
      && ContainsAll(s.failing, DirectViolations(meta(heap[p.0].cls).constraints, p.1, Bean(p.0), s.markedAt[p], fails))
  }

  lemma RecordedTrans(heap: Heap, meta: ClassId -> BeanMeta, fails: (Binding, Subject) -> bool,
                      s0: State, s1: State, s2: State)
    requires Recorded(heap, meta, fails, s0, s1) && Recorded(heap, meta, fails, s1, s2)
    requires s1.failing <= s2.failing && s1.processed <= s2.processed && MarksKept(s1, s2)
    ensures Recorded(heap, meta, fails, s0, s2)
  {
    forall p | p in s2.processed && p !in s0.processed && p.0 in heap
      ensures p in s2.markedAt
      ensures ContainsAll(s2.failing, DirectViolations(meta(heap[p.0].cls).constraints, p.1, Bean(p.0), s2.markedAt[p], fails))
    {
      if p in s1.processed {
        ContainsAllGrows(s1.failing, s2.failing,
                         DirectViolations(meta(heap[p.0].cls).constraints, p.1, Bean(p.0), s1.markedAt[p], fails));
      }
    }
  }

  /** The direct violations of an object marked for `g` are genuine for `g`. */
  lemma DirectViolationsGenuine(heap: Heap, meta: ClassId -> BeanMeta, fails: (Binding, Subject) -> bool, h: Handle,
                                g: GroupId, path: seq<Segment>, processed: set<(Handle, GroupId)>)
    requires h in heap && (h, g) in processed
    ensures forall v :: v in DirectViolations(meta(heap[h].cls).constraints, g, Bean(h), path, fails) ==>
              Genuine(heap, meta, fails, g, v, processed)
  {
    var bindings := meta(heap[h].cls).constraints;
    forall v | v in DirectViolations(bindings, g, Bean(h), path, fails)
      ensures Genuine(heap, meta, fails, g, v, processed)
    {
      DirectViolationsExactly(bindings, g, Bean(h), path, fails, v);
      var i :| 0 <= i < |bindings| && g in bindings[i].groups && fails(bindings[i], Bean(h)) &&
               v == Violation(bindings[i], path + [Property(bindings[i].property)], Bean(h));
    }
  }

  /** Appending the direct violations of an object marked for `g` appends only genuine violations. */
  lemma DirectStepGenuine(heap: Heap, meta: ClassId -> BeanMeta, fails: (Binding, Subject) -> bool, h: Handle,
                          g: GroupId, s0: State, s1: State)
    requires h in heap && (h, g) in s1.processed
    requires s1.failing == s0.failing + DirectViolations(meta(heap[h].cls).constraints, g, Bean(h), s0.path, fails)
    ensures AddedGenuine(heap, meta, fails, g, s0, s1)
  {
    var direct := DirectViolations(meta(heap[h].cls).constraints, g, Bean(h), s0.path, fails);
    DirectViolationsGenuine(heap, meta, fails, h, g, s0.path, s1.processed);
    forall i | |s0.failing| <= i < |s1.failing|
      ensures Genuine(heap, meta, fails, g, s1.failing[i], s1.processed)
    {
      assert s1.failing[i] == direct[i - |s0.failing|];
    }
  }

  /** The groups at positions `ran` of `chain`. */
  ghost function RanGroups(chain: seq<Group>, ran: seq<nat>): set<GroupId>
  {
    set t | 0 <= t < |ran| && ran[t] < |chain| :: chain[ran[t]].group
  }

  /** `v` is genuine for one of the groups at positions `ran` of `chain`. */
  ghost predicate GenuineIn(heap: Heap, meta: ClassId -> BeanMeta, fails: (Binding, Subject) -> bool,
                            chain: seq<Group>, ran: seq<nat>, v: Violation, processed: set<(Handle, GroupId)>)
  {
    exists t :: 0 <= t < |ran| && ran[t] < |chain| && Genuine(heap, meta, fails, chain[ran[t]].group, v, processed)
  }

  /** Genuineness for some group that ran survives a further group and more marked pairs. */
  lemma GenuineInGrows(heap: Heap, meta: ClassId -> BeanMeta, fails: (Binding, Subject) -> bool,
                       chain: seq<Group>, ran: seq<nat>, k: nat, v: Violation,
                       processed: set<(Handle, GroupId)>, processed': set<(Handle, GroupId)>)
    requires GenuineIn(heap, meta, fails, chain, ran, v, processed) && processed <= processed'
    ensures GenuineIn(heap, meta, fails, chain, ran + [k], v, processed')
  {
    var t :| 0 <= t < |ran| && ran[t] < |chain| && Genuine(heap, meta, fails, chain[ran[t]].group, v, processed);
    assert (ran + [k])[t] == ran[t];
  }

  /**
   * What a walk of `chain` records from `s0` to `s`: every violation appended is genuine for one of the groups at
   * positions `ran`, and every pair marked has one of those groups.
   */
  ghost predicate WalkGenuine(heap: Heap, meta: ClassId -> BeanMeta, fails: (Binding, Subject) -> bool,
                              chain: seq<Group>, ran: seq<nat>, s0: State, s: State)
  {
    && (forall i :: |s0.failing| <= i < |s.failing| ==> GenuineIn(heap, meta, fails, chain, ran, s.failing[i], s.processed))
    && (forall p :: p in s.processed && p !in s0.processed ==> p.1 in RanGroups(chain, ran))
  }

  /**
   * The violations the group run `t`-th appended, those between the list's size before it (`sizes[t - 1]`, or the
   * starting size for the first) and `sizes[t]`, are genuine for that group.
   */
  ghost predicate SegmentsGenuine(heap: Heap, meta: ClassId -> BeanMeta, fails: (Binding, Subject) -> bool,
                                  chain: seq<Group>, s0: State, ran: seq<nat>, sizes: seq<nat>, s: State)
  {
    forall t, i :: 0 <= t < |ran| && t < |sizes| && ran[t] < |chain| &&
                   (if t == 0 then |s0.failing| else sizes[t - 1]) <= i < sizes[t] && i < |s.failing| ==>
      Genuine(heap, meta, fails, chain[ran[t]].group, s.failing[i], s.processed)
  }

  /** Running the group at `k` from `s1` to `s2` appends the segment of that group and keeps the earlier ones. */
  lemma SegmentsGenuineStep(heap: Heap, meta: ClassId -> BeanMeta, fails: (Binding, Subject) -> bool,
                            chain: seq<Group>, s0: State, ran: seq<nat>, sizes: seq<nat>, k: nat, s1: State, s2: State)
    requires SegmentsGenuine(heap, meta, fails, chain, s0, ran, sizes, s1) && k < |chain|
    requires |ran| == |sizes| && (forall t :: 0 <= t < |sizes| ==> sizes[t] <= |s1.failing|)
    requires |ran| > 0 ==> sizes[|ran| - 1] == |s1.failing|
    requires |ran| == 0 ==> s1.failing == s0.failing
    requires s1.failing <= s2.failing && s1.processed <= s2.processed
    requires AddedGenuine(heap, meta, fails, chain[k].group, s1, s2)
    ensures SegmentsGenuine(heap, meta, fails, chain, s0, ran + [k], sizes + [|s2.failing|], s2)
  {
    var ran', sizes' := ran + [k], sizes + [|s2.failing|];
    forall t, i | 0 <= t < |ran'| && t < |sizes'| && ran'[t] < |chain| &&
                  (if t == 0 then |s0.failing| else sizes'[t - 1]) <= i < sizes'[t] && i < |s2.failing|
      ensures Genuine(heap, meta, fails, chain[ran'[t]].group, s2.failing[i], s2.processed)
    {
      if t < |ran| {
        assert ran'[t] == ran[t] && sizes'[t] == sizes[t];
        assert t > 0 ==> sizes'[t - 1] == sizes[t - 1];
        assert s2.failing[i] == s1.failing[i];
      } else {
        assert ran'[t] == k;
        assert t > 0 ==> sizes'[t - 1] == sizes[|ran| - 1];
      }
    }
  }

  /** Running the group at `k` from `s1` to `s2` extends what the walk records. */
  lemma WalkGenuineStep(heap: Heap, meta: ClassId -> BeanMeta, fails: (Binding, Subject) -> bool,
                        chain: seq<Group>, ran: seq<nat>, k: nat, s0: State, s1: State, s2: State)
    requires k < |chain|
    requires WalkGenuine(heap, meta, fails, chain, ran, s0, s1)
    requires AddedGenuine(heap, meta, fails, chain[k].group, s1, s2)
    requires s1.failing <= s2.failing && s1.processed <= s2.processed
    requires NewPairsIn(s1.processed, s2.processed, {chain[k].group})
    ensures WalkGenuine(heap, meta, fails, chain, ran + [k], s0, s2)
  {
    var ran' := ran + [k];
    assert ran'[|ran|] == k;
    forall i | |s0.failing| <= i < |s2.failing|
      ensures GenuineIn(heap, meta, fails, chain, ran', s2.failing[i], s2.processed)
    {
      if i < |s1.failing| {
        assert s2.failing[i] == s1.failing[i];
        GenuineInGrows(heap, meta, fails, chain, ran, k, s1.failing[i], s1.processed, s2.processed);
      } else {
        assert Genuine(heap, meta, fails, chain[ran'[|ran|]].group, s2.failing[i], s2.processed);
      }
    }
    RanGroupsGrow(chain, ran, k);
  }

  /** Running one more group adds its group to the groups that ran. */
  lemma RanGroupsGrow(chain: seq<Group>, ran: seq<nat>, k: nat)
    requires k < |chain|
    ensures RanGroups(chain, ran + [k]) == RanGroups(chain, ran) + {chain[k].group}
  {
    var ran' := ran + [k];
    assert ran'[|ran|] == k;
    forall t | 0 <= t < |ran| ensures ran'[t] == ran[t] { }
  }

  /** A walk of the one-group chain of `g` records only what is genuine for `g`. */
  lemma SingleGroupWalkGenuine(heap: Heap, meta: ClassId -> BeanMeta, fails: (Binding, Subject) -> bool, g: GroupId,
                               ran: seq<nat>, s0: State, s: State)
    requires WalkGenuine(heap, meta, fails, SingleGroupChain(g), ran, s0, s)
    ensures AddedGenuine(heap, meta, fails, g, s0, s)
  {
    forall i | |s0.failing| <= i < |s.failing|
      ensures Genuine(heap, meta, fails, g, s.failing[i], s.processed)
    {
      assert GenuineIn(heap, meta, fails, SingleGroupChain(g), ran, s.failing[i], s.processed);
    }
  }

  // ---------------------------------------------------------------- steps of the walk

  /**
   * How a step of the walk may change the context's records: violations are only appended and all lie
   * below `below`, and `processed` only grows, by pairs whose group is in `groups`.
   */
  ghost predicate Advanced(s0: State, s: State, below: seq<Segment>, groups: set<GroupId>)
  {
    && AddedBelow(s0.failing, s.failing, below)
    && s0.processed <= s.processed
    && NewPairsIn(s0.processed, s.processed, groups)
    && MarksKept(s0, s)
  }

  /** The path recorded for a pair already processed at `s0` is still recorded, unchanged, at `s`. */
  ghost predicate MarksKept(s0: State, s: State)
  {
    forall p :: p in s0.processed && p in s0.markedAt ==> p in s.markedAt && s.markedAt[p] == s0.markedAt[p]
  }

  lemma AdvancedTrans(s0: State, s1: State, s2: State, p: seq<Segment>, q: seq<Segment>, groups: set<GroupId>)
    requires Advanced(s0, s1, p, groups) && Advanced(s1, s2, q, groups) && p <= q
    ensures Advanced(s0, s2, p, groups)
  {
    AddedBelowTrans(s0.failing, s1.failing, s2.failing, p, q);
  }

  /** The path is only ever extended, and comes back unchanged when no cascaded value is `null`. */
  ghost predicate PathKept(heap: Heap, meta: ClassId -> BeanMeta, before: seq<Segment>, after: seq<Segment>)
  {
    before <= after && (NoNullCascades(heap, meta) ==> after == before)
  }

  /**
   * The walk of `chain` over the object `h` starts with nothing revalidated, distinct groups, and none of
   * them processed for `h` yet.
   */
  ghost predicate Unmarked(chain: seq<Group>, h: Handle, s0: State)
  {
    !s0.revalidated && DistinctGroups(chain) && forall j :: 0 <= j < |chain| ==> (h, chain[j].group) !in s0.processed
  }

  /**
   * What one iteration of `validateInContext` does for the object `h` under group `g`: `g` becomes the
   * current group, `h` is marked processed for it (without revalidating anything when it was not processed
   * before), the direct violations of `h` at the path the iteration started from are recorded, every object
   * its cascaded members lead to is processed for `g`, and so is, for each pair marked on the way, every
   * object that pair's object leads to.
   */
  ghost predicate GroupRan(heap: Heap, meta: ClassId -> BeanMeta, fails: (Binding, Subject) -> bool,
                           h: Handle, g: GroupId, s0: State, s: State)
  {
    && s.validatedObjects == s0.validatedObjects
    && Advanced(s0, s, s0.path, {g})
    && PathKept(heap, meta, s0.path, s.path)
    && (h, g) in s.processed
    && s.currentGroup == Some(g)
    && (!s0.revalidated && (h, g) !in s0.processed ==> !s.revalidated)
    && (h in heap ==> ContainsAll(s.failing, DirectViolations(meta(heap[h].cls).constraints, g, Bean(h), s0.path, fails)))
    && (forall c :: c in Children(heap, meta, h) ==> (c, g) in s.processed)
    && NewClosed(heap, meta, s0.processed, s.processed)
    && AddedGenuine(heap, meta, fails, g, s0, s)
    && Recorded(heap, meta, fails, s0, s)
    && (h in heap && DirectViolations(meta(heap[h].cls).constraints, g, Bean(h), [], fails) != [] ==> |s.failing| > 0)
  }

  /**
   * Setting the current group `g` and validating the direct constraints of `h` appends its direct violations
   * below the path, each of them genuine, and appends at least one when the group has a direct violation on `h`.
   */
  lemma DirectStep(heap: Heap, meta: ClassId -> BeanMeta, fails: (Binding, Subject) -> bool, h: Handle, g: GroupId,
                   s0: State, s1: State)
    requires h in heap
    requires s1.failing == s0.failing + DirectViolations(meta(heap[h].cls).constraints, g, Bean(h), s0.path, fails)
    requires s1.processed == s0.processed + {(h, g)}
    requires s1.markedAt == if (h, g) in s0.processed then s0.markedAt else s0.markedAt[(h, g) := s0.path]
    ensures Advanced(s0, s1, s0.path, {g})
    ensures Recorded(heap, meta, fails, s0, s1)
    ensures ContainsAll(s1.failing, DirectViolations(meta(heap[h].cls).constraints, g, Bean(h), s0.path, fails))
    ensures AddedGenuine(heap, meta, fails, g, s0, s1)
    ensures DirectViolations(meta(heap[h].cls).constraints, g, Bean(h), [], fails) != [] ==> |s1.failing| > 0
  {
    var direct := DirectViolations(meta(heap[h].cls).constraints, g, Bean(h), s0.path, fails);
    DirectViolationsCount(meta(heap[h].cls).constraints, g, Bean(h), s0.path, [], fails);
    DirectStepGenuine(heap, meta, fails, h, g, s0, s1);
    DirectViolationsPaths(meta(heap[h].cls).constraints, g, Bean(h), s0.path, fails);
    AllBelowOf(direct, s0.path);
    assert s1.failing[|s0.failing|..] == direct;
    forall v | v in direct
      ensures v in s1.failing
    {
      var i :| 0 <= i < |direct| && direct[i] == v;
      assert s1.failing[|s0.failing| + i] == v;
    }
  }

  /**
   * One iteration of `validateInContext`, from the facts of its two steps: `s1` is the state after the group is
   * set and the direct constraints are validated, `s` the state after the cascades.
   */
  lemma GroupRanDone(heap: Heap, meta: ClassId -> BeanMeta, fails: (Binding, Subject) -> bool, h: Handle, g: GroupId,
                     s0: State, s1: State, s: State)
    requires h in heap
    requires s1.validatedObjects == s0.validatedObjects && s1.path == s0.path && s1.currentGroup == Some(g)
    requires s1.failing == s0.failing + DirectViolations(meta(heap[h].cls).constraints, g, Bean(h), s0.path, fails)
    requires s1.processed == s0.processed + {(h, g)}
    requires s1.markedAt == if (h, g) in s0.processed then s0.markedAt else s0.markedAt[(h, g) := s0.path]
    requires s1.revalidated == (s0.revalidated || (h, g) in s0.processed)
    requires s.validatedObjects == s1.validatedObjects && s.currentGroup == s1.currentGroup
    requires Advanced(s1, s, s1.path, {g}) && PathKept(heap, meta, s1.path, s.path)
    requires !s1.revalidated ==> !s.revalidated
    requires forall c :: c in Children(heap, meta, h) ==> (c, g) in s.processed
    requires NewClosed(heap, meta, s1.processed, s.processed)
    requires AddedGenuine(heap, meta, fails, g, s1, s)
    requires Recorded(heap, meta, fails, s1, s)
    ensures GroupRan(heap, meta, fails, h, g, s0, s)
  {
    var direct := DirectViolations(meta(heap[h].cls).constraints, g, Bean(h), s0.path, fails);
    DirectStep(heap, meta, fails, h, g, s0, s1);
    AddedGenuineTrans(heap, meta, fails, g, s0, s1, s);
    RecordedTrans(heap, meta, fails, s0, s1, s);
    AdvancedTrans(s0, s1, s, s0.path, s0.path, {g});
    ContainsAllGrows(s1.failing, s.failing, direct);
    forall p, c | p in s.processed && p !in s0.processed && c in Children(heap, meta, p.0)
      ensures (c, p.1) in s.processed
    {
      if p in s1.processed {
        assert p == (h, g);
      }
    }
  }

  /**
   * The groups at positions `ran` have run for the object `h`, starting from `s0`: `sizes` records the length
   * of the violation list after each, the last one is the current group, each marked `h` processed, every pair
   * marked on the way has what its object leads to marked for the same group, and, when no cascaded value is
   * `null`, the list up to `sizes[t]` already holds the direct violations of the groups at `ran[..t + 1]`.
   */
  ghost predicate Walked(heap: Heap, meta: ClassId -> BeanMeta, fails: (Binding, Subject) -> bool,
                         chain: seq<Group>, h: Handle, s0: State, ran: seq<nat>, sizes: seq<nat>, s: State)
  {
    && |ran| == |sizes|
    && (forall t :: 0 <= t < |ran| ==> ran[t] < |chain|)
    && SizesWithin(sizes, |s0.failing|, |s.failing|)
    && (|ran| > 0 ==> sizes[|ran| - 1] == |s.failing| && s.currentGroup == Some(chain[ran[|ran| - 1]].group))
    && (|ran| == 0 ==> s.currentGroup == s0.currentGroup && s.failing == s0.failing && s.path == s0.path)
    && (forall t :: 0 <= t < |ran| ==> (h, chain[ran[t]].group) in s.processed)
    && NewClosed(heap, meta, s0.processed, s.processed)
    && WalkGenuine(heap, meta, fails, chain, ran, s0, s)
    && SegmentsGenuine(heap, meta, fails, chain, s0, ran, sizes, s)
    && Recorded(heap, meta, fails, s0, s)
    && RootRecorded(heap, meta, fails, chain, h, s0, ran, sizes, s)
  }

  /**
   * What the list records about the object `h` itself after the groups at positions `ran`: the direct violations
   * of the first group are in it; once a group with a direct violation on `h` has run, the list is non-empty; and,
   * when no cascaded value is `null`, the list up to `sizes[t]` holds the direct violations of the groups at
   * `ran[..t + 1]`.
   */
  ghost predicate RootRecorded(heap: Heap, meta: ClassId -> BeanMeta, fails: (Binding, Subject) -> bool,
                               chain: seq<Group>, h: Handle, s0: State, ran: seq<nat>, sizes: seq<nat>, s: State)
  {
    && |ran| == |sizes|
    && (forall t :: 0 <= t < |ran| ==> ran[t] < |chain|)
    && (h in heap && |ran| > 0 ==>
          ContainsAll(s.failing, DirectViolations(meta(heap[h].cls).constraints, chain[ran[0]].group, Bean(h), s0.path, fails)))
    && (h in heap ==>
          forall t :: 0 <= t < |ran| && DirectViolations(meta(heap[h].cls).constraints, chain[ran[t]].group, Bean(h), [], fails) != [] ==>
            sizes[t] > 0)
    && (NoNullCascades(heap, meta) && h in heap ==>
          ContainsAll(s.failing, DirectsAlong(meta(heap[h].cls).constraints, chain, ran, Bean(h), s0.path, fails)))
    && (NoNullCascades(heap, meta) && h in heap ==>
          forall t :: 0 <= t < |ran| && sizes[t] <= |s.failing| ==>
            ContainsAll(s.failing[..sizes[t]], DirectsAlong(meta(heap[h].cls).constraints, chain, ran[..t + 1], Bean(h), s0.path, fails)))
  }

  /** Running the group at `k` from `s1` to `s2` keeps what the list records about the object itself. */
  lemma RootRecordedStep(heap: Heap, meta: ClassId -> BeanMeta, fails: (Binding, Subject) -> bool,
                         chain: seq<Group>, h: Handle, s0: State, ran: seq<nat>, sizes: seq<nat>, k: nat,
                         s1: State, s2: State)
    requires RootRecorded(heap, meta, fails, chain, h, s0, ran, sizes, s1) && k < |chain|
    requires forall t :: 0 <= t < |ran| ==> sizes[t] <= |s1.failing|
    requires |ran| == 0 ==> s1.path == s0.path
    requires PathKept(heap, meta, s0.path, s1.path)
    requires GroupRan(heap, meta, fails, h, chain[k].group, s1, s2)
    ensures RootRecorded(heap, meta, fails, chain, h, s0, ran + [k], sizes + [|s2.failing|], s2)
  {
    var g := chain[k].group;
    var ran', sizes' := ran + [k], sizes + [|s2.failing|];
    assert ran'[|ran|] == k && sizes'[|ran|] == |s2.failing|;
    if h in heap {
      var bindings := meta(heap[h].cls).constraints;
      if |ran| > 0 {
        assert ran'[0] == ran[0];
        ContainsAllGrows(s1.failing, s2.failing, DirectViolations(bindings, chain[ran[0]].group, Bean(h), s0.path, fails));
      }
      forall t | 0 <= t < |ran'| && DirectViolations(bindings, chain[ran'[t]].group, Bean(h), [], fails) != []
        ensures sizes'[t] > 0
      {
        if t < |ran| {
          assert ran'[t] == ran[t] && sizes'[t] == sizes[t];
        }
      }
      if NoNullCascades(heap, meta) {
        ContainsAllGrows(s1.failing, s2.failing, DirectsAlong(bindings, chain, ran, Bean(h), s0.path, fails));
        ContainsAllAppend(s2.failing, DirectsAlong(bindings, chain, ran, Bean(h), s0.path, fails),
                          DirectViolations(bindings, g, Bean(h), s0.path, fails));
        DirectsAlongStep(bindings, chain, ran, k, Bean(h), s0.path, fails);
        DirectsTieStep(bindings, chain, ran, sizes, k, Bean(h), s0.path, fails, s1.failing, s2.failing);
      }
    }
  }

  /** What the loop of `validateInContext` keeps with its cursor at `k`. */
  ghost predicate Walking(heap: Heap, meta: ClassId -> BeanMeta, fails: (Binding, Subject) -> bool,
                          chain: seq<Group>, h: Handle, s0: State, k: nat, ran: seq<nat>, sizes: seq<nat>, s: State)
  {
    && WalkPrefix(chain, ran, sizes, k, false)
    && Walked(heap, meta, fails, chain, h, s0, ran, sizes, s)
    && Advanced(s0, s, s0.path, GroupsBefore(chain, k))
    && PathKept(heap, meta, s0.path, s.path)
    && (Unmarked(chain, h, s0) ==> !s.revalidated)
  }

  lemma WalkingStart(heap: Heap, meta: ClassId -> BeanMeta, fails: (Binding, Subject) -> bool,
                     chain: seq<Group>, h: Handle, s0: State)
    ensures Walking(heap, meta, fails, chain, h, s0, 0, [], [], s0)
  {
    assert s0.failing[|s0.failing|..] == [];
  }

  /** Running the group under the cursor and moving the cursor on keeps the loop's facts. */
  lemma WalkingStep(heap: Heap, meta: ClassId -> BeanMeta, fails: (Binding, Subject) -> bool,
                    chain: seq<Group>, h: Handle, s0: State, k: nat, ran: seq<nat>, sizes: seq<nat>,
                    s1: State, s2: State, k': nat)
    requires Walking(heap, meta, fails, chain, h, s0, k, ran, sizes, s1) && k < |chain|
    requires GroupRan(heap, meta, fails, h, chain[k].group, s1, s2)
    requires k' == NextCursor(chain, k, |s2.failing| > 0, false)
    ensures Walking(heap, meta, fails, chain, h, s0, k', ran + [k], sizes + [|s2.failing|], s2)
  {
    var g := chain[k].group;
    if Unmarked(chain, h, s0) {
      DistinctNotBefore(chain, k);
      assert (h, g) !in s1.processed;
    }
    AddedBelowTrans(s0.failing, s1.failing, s2.failing, s0.path, s1.path);
    NewPairsWiden(s0.processed, s1.processed, s2.processed, chain, k, g);
    GroupsBeforeGrow(chain, k + 1, k');
    WalkStep(chain, ran, sizes, k, false, |s2.failing|);
    WalkedStep(heap, meta, fails, chain, h, s0, ran, sizes, k, s1, s2);
  }

  /** Running the group at `k` from `s1` to `s2` extends what the walk records by that group and the new size. */
  lemma WalkedStep(heap: Heap, meta: ClassId -> BeanMeta, fails: (Binding, Subject) -> bool,
                   chain: seq<Group>, h: Handle, s0: State, ran: seq<nat>, sizes: seq<nat>, k: nat,
                   s1: State, s2: State)
    requires Walked(heap, meta, fails, chain, h, s0, ran, sizes, s1) && k < |chain|
    requires PathKept(heap, meta, s0.path, s1.path)
    requires GroupRan(heap, meta, fails, h, chain[k].group, s1, s2)
    ensures Walked(heap, meta, fails, chain, h, s0, ran + [k], sizes + [|s2.failing|], s2)
  {
    SizesGrow(sizes, |s0.failing|, |s1.failing|, |s2.failing|);
    NewClosedTrans(heap, meta, s0.processed, s1.processed, s2.processed);
    WalkGenuineStep(heap, meta, fails, chain, ran, k, s0, s1, s2);
    SegmentsGenuineStep(heap, meta, fails, chain, s0, ran, sizes, k, s1, s2);
    RecordedTrans(heap, meta, fails, s0, s1, s2);
    RootRecordedStep(heap, meta, fails, chain, h, s0, ran, sizes, k, s1, s2);
    assert (ran + [k])[|ran|] == k;
  }

  /** The list up to each recorded size keeps the direct violations it held, and the new size holds them all. */
  lemma DirectsTieStep(bindings: seq<Binding>, chain: seq<Group>, ran: seq<nat>, sizes: seq<nat>, k: nat,
                       subject: Subject, path: seq<Segment>, fails: (Binding, Subject) -> bool,
                       before: seq<Violation>, after: seq<Violation>)
    requires (forall t :: 0 <= t < |ran| ==> ran[t] < |chain|) && k < |chain|
    requires |ran| == |sizes| && (forall t :: 0 <= t < |ran| ==> sizes[t] <= |before|) && before <= after
    requires forall t :: 0 <= t < |ran| ==>
               ContainsAll(before[..sizes[t]], DirectsAlong(bindings, chain, ran[..t + 1], subject, path, fails))
    requires ContainsAll(after, DirectsAlong(bindings, chain, ran + [k], subject, path, fails))
    ensures forall t :: 0 <= t < |ran| + 1 ==>
              ContainsAll(after[..(sizes + [|after|])[t]], DirectsAlong(bindings, chain, (ran + [k])[..t + 1], subject, path, fails))
  {
    var ran', sizes' := ran + [k], sizes + [|after|];
    forall t | 0 <= t < |ran'|
      ensures ContainsAll(after[..sizes'[t]], DirectsAlong(bindings, chain, ran'[..t + 1], subject, path, fails))
    {
      if t < |ran| {
        assert ran'[..t + 1] == ran[..t + 1];
        assert after[..sizes'[t]] == before[..sizes[t]];
      } else {
        assert ran'[..t + 1] == ran';
        assert after[..sizes'[t]] == after;
      }
    }
  }

  /**
   * The skip decision sees the object's own failures: once a group whose direct constraints fail on the object
   * has run, the violation list is non-empty after it and after every later group.
   */
  lemma WalkedSizesPositive(heap: Heap, meta: ClassId -> BeanMeta, fails: (Binding, Subject) -> bool,
                            chain: seq<Group>, h: Handle, s0: State, ran: seq<nat>, sizes: seq<nat>, s: State,
                            t: nat, u: nat, v: Violation)
    requires Walked(heap, meta, fails, chain, h, s0, ran, sizes, s) && h in heap
    requires u <= t < |ran|
    requires v in DirectViolations(meta(heap[h].cls).constraints, chain[ran[u]].group, Bean(h), [], fails)
    ensures sizes[t] > 0
  {
    assert sizes[u] > 0;
    if u < t {
      assert sizes[u] <= sizes[t];
    }
  }

  /** Every violation in `result` is genuine for one of the groups at positions `ran` of `chain`. */
  ghost predicate AllGenuine(heap: Heap, meta: ClassId -> BeanMeta, fails: (Binding, Subject) -> bool,
                             chain: seq<Group>, ran: seq<nat>, result: set<Violation>, processed: set<(Handle, GroupId)>)
  {
    forall v :: v in result ==> GenuineIn(heap, meta, fails, chain, ran, v, processed)
  }

  /**
   * A finished walk from a context with an empty list and nothing processed records nothing else: every violation
   * in the list is a failing binding of an object processed for one of the groups that ran, and every pair marked
   * has one of those groups.
   */
  lemma WalkResultGenuine(heap: Heap, meta: ClassId -> BeanMeta, fails: (Binding, Subject) -> bool,
                          chain: seq<Group>, h: Handle, s0: State, ran: seq<nat>, sizes: seq<nat>, s: State)
    requires Walked(heap, meta, fails, chain, h, s0, ran, sizes, s) && s0.failing == [] && s0.processed == {}
    ensures forall v :: v in s.failing ==> GenuineIn(heap, meta, fails, chain, ran, v, s.processed)
    ensures forall p :: p in s.processed ==> p.1 in RanGroups(chain, ran)
  {
    forall v | v in s.failing
      ensures GenuineIn(heap, meta, fails, chain, ran, v, s.processed)
    {
      var i :| 0 <= i < |s.failing| && s.failing[i] == v;
      assert |s0.failing| <= i;
    }
  }

  /**
   * A finished walk from a context with nothing processed covers the object's whole cascade graph: every object
   * reachable from `h` is processed for every group that ran.
   */
  lemma WalkCoversReachable(heap: Heap, meta: ClassId -> BeanMeta, fails: (Binding, Subject) -> bool,
                            chain: seq<Group>, h: Handle, s0: State, ran: seq<nat>, sizes: seq<nat>, s: State)
    requires Walked(heap, meta, fails, chain, h, s0, ran, sizes, s) && s0.processed == {}
    ensures forall t, x: Handle :: 0 <= t < |ran| && Reachable(heap, meta, h, x) ==> (x, chain[ran[t]].group) in s.processed
  {
    forall t, x: Handle | 0 <= t < |ran| && Reachable(heap, meta, h, x)
      ensures (x, chain[ran[t]].group) in s.processed
    {
      var n: nat :| ReachableIn(heap, meta, h, x, n);
      ClosedCoversReachable(heap, meta, s.processed, h, chain[ran[t]].group, x, n);
    }
  }

  /**
   * Every pair of `processed` whose object is in the heap has that object's direct violations for the pair's
   * group in `result`, at the path `markedAt` records for the pair.
   */
  ghost predicate AllRecorded(heap: Heap, meta: ClassId -> BeanMeta, fails: (Binding, Subject) -> bool,
                              result: set<Violation>, processed: set<(Handle, GroupId)>,
                              markedAt: map<(Handle, GroupId), seq<Segment>>)
  {
    forall p :: p in processed && p.0 in heap ==>
      && p in markedAt
      && forall v :: v in DirectViolations(meta(heap[p.0].cls).constraints, p.1, Bean(p.0), markedAt[p], fails) ==> v in result
  }

  /**
   * A finished walk from a context with nothing processed has, for every pair it marked on an object of the heap,
   * that object's direct violations for the pair's group in the list, at the path the pair was marked at.
   */
  lemma WalkRecordsMarked(heap: Heap, meta: ClassId -> BeanMeta, fails: (Binding, Subject) -> bool,
                          chain: seq<Group>, h: Handle, s0: State, ran: seq<nat>, sizes: seq<nat>, s: State)
    requires Walked(heap, meta, fails, chain, h, s0, ran, sizes, s) && s0.processed == {}
    ensures AllRecorded(heap, meta, fails, (set v | v in s.failing), s.processed, s.markedAt)
  {
    assert Recorded(heap, meta, fails, s0, s);
  }

  /** The measure of the group about to run is no larger than the measure the walk started with. */
  lemma WalkingMeasure(heap: Heap, gs: set<GroupId>, chain: seq<Group>, h: Handle, s0: State, k: nat, s1: State)
    requires k < |chain| && s0.processed <= s1.processed
    requires |s0.validatedObjects| > 0 && s0.validatedObjects[|s0.validatedObjects| - 1] == Ptr(h)
    ensures Universe(heap, gs) - s1.processed - {(h, chain[k].group)} <=
            Universe(heap, gs) - s0.processed - TopPair(s0.validatedObjects, chain)
  {
    assert TopPair(s0.validatedObjects, chain) <= s1.processed + {(h, chain[k].group)} by {
      if |chain| == 1 {
        assert k == 0;
      }
    }
    MeasureNoLarger(Universe(heap, gs), s0.processed, s1.processed, TopPair(s0.validatedObjects, chain), {(h, chain[k].group)});
  }

  /**
   * A finished walk of the one-group chain of `g` leaves the current group at `g` (or untouched when nothing ran),
   * has marked the object processed for `g`, and has added only violations genuine for `g`.
   */
  lemma SingleGroupWalkDone(heap: Heap, meta: ClassId -> BeanMeta, fails: (Binding, Subject) -> bool, g: GroupId,
                            h: Handle, s0: State, ran: seq<nat>, sizes: seq<nat>, s: State)
    requires IsSchedule(SingleGroupChain(g), ran, sizes, false)
    requires Walked(heap, meta, fails, SingleGroupChain(g), h, s0, ran, sizes, s)
    ensures s.currentGroup == s0.currentGroup ||
            (s.currentGroup.Some? && s.currentGroup.value in ChainGroups(SingleGroupChain(g)))
    ensures (h, g) in s.processed
    ensures AddedGenuine(heap, meta, fails, g, s0, s)
    ensures Recorded(heap, meta, fails, s0, s)
    ensures h in heap ==> ContainsAll(s.failing, DirectViolations(meta(heap[h].cls).constraints, g, Bean(h), s0.path, fails))
  {
    var chain := SingleGroupChain(g);
    assert ran[0] == 0 && chain[0].group == g;
    var last := ran[|ran| - 1];
    assert last < |chain|;
    assert chain[last].group in ChainGroups(chain);
    SingleGroupWalkGenuine(heap, meta, fails, g, ran, s0, s);
  }

  // ---------------------------------------------------------------- the cascaded members of one object

  /**
   * What the loop of `validateCascadedConstraints` keeps under group `g` after the first `i` of the cascaded
   * members `members` of the object `o`, starting from `s0`: besides how the records changed, every violation
   * added is genuine for `g`, every object those members lead to is processed for `g`, and so is, for each pair
   * marked on the way, every object that pair's object leads to.
   */
  ghost predicate MembersCascaded(heap: Heap, meta: ClassId -> BeanMeta, fails: (Binding, Subject) -> bool,
                                  o: HeapObject, members: seq<CascadeMember>, i: nat, g: GroupId, s0: State, s: State)
  {
    && i <= |members|
    && s.validatedObjects == s0.validatedObjects && s.currentGroup == s0.currentGroup
    && Advanced(s0, s, s0.path, {g})
    && PathKept(heap, meta, s0.path, s.path)
    && (!s0.revalidated ==> !s.revalidated)
    && NewClosed(heap, meta, s0.processed, s.processed)
    && AddedGenuine(heap, meta, fails, g, s0, s)
    && Recorded(heap, meta, fails, s0, s)
    && (forall c :: c in ChildrenAmong(heap, o, members[..i]) ==> (c, g) in s.processed)
  }

  lemma MembersStart(heap: Heap, meta: ClassId -> BeanMeta, fails: (Binding, Subject) -> bool,
                     o: HeapObject, members: seq<CascadeMember>, g: GroupId, s0: State)
    ensures MembersCascaded(heap, meta, fails, o, members, 0, g, s0, s0)
  {
    assert s0.failing[|s0.failing|..] == [];
    assert members[..0] == [];
  }

  /**
   * What one pass of `validateCascadedConstraints`' loop does with the cascaded member `m` of `o` under group `g`:
   * violations are only added below the path it started from, which comes back unchanged when no cascaded value
   * is `null`, and each is genuine for `g`; nothing is revalidated; every object the member leads to is processed
   * for `g`; and every pair marked on the way has what its object leads to marked for the same group.
   */
  ghost predicate MemberWalked(heap: Heap, meta: ClassId -> BeanMeta, fails: (Binding, Subject) -> bool,
                               o: HeapObject, m: CascadeMember, g: GroupId, s: State, s': State)
  {
    && s'.validatedObjects == s.validatedObjects && s'.currentGroup == s.currentGroup
    && Advanced(s, s', s.path, {g})
    && PathKept(heap, meta, s.path, s'.path)
    && (!s.revalidated ==> !s'.revalidated)
    && NewClosed(heap, meta, s.processed, s'.processed)
    && AddedGenuine(heap, meta, fails, g, s, s')
    && Recorded(heap, meta, fails, s, s')
    && (forall c :: c in MemberChildren(heap, o, m) ==> (c, g) in s'.processed)
  }

  /** A `null` member value leaves its name on the path; this can only happen when some cascaded value is `null`. */
  lemma MemberNullWalked(heap: Heap, meta: ClassId -> BeanMeta, fails: (Binding, Subject) -> bool,
                         o: HeapObject, m: CascadeMember, g: GroupId, s: State, s': State)
    requires m.name in o.fields && o.fields[m.name].Null? && !NoNullCascades(heap, meta)
    requires s' == s.(path := s'.path) && s.path <= s'.path
    ensures MemberWalked(heap, meta, fails, o, m, g, s, s')
  {
    assert s'.failing[|s.failing|..] == [];
  }

  /**
   * A member whose value was walked: `s1` is the context with the member's name pushed (and, for a container,
   * its index slot appended), `s2` the context after the value's elements `elems` were walked, `s3` after the pop.
   */
  lemma MemberValueWalked(heap: Heap, meta: ClassId -> BeanMeta, fails: (Binding, Subject) -> bool,
                          o: HeapObject, m: CascadeMember, elems: seq<Element>,
                          g: GroupId, s: State, s1: State, s2: State, s3: State)
    requires m.name in o.fields && o.fields[m.name].Ptr? && o.fields[m.name].handle in heap
    requires elems == CascadeElements(heap, m.kind, o.fields[m.name])
    requires |s1.path| > 0 && Parent(s1.path) == s.path
    requires s1 == s.(path := s1.path)
    requires s2.validatedObjects == s1.validatedObjects && s2.currentGroup == s1.currentGroup
    requires Advanced(s1, s2, Parent(s1.path), {g})
    requires !s1.revalidated ==> !s2.revalidated
    requires NewClosed(heap, meta, s1.processed, s2.processed)
    requires AddedGenuine(heap, meta, fails, g, s1, s2)
    requires Recorded(heap, meta, fails, s1, s2)
    requires forall j :: 0 <= j < |elems| && elems[j].value.Ptr? ==> (elems[j].value.handle, g) in s2.processed
    requires |s2.path| >= |s1.path| && Parent(s1.path) <= s2.path
    requires NoNullCascades(heap, meta) ==> |s2.path| == |s1.path|
    requires |s2.path| > 0 && s3 == s2.(path := Parent(s2.path))
    ensures MemberWalked(heap, meta, fails, o, m, g, s, s3)
  {
    assert s.path <= s3.path;
    forall c | c in MemberChildren(heap, o, m)
      ensures (c, g) in s3.processed
    {
      var j :| 0 <= j < |elems| && elems[j].value.Ptr? && elems[j].value.handle == c;
    }
  }

  /** A walked member extends the loop's facts by one member. */
  lemma MembersStep(heap: Heap, meta: ClassId -> BeanMeta, fails: (Binding, Subject) -> bool,
                    o: HeapObject, members: seq<CascadeMember>, i: nat, g: GroupId, s0: State, s: State, s': State)
    requires MembersCascaded(heap, meta, fails, o, members, i, g, s0, s) && i < |members|
    requires MemberWalked(heap, meta, fails, o, members[i], g, s, s')
    ensures MembersCascaded(heap, meta, fails, o, members, i + 1, g, s0, s')
  {
    AdvancedTrans(s0, s, s', s0.path, s.path, {g});
    NewClosedTrans(heap, meta, s0.processed, s.processed, s'.processed);
    AddedGenuineTrans(heap, meta, fails, g, s0, s, s');
    RecordedTrans(heap, meta, fails, s0, s, s');
    assert members[..i + 1][..i] == members[..i];
  }

  /** After the last member, every object the cascaded members of `h` lead to is processed for `g`. */
  lemma MembersDone(heap: Heap, meta: ClassId -> BeanMeta, fails: (Binding, Subject) -> bool,
                    h: Handle, g: GroupId, s0: State, s: State)
    requires h in heap
    requires MembersCascaded(heap, meta, fails, heap[h], meta(heap[h].cls).cascaded, |meta(heap[h].cls).cascaded|, g, s0, s)
    ensures forall c :: c in Children(heap, meta, h) ==> (c, g) in s.processed
  {
    var members := meta(heap[h].cls).cascaded;
    assert members[..|members|] == members;
  }

  // ---------------------------------------------------------------- the elements of one cascaded value

  /**
   * What the loop of `validateCascadedConstraint` keeps after the first `i` elements under group `g`, when
   * it started from `s0` with the cascaded member's segment `member` at the end of the path `parent + [member]`:
   * each of those elements is processed for `g`, nothing was revalidated, the violations added lie below
   * `parent` and are genuine for `g`, and, when no cascaded value is `null`, the path has the starting shape and
   * every violation added lies below the member's segment carrying the index rendered for one of those elements.
   */
  ghost predicate Cascading(heap: Heap, meta: ClassId -> BeanMeta, fails: (Binding, Subject) -> bool,
                            elems: seq<Element>, g: GroupId, parent: seq<Segment>, member: Segment,
                            s0: State, i: nat, s: State)
  {
    && i <= |elems|
    && s0.path == parent + [member]
    && s0.currentGroup == Some(g)
    && s.validatedObjects == s0.validatedObjects && s.currentGroup == s0.currentGroup
    && Advanced(s0, s, parent, {g})
    && (forall j :: 0 <= j < i && elems[j].value.Ptr? ==> (elems[j].value.handle, g) in s.processed)
    && NewClosed(heap, meta, s0.processed, s.processed)
    && AddedGenuine(heap, meta, fails, g, s0, s)
    && Recorded(heap, meta, fails, s0, s)
    && (!s0.revalidated ==> !s.revalidated)
    && |s.path| >= |s0.path| && parent <= s.path
    && (NoNullCascades(heap, meta) ==> |s.path| == |s0.path| && SameShape(s.path[|s.path| - 1], member))
    && (NoNullCascades(heap, meta) ==> RenderedBelow(s.failing, |s0.failing|, elems, i, parent, member))
  }

  lemma CascadingStart(heap: Heap, meta: ClassId -> BeanMeta, fails: (Binding, Subject) -> bool,
                       elems: seq<Element>, g: GroupId, s0: State)
    requires |s0.path| > 0 && s0.currentGroup == Some(g)
    ensures Cascading(heap, meta, fails, elems, g, Parent(s0.path), Last(s0.path), s0, 0, s0)
  {
    assert s0.failing[|s0.failing|..] == [];
  }

  /** An element already processed for `g` is passed over. */
  lemma CascadingSkip(heap: Heap, meta: ClassId -> BeanMeta, fails: (Binding, Subject) -> bool,
                      elems: seq<Element>, g: GroupId, parent: seq<Segment>, member: Segment,
                      s0: State, i: nat, s: State)
    requires Cascading(heap, meta, fails, elems, g, parent, member, s0, i, s) && i < |elems|
    requires elems[i].value.Ptr? && (elems[i].value.handle, g) in s.processed
    ensures Cascading(heap, meta, fails, elems, g, parent, member, s0, i + 1, s)
  {
    if NoNullCascades(heap, meta) {
      assert s.failing[|s.failing|..] == [];
      RenderedBelowStep(s.failing, s.failing, |s0.failing|, elems, i, parent, member);
    }
  }

  /**
   * One element not yet processed for `g` was walked: from `s`, the element's index `index` was filled into the
   * last path segment, the element was validated under the one-group chain of `g`, and it was popped again.
   * The violations added lie below the filled-in path and are genuine for `g`; the element's own direct
   * violations for `g` are among them, at the filled-in path, and so are those of every pair marked on the way,
   * at the path it was marked at; the element is now processed for `g`, every pair marked on the way has what
   * its object leads to marked for the same group, and a `null` element changes nothing.
   */
  ghost predicate ElementWalked(heap: Heap, meta: ClassId -> BeanMeta, fails: (Binding, Subject) -> bool,
                                value: Ref, g: GroupId, index: string, s: State, s': State)
  {
    && |s.path| > 0
    && s'.validatedObjects == s.validatedObjects && s'.currentGroup == s.currentGroup
    && Advanced(s, s', Parent(s.path) + [SetIndex(Last(s.path), index)], {g})
    && PathKept(heap, meta, Parent(s.path) + [SetIndex(Last(s.path), index)], s'.path)
    && (value.Ptr? ==> (value.handle, g) in s'.processed && (!s.revalidated ==> !s'.revalidated))
    && (value.Null? ==> s'.failing == s.failing && s'.processed == s.processed && s'.revalidated == s.revalidated)
    && NewClosed(heap, meta, s.processed, s'.processed)
    && AddedGenuine(heap, meta, fails, g, s, s')
    && Recorded(heap, meta, fails, s, s')
    && (value.Ptr? && value.handle in heap ==>
          ContainsAll(s'.failing, DirectViolations(meta(heap[value.handle].cls).constraints, g, Bean(value.handle),
                                                   Parent(s.path) + [SetIndex(Last(s.path), index)], fails)))
  }

  /**
   * The facts of the three steps of one element make `ElementWalked`: `s1` is the context after the index is
   * filled in and the element pushed, `s2` after the one-group walk, `s3` after the pop.
   */
  lemma ElementDone(heap: Heap, meta: ClassId -> BeanMeta, fails: (Binding, Subject) -> bool,
                    value: Ref, g: GroupId, index: string, s: State, s1: State, ran: seq<nat>, sizes: seq<nat>,
                    s2: State, s3: State)
    requires |s.path| > 0 && s.currentGroup == Some(g)
    requires !(value.Ptr? && (value.handle, g) in s.processed)
    requires s1.path == Parent(s.path) + [SetIndex(Last(s.path), index)]
    requires s1.failing == s.failing && s1.processed == s.processed && s1.revalidated == s.revalidated
    requires s1.markedAt == s.markedAt && s1.currentGroup == s.currentGroup
    requires Advanced(s1, s2, s1.path, ChainGroups(SingleGroupChain(g))) && PathKept(heap, meta, s1.path, s2.path)
    requires value.Null? ==> s2 == s1
    requires value.Ptr? && Unmarked(SingleGroupChain(g), value.handle, s1) ==> !s2.revalidated
    requires value.Ptr? ==>
               && IsSchedule(SingleGroupChain(g), ran, sizes, false)
               && Walked(heap, meta, fails, SingleGroupChain(g), value.handle, s1, ran, sizes, s2)
    requires s3.validatedObjects == s.validatedObjects && s3.path == s2.path && s3.currentGroup == s2.currentGroup
    requires s3.failing == s2.failing && s3.processed == s2.processed && s3.revalidated == s2.revalidated
    requires s3.markedAt == s2.markedAt
    ensures ElementWalked(heap, meta, fails, value, g, index, s, s3)
  {
    SingleGroupChainGroups(g);
    if value.Ptr? {
      SingleGroupWalkDone(heap, meta, fails, g, value.handle, s1, ran, sizes, s2);
      if !s.revalidated {
        assert Unmarked(SingleGroupChain(g), value.handle, s1) by {
          assert SingleGroupChain(g)[0].group == g;
        }
      }
    } else {
      assert s2.failing[|s1.failing|..] == [];
    }
  }

  /** A walked element extends the loop's facts by one position. */
  lemma CascadingStep(heap: Heap, meta: ClassId -> BeanMeta, fails: (Binding, Subject) -> bool,
                      elems: seq<Element>, g: GroupId, parent: seq<Segment>, member: Segment,
                      s0: State, i: nat, s: State, s': State)
    requires Cascading(heap, meta, fails, elems, g, parent, member, s0, i, s) && i < |elems|
    requires ElementWalked(heap, meta, fails, elems[i].value, g, RenderedIndex(elems[i], i), s, s')
    ensures Cascading(heap, meta, fails, elems, g, parent, member, s0, i + 1, s')
  {
    var rendered := Parent(s.path) + [SetIndex(Last(s.path), RenderedIndex(elems[i], i))];
    assert Parent(s.path) == parent + s.path[|parent|..|s.path| - 1];
    AdvancedTrans(s0, s, s', parent, rendered, {g});
    NewClosedTrans(heap, meta, s0.processed, s.processed, s'.processed);
    AddedGenuineTrans(heap, meta, fails, g, s0, s, s');
    RecordedTrans(heap, meta, fails, s0, s, s');
    if NoNullCascades(heap, meta) {
      assert Parent(s.path) == parent;
      RenderedBelowStep(s.failing, s'.failing, |s0.failing|, elems, i, parent, member);
    }
  }
}

=== FILE: wrappers.dfy ===
/** Option and Result, used for Java's nullable references and thrown usage errors. */
module Wrappers {
  datatype Option<+T> = None | Some(value: T)

  datatype Result<+T, +E> = Success(value: T) | Failure(error: E)
}
